=== FILE: README.md ===
# S3Bridge-mw in Dafny

S3Bridge-mw hands out short-lived AWS credentials to holders of a Midway
login cookie. This project models its core as pure functions over immutable
data and proves properties of them. The core covered here is:

- the two API Gateway Lambda authorizers. Each one finds a Midway cookie,
  decodes the JWT payload, extracts a username and answers with an IAM
  policy or `Unauthorized`.
- the credential-service Lambda. It loads the service registry from its
  environment, applies `restricted_users` and assumes the service role.
- the two client-side credential providers, each a two-field cache with a
  10-minute safety margin. They read the Midway cookie from the
  environment or from the cookie file.
- the bucket-access check of the universal S3 client.
- the four administration scripts: add, edit, remove and list a service.
- the account-derived names in `config/aws_config.py`.

Modules follow the source files:

| module | models |
|---|---|
| `Wrappers`, `Text`, `Glob`, `OrderedDict` | Python's `Optional`/exceptions, `str` operations, `fnmatch`, and insertion-ordered `dict` |
| `UsernamePattern` | the two `logged_in_username` regular expressions |
| `MidwayAuthorizer`, `S3BridgeAuthorizer`, `UniversalAuthorizer` | the authorizers' shared pipeline and the two handlers |
| `Registry`, `AwsConfig`, `CredentialService` | service records, `SERVICE_<NAME>` variables, ARNs, the credential service |
| `CredentialCache`, `S3BridgeAuth`, `UniversalAuth`, `UniversalS3Client` | the client-side providers and the S3 client wrapper |
| `AddService`, `EditService`, `RemoveService`, `ListServices` | the administration scripts |
| `Gateway` | authorizer and credential service composed, as API Gateway chains them |

The model stands in for external behaviour as follows:

- **Library codecs.** Percent-decoding, base64, UTF-8, JSON, `int()` and
  `datetime.fromisoformat` are function-valued parameters (`Codecs`,
  `JsonCodec`, `IsoParser`). A property that needs a codec to behave
  (for example `loads(dumps(r)) == r`) says so in its requires.
- **Cloud, network and host.** STS `assume_role`, the IAM, Lambda and
  CloudFormation calls, HTTP, `mwinit`, files, the clock and interactive
  prompts are inputs. They appear as records such as `Runtime`, `World`,
  `Cloud`, `EditCloud` and `RemoveCloud`.
- **Time.** Time is an integer number of seconds.
- **Environments and JSON.** Lambda environments, query strings and the
  authorizer context are `OrderedDict.Dict`, a sequence of key/value
  pairs. Iteration order matters: when two variables lower-case to the
  same service name, the later one wins. A service record is a
  `Registry.Json`: an object with the keys the code reads (`role`,
  `buckets`, `restricted_users`, and whether any other key is present) or
  a non-object value. The credential service's reply body is a
  `CredentialCache.CredJson`, one optional field per key read.
- **Constants.** `AwsConfig.StackName` is `s3bridge-mw` and
  `AwsConfig.DefaultRegion` is `us-east-1`.

## Model

| member | source | states |
|---|---|---|
| MidwayAuthorizer.CookieString | lambda_functions/s3bridge_mw_midway_authorizer.py:11-12 | the cookie string is the first non-empty of header `Cookie`, header `cookie` and `authorizationToken`; it is empty only when all three are |
| MidwayAuthorizer.Pad | lambda_functions/s3bridge_mw_midway_authorizer.py:47 | the padded payload keeps the payload as a prefix, adds only `=`, has a length that is a multiple of 4 and is 1 to 4 characters longer (always at least one `=`) |
| MidwayAuthorizer.PayloadText | lambda_functions/s3bridge_mw_midway_authorizer.py:42-48 | a cookie value with fewer than two `.`-separated parts yields no payload; otherwise the payload is the decoding of the second part alone |
| MidwayAuthorizer.SegmentValue | lambda_functions/s3bridge_mw_midway_authorizer.py:36-38 | a cookie segment has a value (no `IndexError`) exactly when it contains `=`, and the value is the percent-decoding of the stripped text after the first `=` |
| MidwayAuthorizer.Claim | lambda_functions/s3bridge_mw_midway_authorizer.py:48-54 | a name comes back exactly when the username pattern matches somewhere in the decoded payload, and it is the capture of the leftmost match, as `re.search` returns it |
| MidwayAuthorizer.SegmentIdentity | lambda_functions/s3bridge_mw_midway_authorizer.py:38-70 | a segment without `=` gives `authenticated_user`; a claim in the payload is the identity; without a claim the identity is `zavaugha` exactly when the lower-cased decoded value contains it, and `authenticated_user` otherwise |
| MidwayAuthorizer.FirstWith | lambda_functions/s3bridge_mw_midway_authorizer.py:33-35 | the segment the loop processes holds the marker, and no earlier segment does; no index means that no segment holds it |
| MidwayAuthorizer.Handle | lambda_functions/s3bridge_mw_midway_authorizer.py:11-104 | every failure is `Unauthorized`; without a marker the result is a failure; a returned policy's principal is outside the deny-list, the principal equals context `userId` and `stringKey`, and the policy allows only `execute-api:Invoke` on the method ARN |
| MidwayAuthorizer.HandleSucceeds | lambda_functions/s3bridge_mw_midway_authorizer.py:16-99 | with a marker present, a method ARN given and an extracted identity other than `test_user` or `demo_user`, the handler answers with a policy (the converse is in `Handle`'s contract) |
| MidwayAuthorizer.HandleAuthorizes | lambda_functions/s3bridge_mw_midway_authorizer.py:16-99 | with a marker present and a method ARN given, an extracted identity outside the deny-list is exactly the principal of the returned policy |
| MidwayAuthorizer.MarkerSegmentExists | lambda_functions/s3bridge_mw_midway_authorizer.py:16-35 | once the marker occurs in the cookie string, some `;`-segment holds it, so the loop reaches decoding |
| MidwayAuthorizer.IdentityProvenance | lambda_functions/s3bridge_mw_midway_authorizer.py:25-70 | the identity is one of the two fallbacks or the claim found in the value of the first segment that holds the marker |
| MidwayAuthorizer.OnlyFirstSegmentMatters | lambda_functions/s3bridge_mw_midway_authorizer.py:33-68 | because of the `break`, appending any segments after the first marker segment leaves the identity unchanged |
| MidwayAuthorizer.PayloadIgnoresHeader | lambda_functions/s3bridge_mw_midway_authorizer.py:42-45 | replacing the JWT header part does not change the decoded payload |
| MidwayAuthorizer.PayloadIgnoresSignature | lambda_functions/s3bridge_mw_midway_authorizer.py:42-48 | replacing or extending the signature part does not change the decoded payload |
| MidwayAuthorizer.NoDotNoPayload | lambda_functions/s3bridge_mw_midway_authorizer.py:42-43 | a decoded cookie value without `.` yields no payload, hence no claim |
| MidwayAuthorizer.LeftmostCaptureDecides | lambda_functions/s3bridge_mw_midway_authorizer.py:52-56 | for a whole cookie string, the leftmost match of the pattern in the first access segment's payload, with any spacing the gap admits, names the identity |
| MidwayAuthorizer.FallbacksDecide | lambda_functions/s3bridge_mw_midway_authorizer.py:60-70 | for a whole cookie string whose first access segment yields no claim: no `=` gives `authenticated_user`; otherwise `zavaugha` exactly when the lower-cased decoded value contains it, else `authenticated_user` |
| MidwayAuthorizer.ClaimDecides | lambda_functions/s3bridge_mw_midway_authorizer.py:52-56 | whenever the payload holds a claim, the segment identity is that claim, whatever else the payload contains |
| UsernamePattern.MatchAtSound | lambda_functions/s3bridge_mw_midway_authorizer.py:52 | a match found by the position matcher is a capture of the pattern (key, gap, colon, gap, quoted name) |
| UsernamePattern.MatchAtComplete | lambda_functions/s3bridge_mw_midway_authorizer.py:52 | every capture of the pattern at a position is the one the matcher finds there |
| UsernamePattern.NoMatchNoCapture | lambda_functions/s3bridge_mw_midway_authorizer.py:52 | when the matcher fails at a position, no capture of the pattern starts there |
| UsernamePattern.CaptureUnique | lambda_functions/s3bridge_mw_midway_authorizer.py:52 | at one position the pattern captures at most one name |
| UsernamePattern.SearchFrom | lambda_functions/s3bridge_mw_midway_authorizer.py:52-53 | `re.search` returns the leftmost capture: it is a capture at some later position, and no capture starts in between; no result means that no capture exists |
| UsernamePattern.CaptureIsVerbatim | lambda_functions/s3bridge_mw_midway_authorizer.py:52-54 | a found username is non-empty, contains no `"` and occurs between quotes in the payload |
| UsernamePattern.CompactClaimFound | lambda_functions/s3bridge_mw_midway_authorizer.py:52 | the first occurrence of `"logged_in_username":"<name>"`, with no space around the colon, yields `<name>` |
| UsernamePattern.NoBackslashNoMatch | lambda_functions/universal_midway_authorizer.py:48 | the universal authorizer's pattern as written never matches a payload without a backslash |
| S3BridgeAuthorizer.Handler | lambda_functions/s3bridge_mw_midway_authorizer.py:3-104 | the s3bridge-mw authorizer: unauthorized on failure, no policy without markers or method ARN, deny-list excluded, a single Invoke statement on the method ARN |
| S3BridgeAuthorizer.ReadsCompactClaim | lambda_functions/s3bridge_mw_midway_authorizer.py:42-56 | a marker cookie whose payload is `{"logged_in_username":"<name>"}` authorizes `<name>` |
| UniversalAuthorizer.Handler | lambda_functions/universal_midway_authorizer.py:6-95 | the universal authorizer with its pattern as written: same guarantees as the s3bridge-mw handler |
| UniversalAuthorizer.AsWrittenIgnoresPlainPayload | lambda_functions/universal_midway_authorizer.py:48-61 | as written, a payload without backslashes always yields `zavaugha` or `authenticated_user`, never the logged-in username |
| UniversalAuthorizer.IntendedHandler | lambda_functions/universal_midway_authorizer.py:48-51 | the corrected handler (whitespace gaps) with the same guarantees as the handler as written |
| UniversalAuthorizer.FindingWitness | lambda_functions/universal_midway_authorizer.py:48-51 | for the payload `{"logged_in_username":"alice"}` the handler as written authorizes someone other than `alice`; the corrected handler authorizes `alice` |
| AwsConfig.Region | config/aws_config.py:24-26 | the region is the session's, or `us-east-1` when it is unset or empty |
| AwsConfig.LambdaRoleArn | config/aws_config.py:28-31 | the Lambda role ARN is the IAM role ARN of `s3bridge-mw-lambda-role` in the account, at path `/` |
| AwsConfig.ServiceRoleName | scripts/add_service.py:72 | the role name is the service name followed by `-s3-access-role` |
| AwsConfig.ServiceRoleArn | config/aws_config.py:33-35 | a service role ARN is the IAM role ARN of `<service>-s3-access-role` under path `/service-role/` in the account |
| AwsConfig.ServiceRoleArnInjective | config/aws_config.py:33-35 | within one account, different service names give different service role ARNs |
| Registry.EnvKeyRoundTrip | scripts/add_service.py:151 | the service name read back from `SERVICE_` + upper(name), by dropping 8 characters and lower-casing, is the name exactly when the name has no upper-case letter |
| Registry.EnvKeyInjective | scripts/add_service.py:151 | distinct lower-case service names get distinct variables |
| Registry.LoadedFromLastSource | lambda_functions/s3bridge_mw_credential_service.py:21-27 | a loaded service is the record parsed from the last variable with its name, when one parses, else the preloaded entry |
| Registry.LoadedWithoutSource | lambda_functions/s3bridge_mw_credential_service.py:21-27 | a service with no parseable variable keeps its preloaded entry, or stays absent |
| Registry.LoadedOverOthers | lambda_functions/s3bridge_mw_credential_service.py:14-27 | the entries preloaded before the loop affect only the services they name |
| Registry.WrittenRecordReadBack | scripts/add_service.py:160-168 | after writing a record's JSON to the service's variable, the loader returns that record for the service |
| Registry.DeletedRecordGone | scripts/remove_service.py:48 | after deleting the service's variable, the loader no longer finds the service beyond any preloaded entry |
| CredentialService.UniversalRoleArn | lambda_functions/s3bridge_mw_credential_service.py:15 | the universal role is the service role ARN of `universal` |
| CredentialService.GetServiceConfig | lambda_functions/s3bridge_mw_credential_service.py:6-29 | the registry fails (`KeyError`) exactly when an admin username is in effect and `AWS_ACCOUNT_ID` is missing; on success every service other than `universal` is exactly what the `SERVICE_` loader alone reads |
| CredentialService.UniversalSynthesized | lambda_functions/s3bridge_mw_credential_service.py:12-18 | without `SERVICE_UNIVERSAL`, `universal` is present exactly when `ADMIN_USERNAME` is not set to `""` (default `admin`), with buckets `*` and that admin as the only user |
| CredentialService.UniversalOverridden | lambda_functions/s3bridge_mw_credential_service.py:14-27 | a parseable `SERVICE_UNIVERSAL` replaces the synthesized record |
| CredentialService.Caller | lambda_functions/s3bridge_mw_credential_service.py:59-60 | the caller is the authorizer's `userId`, else its `principalId`, else `unknown` |
| CredentialService.Handler | lambda_functions/s3bridge_mw_credential_service.py:31-100 | a non-integer duration gives 500; a registry without `AWS_ACCOUNT_ID` gives 500 `'AWS_ACCOUNT_ID'`; a missing or empty service gives 400 `service parameter required` whatever the registry; an unknown or falsy record gives 400 `Unknown service: <name>`; a caller outside a present `restricted_users` gives 403 `User <caller> not authorized for service <name>`; a non-object record gives 500 with the `TypeError` text; an admitted caller on a record without `role` gives 500 `'role'`; a failing STS call gives 500 with its message; the role assumed is the record's, for `min(duration, 3600)` seconds; 200 exactly when that call succeeds, with the CORS headers and the STS credentials as body |
| CredentialService.IssuedExactlyWhenAdmitted | lambda_functions/s3bridge_mw_credential_service.py:36-78 | credentials are requested exactly when the service is known, the caller is admitted and the duration parses |
| CredentialService.UniversalOnlyForAdmin | lambda_functions/s3bridge_mw_credential_service.py:12-68 | with the synthesized `universal` entry, only the admin username is ever issued universal credentials |
| Gateway.AuthorizerContext | lambda_functions/s3bridge_mw_midway_authorizer.py:81-97 | the context the credential service sees carries the policy's `userId` and `principalId` |
| Gateway.Serve | lambda_functions/s3bridge_mw_credential_service.py:58-60 | the credential service runs exactly when the s3bridge-mw authorizer returns a policy, and its outcome is the handler's answer to the query with that policy's context |
| Gateway.IssuedForCookieIdentity | lambda_functions/s3bridge_mw_credential_service.py:58-78 | the caller the credential service sees is the identity extracted from the cookie, never a deny-listed one, and credentials are requested only when the requested service's record admits that identity |
| CredentialCache.TripleOf | s3bridge_mw/s3bridge_auth.py:98-102 | the cached triple holds exactly the three key fields of the response, and it exists only when all three are present |
| CredentialCache.ExpiryOf | s3bridge_mw/s3bridge_auth.py:104-106 | the expiry is the parsed `Expiration` minus 600 seconds, and it exists whenever `Expiration` is present and parses |
| CredentialCache.Absorb | s3bridge_mw/s3bridge_auth.py:94-113 | a non-200 reply, an unreadable body or a missing key raises with the failure prefix and leaves the cache untouched; a well-formed 200 reply returns its triple and caches it with expiry `Expiration − 600`; a bad `Expiration` raises after storing the new triple with the old expiry; a consistent cache stays consistent |
| CredentialCache.AbsorbSucceedsExactly | s3bridge_mw/s3bridge_auth.py:94-108 | a fetch succeeds exactly on a 200 reply whose body has the three keys and an `Expiration` that parses |
| CredentialCache.AbsorbSuccess | s3bridge_mw/s3bridge_auth.py:94-108 | a successful fetch came from a 200 reply whose body carries the returned triple, and its cached expiry is `Expiration − 600` |
| CredentialCache.FailedRefreshStaysStale | s3bridge_mw/s3bridge_auth.py:94-113 | after a failed refresh the cache is still not a hit, so the next call fetches again |
| CredentialCache.GetCredentials | s3bridge_mw/s3bridge_auth.py:27-38 | a request is sent exactly when the cache is not a hit (no triple, or `now >= expiry`) |
| CredentialCache.Invalidate | s3bridge_mw/s3bridge_auth.py:115-122 | invalidation empties the cache, so at any time it is expired and not a hit |
| CredentialCache.ServedFromCacheUntilExpiry | s3bridge_mw/s3bridge_auth.py:27-38 | after a successful fetch, every call before the expiry returns the same triple without a request; the expiry instant itself counts as expired |
| S3BridgeAuth.NewProvider | s3bridge_mw/s3bridge_auth.py:16-25 | a fresh provider has no expiry, so it is expired at any time |
| S3BridgeAuth.ApiEndpoint | s3bridge_mw/s3bridge_auth.py:40-55 | the endpoint is the API URL plus `/credentials`; it fails when the stack is not deployed or the URL is missing |
| S3BridgeAuth.FirstReadable | s3bridge_mw/s3bridge_auth.py:66-77 | the cookie file used is the first readable one in search order |
| S3BridgeAuth.MidwayCookies | s3bridge_mw/s3bridge_auth.py:57-79 | a non-empty `MIDWAY_COOKIES` wins; otherwise the first readable file; failure exactly when there is neither |
| S3BridgeAuth.FetchFresh | s3bridge_mw/s3bridge_auth.py:81-113 | a fetch either fails before any request (no endpoint or cookie) or sends one request and absorbs its reply |
| S3BridgeAuth.GetCredentials | s3bridge_mw/s3bridge_auth.py:27-32 | a cache hit is served without a request; otherwise the fresh fetch decides |
| S3BridgeAuth.RequestNamesService | s3bridge_mw/s3bridge_auth.py:87-92 | every request carries this provider's service name, `duration=3600` and the cookie header |
| S3BridgeAuth.Invalidate | s3bridge_mw/s3bridge_auth.py:115-122 | after invalidation the provider keeps its service and the next call fetches |
| UniversalAuth.ParseLine | src/universal_auth.py:114-120 | a line yields a cookie only if it contains the separator, has at least 7 fields and field 5 is `amazon_enterprise_access` or `session`; the value is field 6 |
| UniversalAuth.ParseCookieFile | src/universal_auth.py:112-121 | every parsed cookie name is `amazon_enterprise_access` or `session` |
| UniversalAuth.LastLineWins | src/universal_auth.py:112-121 | when a cookie name appears on several lines, the last qualifying line's value is kept |
| UniversalAuth.ParseIsCollect | src/universal_auth.py:112-121 | reading the first n lines of the cookie file builds the same dict as assigning, in file order, the cookie each of those lines contributes |
| UniversalAuth.CollectLastWins | src/universal_auth.py:112-121 | of several assignments to one cookie name, the value of the last is the one kept, whatever other names are assigned after it |
| UniversalAuth.ExpiryLine | src/universal_auth.py:131-134 | the expiry line is the first line with the access marker and at least 5 fields; none means no such line |
| UniversalAuth.IsCookieExpired | src/universal_auth.py:127-140 | a missing file counts as expired; no expiry line means not expired; otherwise expired iff `now >= int(field 4)`, and a failed `int` means expired |
| UniversalAuth.Refresh | src/universal_auth.py:98-109 | without a need to refresh, the file is used as it is; when one is needed, it succeeds exactly when `mwinit` exits with 0 and then yields the file `mwinit` leaves; every failure is `Midway authentication failed` |
| UniversalAuth.ReadCookies | src/universal_auth.py:111-125 | a missing file fails to open; a present file gives its parse, or `Required Midway cookies not found` when that is empty |
| UniversalAuth.MidwayCookies | src/universal_auth.py:93-125 | a present, unexpired file is read as it is; a present but expired file is replaced by what `mwinit` leaves, or fails when `mwinit` exits non-zero; a missing file is first created by `mwinit` and then checked for expiry in the same way; every failure is one of authentication failed, no cookie file, cookies missing; returned names are Midway cookie names |
| UniversalAuth.FreshFileIgnoresMwinit | src/universal_auth.py:97-109 | with a present, unexpired cookie file the result is the same whatever `mwinit` would do |
| UniversalAuth.CookieHeader | src/universal_auth.py:62 | a single cookie gives exactly the header `name=value` |
| UniversalAuth.NewProvider | src/universal_auth.py:21-30 | a fresh provider is expired and not a hit at any time |
| UniversalAuth.FetchFreshWith | src/universal_auth.py:46-91 | a fetch fails before any request without deployment, API URL or cookies; otherwise it sends one request with this service and absorbs the reply |
| UniversalAuth.GetCredentials | src/universal_auth.py:33-38 | as written (split on backslash-t): a cache hit is served without a request; otherwise the fresh fetch decides |
| UniversalAuth.GetCredentialsIntended | src/universal_auth.py:33-38 | the same with cookie lines split on a tab |
| UniversalAuth.Invalidate | src/universal_auth.py:142-149 | after invalidation the next call fetches, both as written and as intended |
| UniversalAuth.IntendedParsesTabLine | src/universal_auth.py:115-120 | with tab separators, a 7-field Midway cookie line yields its name and value |
| UniversalAuth.AsWrittenIgnoresPlainLine | src/universal_auth.py:115-116 | as written, a line without a backslash yields no cookie |
| UniversalAuth.AsWrittenParsesNothing | src/universal_auth.py:112-134 | as written, a backslash-free file yields no cookies and no expiry line |
| UniversalAuth.AsWrittenRejectsCookieFile | src/universal_auth.py:93-125 | as written, a backslash-free cookie file always fails with `Required Midway cookies not found` |
| UniversalAuth.IntendedReadsCookieFile | src/universal_auth.py:112-121 | with tab separators, a one-line Netscape cookie file yields its Midway cookie |
| UniversalAuth.CookieFileWitness | src/universal_auth.py:93-125 | for a valid tab-separated one-line cookie file, the provider as written raises without a request, and the corrected provider sends that cookie |
| UniversalS3Client.ValidateBucketAccess | src/universal_s3_client.py:31-45 | access is granted exactly when a service pattern matches the bucket or the service is `universal`; the error names service and bucket |
| UniversalS3Client.AnalyticsBuckets | src/universal_s3_client.py:35-43 | `analytics` may use a bucket iff its name contains `-analytics-` or starts with `analytics-` |
| UniversalS3Client.UniversalBuckets | src/universal_s3_client.py:37-44 | `universal` may use every bucket |
| UniversalS3Client.OwnPrefixBuckets | src/universal_s3_client.py:40-43 | any other service with a wildcard-free name may use a bucket iff the name starts with `<service>-` |
| UniversalS3Client.NewClient | src/universal_s3_client.py:15-29 | construction succeeds exactly when validation does, with a fresh provider and no cached handle |
| UniversalS3Client.RefreshIfNeeded | src/universal_s3_client.py:59-62 | the cached handle is dropped iff the credentials are expired, and nothing else changes |
| UniversalS3Client.GetS3Client | src/universal_s3_client.py:47-57 | a cached handle is returned with no request; otherwise the result, the provider state and the request are those of the provider's `get_credentials` (cookie lines split as the source does, `AsWritten`, or on a tab), a success building and caching the handle from exactly the returned triple and a failure passing its error on with no handle |
| UniversalAuth.GetCredentialsWith | src/universal_auth.py:33-38 | a cache hit is served without a request; otherwise the fresh fetch with the given separator decides; the provider keeps its service |
| UniversalS3Client.ClientCookieFileWitness | src/universal_s3_client.py:47-57 | for a client with no handle and a valid tab-separated one-line cookie file, the client as written fails with `Required Midway cookies not found` without a request, while the intended reading sends that cookie |
| UniversalS3Client.FreshHandleReused | src/universal_s3_client.py:47-62 | a client holding a handle whose credentials have not expired keeps it through the refresh check and gets it back without a request, whatever the cookie separator |
| AddService.ParsePermission | scripts/add_service.py:285-286 | only the three option names parse, each to the level it names |
| AddService.PermissionNamesParse | scripts/add_service.py:285-286 | each level's option name parses back to that level |
| AddService.ReadWriteExtendsReadOnly | scripts/add_service.py:75-79 | read-write contains the read-only actions plus `PutObject` and `DeleteObject`; admin is `s3:*` |
| AddService.Resources | scripts/add_service.py:82-87 | there are 2·\|patterns\| resources: for each pattern in order, its bucket ARN and then its object ARN `/*` |
| AddService.CreateServiceRole | scripts/add_service.py:68-138 | role `<service>-s3-access-role` under `/service-role/`, with ARN equal to the configured service role ARN; one Allow statement with the level's actions on the patterns' resources; created with the Lambda-role trust policy only when absent; no role on an IAM error |
| AddService.BuildRecord | scripts/add_service.py:160-166 | the record holds the role and the patterns; `restricted_users` is present iff the user list is non-empty |
| AddService.BuiltRecordAdmits | scripts/add_service.py:160-166 | the credential service admits a caller to a built record iff the user list is empty or contains the caller |
| AddService.UpdateLambdaConfig | scripts/add_service.py:140-181 | the environment is written iff it was read, the update succeeded, and the key was absent or `--force` or the answer was `y`; only the service's variable changes |
| AddService.Add | scripts/add_service.py:217-279 | with neither a deployed stack nor an API Gateway it fails with nothing done; the environment is written exactly when the role is set up, an API Gateway exists, Lambda's environment is read and updated, and an existing entry is overwritten only with `--force` or a `y`; the written environment holds the built record under the service's variable, other variables unchanged; success iff written and the Lambda redeploy succeeded |
| AddService.AddedServiceReadBack | scripts/add_service.py:140-174 | after a successful add, the credential service's registry returns exactly the built record for the service |
| AddService.ConcreteBuckets | scripts/add_service.py:189-191 | exactly the patterns without `*` are treated as bucket names |
| AddService.ParseList | scripts/add_service.py:293 | item i is comma piece i with surrounding whitespace stripped; there is one per piece, and always at least one |
| AddService.ParseListJoin | scripts/add_service.py:293 | splitting comma-joined, already-stripped, comma-free items gives back the items |
| AddService.ParseListSpaced | scripts/add_service.py:293 | a list typed with a space after each comma, such as `alice, bob`, parses to its items |
| AddService.ParseUsers | scripts/add_service.py:295-298 | no user list iff `--restricted-users` is absent or empty |
| AddService.Command | scripts/add_service.py:281-301 | the exit code is 0 exactly when the add, on the parsed lists, succeeds, and 1 otherwise |
| EditService.Merge | scripts/edit_service.py:48-61 | truthy patterns replace `buckets`, and none or empty leaves it; users: none leaves it, empty removes it, non-empty replaces it; role and other keys are untouched |
| EditService.MergeNothing | scripts/edit_service.py:48-61 | an edit with no options leaves the record as it was |
| EditService.MergeIdempotent | scripts/edit_service.py:48-61 | applying the same edit twice gives the same record as applying it once |
| EditService.Edit | scripts/edit_service.py:17-109 | nothing happens if the stack is undeployed or the key is absent; the environment is written exactly when the stored record parses with `buckets` and `role`, the IAM update (if asked for) succeeds and the Lambda update succeeds; success iff written; the written variable holds the merged record and the others are unchanged; a permission change uses the merged buckets |
| EditService.EditedServiceReadBack | scripts/edit_service.py:41-102 | after a successful edit the registry returns the merged record, whose role is the one stored before |
| EditService.NormaliseArgs | scripts/edit_service.py:121-134 | the command refuses iff no option is given (empty patterns count as none); an empty `--restricted-users` means `[]` |
| EditService.UsersOptionEffect | scripts/edit_service.py:129-134 | `--restricted-users ""` lifts the restriction and any other value installs the parsed list |
| EditService.Command | scripts/edit_service.py:111-137 | the exit code is 1 without an edit option, else 0 exactly when the edit succeeds |
| RemoveService.Remove | scripts/remove_service.py:17-74 | nothing changes when undeployed, when the key is absent, or without `--force` and a `y`; when written, only the service's variable is removed; success needs the write and an IAM result other than an error |
| RemoveService.RemovesWhatAddCreated | scripts/remove_service.py:56-62 | the deleted role and policy names are those the add script creates, and the role is the configured service role ARN |
| RemoveService.RemovedServiceGone | scripts/remove_service.py:48-52 | after a removal, the loader no longer returns the service |
| RemoveService.Command | scripts/remove_service.py:76-84 | the exit code is 0 exactly when the removal succeeds |
| ListServices.Services | scripts/list_services.py:30-46 | services other than `universal` are the loader's; `universal` is synthesized only when `ADMIN_USERNAME` is present and non-empty, and then replaces any `SERVICE_UNIVERSAL` |
| ListServices.ListedUniversal | scripts/list_services.py:39-46 | the listed `universal` has buckets `*`, the admin as the only user, and the role of the account, or of `unknown` without `AWS_ACCOUNT_ID` |
| ListServices.NoAdminDefault | scripts/list_services.py:40-41 | without `ADMIN_USERNAME` no `universal` is added, unlike in the credential service |
| ListServices.Listing | scripts/list_services.py:56-61 | the printout exists iff every record has `role` and `buckets` (a `KeyError` otherwise), with one entry per service in order |
| ListServices.List | scripts/list_services.py:16-67 | listing fails when undeployed, when the environment cannot be read, or when a record cannot be printed |
| ListServices.Command | scripts/list_services.py:69-71 | the exit code is 0 exactly when listing succeeds |

## Left out

- **I/O.** boto3 (STS, IAM, Lambda, CloudFormation, API Gateway), `requests`, `os.system('mwinit')`, file reads and `input` prompts are parameters. Each is an oracle function or an outcome flag. `AWSConfig.account_id`, `get_api_gateway_url` and `is_deployed` are inputs.
- **Deployment config.** `save_deployment_config` and `load_deployment_config` are file I/O and are not modelled.
- **Library internals.** The internals of base64, percent-decoding, UTF-8, JSON and ISO-8601 parsing are not modelled. Timezones are not modelled, and time is integer seconds.
- **Printing.** Logging and `print` output are left out. `ListServices.Listing` models only whether printing raises.
- **S3 client data path.** The S3 operations of `src/universal_s3_client.py` (from `file_exists` on) and `s3bridge_mw/s3bridge_client.py` are pass-through boto3 calls. The S3 client itself is an abstract handle built from the triple.
- **Deployment scripts.** `scripts/setup.py`, `scripts/deploy_lambda_only.py` and `find_existing_api_gateway` are deployment tooling. `scripts/cli.py` and the packaging files are not modelled either. In `add_service`, the result of the API lookup and the deploy step are inputs, and a repeated lookup is taken to give the same answer.
- **AddService.ConcreteBuckets:** only the filtering is modelled. The `head_bucket`/`create_bucket` calls of `check_and_create_buckets` are I/O.
- **Glob.Matches:** `fnmatch` character classes `[...]` are matched literally. For this reason `UniversalS3Client.OwnPrefixBuckets` requires a service name without wildcard characters.
- **Text.Lower:** `Text.Lower` and `Text.Upper` change ASCII letters only. Python's Unicode case mapping is not modelled. `Registry.EnvKeyRoundTrip` is stated for that mapping.
- **Non-object records.** In the credential service, a truthy JSON value that is not an object is modelled as a 500. In Python, `'restricted_users' in record` on a JSON string tests for a substring, and `record['role']` raises.
- **Malformed fields.** A `restricted_users` that is not a list, and bucket items that are not strings, are not modelled.
- **Null headers.** An authorizer event whose `headers` is `null` is not modelled. Missing headers are modelled.
- **Gateway.Serve:** API Gateway is assumed to pass the authorizer's context to the credential service unchanged.
- **UniversalAuth.CookieHeader:** the contract states only the one-cookie case. With several cookies, the `; ` join is given by the definition itself.
- **ListServices.Services:** the opposite `universal` precedence between the lister and the credential service is stated in two lemmas, `ListServices.Services` and `CredentialService.UniversalOverridden`, not as one combined lemma.

## Findings

| source | as written | input that shows it | evidently intended | confidence | as-written member | corrected member |
|---|---|---|---|---|---|---|
| lambda_functions/universal_midway_authorizer.py:48 | The raw-string pattern doubles the backslashes, `\\s*`. That means "one literal backslash, then any number of `s`" on each side of the colon. | The payload `{"logged_in_username":"alice"}` does not match, so the principal is `zavaugha` or `authenticated_user` instead of `alice` | `\s*`, optional whitespace, as in the s3bridge-mw authorizer at line 52 | not executed; low–medium: other scripts of this repository write `"\\n"` where a newline is evidently meant (scripts/add_service.py:153 and 206, scripts/list_services.py:53 and 57), so the doubling may be a repository-wide transcription habit rather than a bug local to this file | UniversalAuthorizer.Handler | UniversalAuthorizer.IntendedHandler |
| src/universal_auth.py:115-116 | Cookie lines and the expiry line (line 133) are split on `'\\t'`, which is a backslash followed by `t`, not a tab | A Netscape cookie file whose one line is seven tab-separated fields with field 5 `amazon_enterprise_access` yields no cookies, and `get_credentials` raises `Required Midway cookies not found` | Split on a tab, the separator of the Netscape cookie format | not executed; low–medium, for the same reason | UniversalAuth.GetCredentials | UniversalAuth.GetCredentialsIntended |

=== FILE: add_service.dfy ===
/** `add_service.py`: registering a service creates its IAM role with a
    permissions policy over its bucket patterns, then writes its record
    into the credential service's environment. IAM, Lambda and the
    interactive prompt are inputs: the role's prior existence, the
    environment read back from Lambda, whether the update call succeeds
    and the operator's answer. */
module AddService {
  import opened Wrappers
  import opened Text
  import opened OrderedDict
  import opened Registry
  import opened AwsConfig
  import CredentialService

  /** The `--permissions` choices. */
  datatype Permission = ReadOnly | ReadWrite | Admin

  function PermissionName(p: Permission): string {
    match p
    case ReadOnly => "read-only"
    case ReadWrite => "read-write"
    case Admin => "admin"
  }

  /** argparse's check of `--permissions` against its choices. */
  function ParsePermission(s: string): (r: Option<Permission>)
    ensures r.Some? ==> PermissionName(r.value) == s
  {
    if s == "read-only" then Some(ReadOnly)
    else if s == "read-write" then Some(ReadWrite)
    else if s == "admin" then Some(Admin)
    else None
  }

  /** Every level is accepted under its own name, so the choices are
      exactly the three names. */
  lemma PermissionNamesParse(p: Permission)
    ensures ParsePermission(PermissionName(p)) == Some(p)
  {
  }

  /** The S3 actions each level grants. */
  function Actions(p: Permission): (r: seq<string>)
    ensures |r| > 0
  {
    match p
    case ReadOnly => ["s3:GetObject", "s3:ListBucket"]
    case ReadWrite => ["s3:GetObject", "s3:PutObject", "s3:DeleteObject", "s3:ListBucket"]
    case Admin => ["s3:*"]
  }

  /** Read-write grants what read-only grants plus writing and deleting
      objects; read-only grants neither. */
  lemma ReadWriteExtendsReadOnly()
    ensures forall a :: a in Actions(ReadOnly) ==> a in Actions(ReadWrite)
    ensures "s3:PutObject" !in Actions(ReadOnly) && "s3:DeleteObject" !in Actions(ReadOnly)
    ensures "s3:PutObject" in Actions(ReadWrite) && "s3:DeleteObject" in Actions(ReadWrite)
    ensures forall a :: a in Actions(ReadWrite) ==> a in Actions(ReadOnly) || a == "s3:PutObject" || a == "s3:DeleteObject"
    ensures Actions(Admin) == ["s3:*"]
  {
    assert Actions(ReadWrite)[0] == "s3:GetObject" && Actions(ReadWrite)[3] == "s3:ListBucket";
    assert Actions(ReadWrite)[1] == "s3:PutObject" && Actions(ReadWrite)[2] == "s3:DeleteObject";
  }

  const S3ArnPrefix: string := "arn:aws:s3:::"

  function BucketArn(pattern: string): string {
    S3ArnPrefix + pattern
  }

  /** The policy resources: each pattern as a bucket ARN followed by the
      ARN of its objects, in pattern order. */
  function Resources(patterns: seq<string>): (r: seq<string>)
    ensures |r| == 2 * |patterns|
    ensures forall i :: 0 <= i < |patterns| ==>
              r[2 * i] == BucketArn(patterns[i]) && r[2 * i + 1] == BucketArn(patterns[i]) + "/*"
  {
    if |patterns| == 0 then []
    else
      var rest := Resources(patterns[1..]);
      var r := [BucketArn(patterns[0]), BucketArn(patterns[0]) + "/*"] + rest;
      assert forall i :: 1 <= i < |patterns| ==> r[2 * i] == rest[2 * (i - 1)] && patterns[i] == patterns[1..][i - 1];
      r
  }

  /** An IAM policy statement; `principal` is set in trust policies only. */
  datatype IamStatement = IamStatement(effect: string, principal: Option<string>,
                                       actions: seq<string>, resources: seq<string>)
  datatype IamPolicy = IamPolicy(version: string, statements: seq<IamStatement>)

  const IamPolicyVersion: string := "2012-10-17"

  /** The role's permissions policy. */
  function PermissionsPolicy(patterns: seq<string>, p: Permission): IamPolicy {
    IamPolicy(IamPolicyVersion, [IamStatement("Allow", None, Actions(p), Resources(patterns))])
  }

  /** The trust policy letting the Lambda's own role assume the service role. */
  function TrustPolicy(account: string): IamPolicy {
    IamPolicy(IamPolicyVersion, [IamStatement("Allow", Some(LambdaRoleArn(account)), ["sts:AssumeRole"], [])])
  }

  function RoleName(service: string): string {
    service + "-s3-access-role"
  }

  function PolicyName(service: string): string {
    service + "S3AccessPolicy"
  }

  /** What `iam.create_role` meets: no such role, a role of that name
      already (`EntityAlreadyExistsException`), or any other error. */
  datatype RoleStatus = Absent | Present | IamError

  /** The IAM calls `create_service_role` makes: the role (with its trust
      policy) only when it is new, the permissions policy either way. */
  datatype RoleSetup = RoleSetup(created: Option<(string, string, IamPolicy)>,
                                 roleName: string, policyName: string, policy: IamPolicy, arn: string)

  /** `create_service_role`; `None` where an IAM error propagates. */
  function CreateServiceRole(service: string, patterns: seq<string>, p: Permission,
                             account: string, status: RoleStatus): (r: Option<RoleSetup>)
    ensures r.Some? <==> status != IamError
    ensures r.Some? ==> r.value.roleName == RoleName(service) && r.value.policyName == PolicyName(service)
    ensures r.Some? ==> && r.value.arn == ServiceRoleArn(account, service)
                        && RoleArn(account, ServiceRolePath, r.value.roleName) == r.value.arn
                        && r.value.policy.statements == [IamStatement("Allow", None, Actions(p), Resources(patterns))]
    ensures r.Some? ==> (r.value.created.Some? <==> status == Absent)
    ensures r.Some? && r.value.created.Some? ==>
              r.value.created.value == (r.value.roleName, ServiceRolePath, TrustPolicy(account))
  {
    var roleName := RoleName(service);
    var policy := PermissionsPolicy(patterns, p);
    match status
    case IamError => None
    case Absent =>
      Some(RoleSetup(Some((roleName, "/service-role/", TrustPolicy(account))),
                     roleName, PolicyName(service), policy, ServiceRoleArn(account, service)))
    case Present =>
      Some(RoleSetup(None, roleName, PolicyName(service), policy, ServiceRoleArn(account, service)))
  }

  /** The record stored for a service; `restricted_users` only when the
      list is non-empty. */
  function BuildRecord(roleArn: string, patterns: seq<string>, users: Option<seq<string>>): (r: Json)
    ensures r.Obj? && r.role == Some(roleArn) && r.buckets == Some(patterns) && !r.otherKeys
    ensures r.restrictedUsers.Some? <==> users.Some? && |users.value| > 0
    ensures r.restrictedUsers.Some? ==> r.restrictedUsers == users
  {
    var users' := if users.Some? && |users.value| > 0 then users else None;
    Obj(Some(roleArn), Some(patterns), users', false)
  }

  /** A new service admits every caller unless a non-empty user list was
      given, in which case it admits exactly those users. */
  lemma BuiltRecordAdmits(roleArn: string, patterns: seq<string>, users: Option<seq<string>>, user: string)
    ensures CredentialService.Admits(BuildRecord(roleArn, patterns, users), user) <==>
              users.None? || |users.value| == 0 || user in users.value
  {
  }

  /** `input(...).lower().strip() == 'y'`. */
  predicate Confirms(answer: string) {
    Strip(Lower(answer)) == "y"
  }

  /** `update_lambda_config_only`: `env` is the environment read from
      Lambda (`None` where that call raises) and `updateOk` whether the
      update call succeeds. The result is the environment written, `None`
      when the function returns `False`. */
  function UpdateLambdaConfig(env: Option<Dict<string>>, codec: JsonCodec, service: string,
                              patterns: seq<string>, roleArn: string, users: Option<seq<string>>,
                              force: bool, answer: string, updateOk: bool): (r: Option<Dict<string>>)
    ensures r.Some? <==> env.Some? && updateOk &&
                         (EnvKey(service) !in Keys(env.value) || force || Confirms(answer))
    ensures r.Some? ==> Get(r.value, EnvKey(service)) == Some(codec.dumps(BuildRecord(roleArn, patterns, users)))
    ensures r.Some? ==> forall k :: k != EnvKey(service) ==> Get(r.value, k) == Get(env.value, k)
  {
    match env
    case None => None
    case Some(vars) =>
      var key := EnvKey(service);
      if Get(vars, key).Some? && !force && !Confirms(answer) then None
      else if !updateOk then None
      else Some(Set(vars, key, codec.dumps(BuildRecord(roleArn, patterns, users))))
  }

  /** What `add_service` finds in AWS. `apiFound` is the answer of
      `find_existing_api_gateway`, taken to be the same both times. */
  datatype Cloud = Cloud(deployed: bool, apiFound: bool, account: string, role: RoleStatus,
                         env: Option<Dict<string>>, updateOk: bool, deployOk: bool)

  datatype AddOutcome = AddOutcome(success: bool, role: Option<RoleSetup>, written: Option<Dict<string>>)

  /** `add_service`. */
  function Add(service: string, patterns: seq<string>, p: Permission, users: Option<seq<string>>,
               force: bool, answer: string, cloud: Cloud, codec: JsonCodec): (o: AddOutcome)
    ensures !cloud.deployed && !cloud.apiFound ==> o == AddOutcome(false, None, None)
    ensures o.written.Some? ==> o.role.Some? && cloud.apiFound
    ensures o.success <==> o.written.Some? && cloud.deployOk
    ensures o.written.Some? ==>
              && cloud.env.Some?
              && Get(o.written.value, EnvKey(service)) ==
                   Some(codec.dumps(BuildRecord(ServiceRoleArn(cloud.account, service), patterns, users)))
              && forall k :: k != EnvKey(service) ==> Get(o.written.value, k) == Get(cloud.env.value, k)
    // The environment is written exactly when the role is set up, an API
    // Gateway exists, Lambda's environment is read and updated, and an
    // existing entry is overwritten only with `--force` or a `y`.
    ensures o.written.Some? <==>
              && cloud.apiFound
              && CreateServiceRole(service, patterns, p, cloud.account, cloud.role).Some?
              && cloud.env.Some? && cloud.updateOk
              && (EnvKey(service) !in Keys(cloud.env.value) || force || Confirms(answer))
    ensures cloud.deployed || cloud.apiFound ==> o.role == CreateServiceRole(service, patterns, p, cloud.account, cloud.role)
  {
    if !cloud.deployed && !cloud.apiFound then AddOutcome(false, None, None)
    else match CreateServiceRole(service, patterns, p, cloud.account, cloud.role)
      case None => AddOutcome(false, None, None)
      case Some(setup) =>
        if !cloud.apiFound then AddOutcome(false, Some(setup), None)
        else match UpdateLambdaConfig(cloud.env, codec, service, patterns, setup.arn, users,
                                      force, answer, cloud.updateOk)
          case None => AddOutcome(false, Some(setup), None)
          case Some(written) => AddOutcome(cloud.deployOk, Some(setup), Some(written))
  }

  /** The credential service reads back, for an added service, exactly
      the record written, role ARN included. */
  lemma AddedServiceReadBack(service: string, patterns: seq<string>, p: Permission, users: Option<seq<string>>,
                             force: bool, answer: string, cloud: Cloud, codec: JsonCodec)
    requires RoundTrips(codec) && HasNoUpper(service)
    requires cloud.env.Some? && KeysDistinct(cloud.env.value) && OwnVariableOnly(cloud.env.value, service)
    requires Add(service, patterns, p, users, force, answer, cloud, codec).success
    ensures var env' := Add(service, patterns, p, users, force, answer, cloud, codec).written.value;
            CredentialService.GetServiceConfig(env', codec).Success? ==>
              Get(CredentialService.GetServiceConfig(env', codec).value, service) ==
                Some(BuildRecord(ServiceRoleArn(cloud.account, service), patterns, users))
  {
    var rec := BuildRecord(ServiceRoleArn(cloud.account, service), patterns, users);
    var env' := Add(service, patterns, p, users, force, answer, cloud, codec).written.value;
    var key := EnvKey(service);
    assert env' == Set(cloud.env.value, key, codec.dumps(rec));
    var admin := Get(env', CredentialService.AdminVar).GetOr(CredentialService.DefaultAdmin);
    if admin == "" {
      WrittenRecordReadBack(cloud.env.value, codec, [], service, rec);
    } else if Get(env', CredentialService.AccountVar).Some? {
      var acc := [(CredentialService.UniversalService,
                   CredentialService.UniversalRecord(Get(env', CredentialService.AccountVar).value, admin))];
      WrittenRecordReadBack(cloud.env.value, codec, acc, service, rec);
    }
  }

  /** Only patterns without `*` name concrete buckets. */
  function ConcreteBuckets(patterns: seq<string>): (r: seq<string>)
    ensures forall b :: b in r ==> b in patterns && '*' !in b
    ensures forall q :: q in patterns && '*' !in q ==> q in r
  {
    if |patterns| == 0 then []
    else
      var rest := ConcreteBuckets(patterns[1..]);
      assert forall q :: q in patterns && q != patterns[0] ==> q in patterns[1..];
      if '*' in patterns[0] then rest else [patterns[0]] + rest
  }

  /** No leading or trailing whitespace. */
  predicate Trimmed(s: string) {
    |s| > 0 ==> !IsSpace(s[0]) && !IsSpace(s[|s| - 1])
  }

  /** `[x.strip() for x in arg.split(',')]`. */
  function ParseList(arg: string): (r: seq<string>)
    ensures |r| == |Split(arg, ",")| && |r| >= 1
    ensures forall i :: 0 <= i < |r| ==> Trimmed(r[i])
    ensures forall i :: 0 <= i < |r| ==> r[i] == Strip(Split(arg, ",")[i])
  {
    var parts := Split(arg, ",");
    seq(|parts|, i requires 0 <= i < |parts| => StripTrimmed(parts[i]))
  }

  /** `s.strip()`, whose result has no whitespace at either end. */
  function StripTrimmed(s: string): (r: string)
    ensures r == Strip(s) && Trimmed(r)
  {
    var t := StripStart(s);
    var r := StripEnd(t);
    assert |r| > 0 ==> r[0] == t[0];
    r
  }

  /** Items free of commas and of surrounding whitespace survive being
      written comma-separated and parsed back. */
  lemma ParseListJoin(items: seq<string>)
    requires |items| >= 1 && FreeOf(items, ',')
    requires forall i :: 0 <= i < |items| ==> Trimmed(items[i])
    ensures ParseList(Join(items, ",")) == items
  {
    var line := Join(items, ",");
    assert "," == [','];
    SplitJoin(items, ',');
    var parts := Split(line, ",");
    assert parts == items;
    var r := ParseList(line);
    assert |r| == |items|;
    forall i | 0 <= i < |items| ensures r[i] == items[i] {
      assert r[i] == StripTrimmed(parts[i]);
      StripUnchanged(items[i]);
    }
  }

  /** Each item after the first, led by a space. */
  function Spaced(items: seq<string>): (r: seq<string>)
    ensures |r| == |items| && forall i :: 0 <= i < |items| ==> r[i] == " " + items[i]
  {
    seq(|items|, i requires 0 <= i < |items| => " " + items[i])
  }

  /** Joining with `", "` is joining with `","` after leading every item
      but the first with a space. */
  lemma {:induction false} JoinSpaced(items: seq<string>)
    requires |items| >= 1
    ensures Join(items, ", ") == Join([items[0]] + Spaced(items[1..]), ",")
    decreases |items|
  {
    if |items| > 1 {
      var rest := items[1..];
      JoinSpaced(rest);
      var tail := Spaced(rest[1..]);
      assert Spaced(rest) == [" " + rest[0]] + tail;
      assert ([items[0]] + Spaced(rest))[1..] == Spaced(rest);
      assert Join([" " + rest[0]] + tail, ",") == " " + Join([rest[0]] + tail, ",") by {
        if |tail| > 0 {
          assert ([" " + rest[0]] + tail)[1..] == tail;
          assert ([rest[0]] + tail)[1..] == tail;
        }
      }
    }
  }

  /** `strip()` removes the one space `", "` leaves in front of an item. */
  lemma StripLeadingSpace(x: string)
    requires Trimmed(x)
    ensures Strip(" " + x) == x
  {
    assert (" " + x)[1..] == x;
    assert StripStart(" " + x) == StripStart(x);
    StripUnchanged(x);
  }

  /** Leading items with a space brings in no comma. */
  lemma SpacedFree(items: seq<string>)
    requires |items| >= 1 && FreeOf(items, ',')
    ensures FreeOf([items[0]] + Spaced(items[1..]), ',')
  {
    var ys := [items[0]] + Spaced(items[1..]);
    forall k, t | 0 <= k < |ys| && 0 <= t < |ys[k]| ensures ys[k][t] != ',' {
      if k > 0 {
        assert ys[k] == " " + items[k];
        if t > 0 { assert ys[k][t] == items[k][t - 1]; }
      }
    }
  }

  /** The list is the stripped pieces, so pieces that strip to the items
      parse to the items. */
  lemma ParseListStrips(arg: string, items: seq<string>)
    requires |Split(arg, ",")| == |items|
    requires forall i :: 0 <= i < |items| ==> Strip(Split(arg, ",")[i]) == items[i]
    ensures ParseList(arg) == items
  {
  }

  /** Splitting a `", "`-joined list on `,` leaves a space in front of
      every item but the first. */
  lemma SpacedSplit(items: seq<string>)
    requires |items| >= 1 && FreeOf(items, ',')
    ensures Split(Join(items, ", "), ",") == [items[0]] + Spaced(items[1..])
  {
    JoinSpaced(items);
    SpacedFree(items);
    assert "," == [','];
    SplitJoin([items[0]] + Spaced(items[1..]), ',');
  }

  /** The spaced pieces strip back to the items. */
  lemma StripSpaced(items: seq<string>)
    requires |items| >= 1
    requires forall i :: 0 <= i < |items| ==> Trimmed(items[i])
    ensures forall i :: 0 <= i < |items| ==> Strip(([items[0]] + Spaced(items[1..]))[i]) == items[i]
  {
    var ys := [items[0]] + Spaced(items[1..]);
    forall i | 0 <= i < |items| ensures Strip(ys[i]) == items[i] {
      if i == 0 {
        StripUnchanged(items[0]);
      } else {
        assert ys[i] == " " + items[i];
        StripLeadingSpace(items[i]);
      }
    }
  }

  /** The comma pieces of a `", "`-joined list strip to its items. */
  lemma SpacedPieces(items: seq<string>)
    requires |items| >= 1 && FreeOf(items, ',')
    requires forall i :: 0 <= i < |items| ==> Trimmed(items[i])
    ensures |Split(Join(items, ", "), ",")| == |items|
    ensures forall i :: 0 <= i < |items| ==> Strip(Split(Join(items, ", "), ",")[i]) == items[i]
  {
    SpacedSplit(items);
    StripSpaced(items);
  }

  /** A list typed with a space after each comma, `alice, bob`, parses to
      its items. */
  lemma ParseListSpaced(items: seq<string>)
    requires |items| >= 1 && FreeOf(items, ',')
    requires forall i :: 0 <= i < |items| ==> Trimmed(items[i])
    ensures ParseList(Join(items, ", ")) == items
  {
    SpacedPieces(items);
    ParseListStrips(Join(items, ", "), items);
  }

  /** `--restricted-users`: absent or empty gives `None`. */
  function ParseUsers(arg: Option<string>): (r: Option<seq<string>>)
    ensures r.None? <==> arg.None? || arg.value == ""
    ensures r.Some? ==> r.value == ParseList(arg.value)
  {
    match arg
    case None => None
    case Some(s) => if s == "" then None else Some(ParseList(s))
  }

  /** `main`, after argparse: 0 exactly when the service was added. */
  function Command(service: string, patternsArg: string, p: Permission, usersArg: Option<string>,
                   force: bool, answer: string, cloud: Cloud, codec: JsonCodec): (code: int)
    ensures code == 0 <==> Add(service, ParseList(patternsArg), p, ParseUsers(usersArg), force, answer, cloud, codec).success
    ensures code == 0 || code == 1
  {
    if Add(service, ParseList(patternsArg), p, ParseUsers(usersArg), force, answer, cloud, codec).success then 0 else 1
  }
}

=== FILE: aws_config.dfy ===
/** The deployment names derived from an AWS account: role ARNs, the
    region default and the CloudFormation stack name. The account id and
    the session's region come from AWS and are parameters here. */
module AwsConfig {
  import opened Wrappers
  import opened Text

  const StackName: string := "s3bridge-mw"
  const DefaultRegion: string := "us-east-1"
  const LambdaRoleName: string := "s3bridge-mw-lambda-role"
  /** The IAM path every service role is created under. */
  const ServiceRolePath: string := "/service-role/"
  const RoleNameSuffix: string := "-s3-access-role"

  /** `arn:aws:iam::<account>:role<path><name>`, the ARN IAM gives a role. */
  function RoleArn(account: string, path: string, roleName: string): string {
    "arn:aws:iam::" + account + ":role" + path + roleName
  }

  /** The IAM role name of a service. */
  function ServiceRoleName(service: string): (r: string)
    ensures |r| == |service| + |RoleNameSuffix|
    ensures r[..|service|] == service && r[|service|..] == RoleNameSuffix
  {
    service + RoleNameSuffix
  }

  /** `service_role_arn`. */
  function ServiceRoleArn(account: string, service: string): (r: string)
    ensures r == RoleArn(account, ServiceRolePath, ServiceRoleName(service))
  {
    "arn:aws:iam::" + account + ":role/service-role/" + service + "-s3-access-role"
  }

  /** `lambda_role_arn`. */
  function LambdaRoleArn(account: string): (r: string)
    ensures r == RoleArn(account, "/", LambdaRoleName)
  {
    "arn:aws:iam::" + account + ":role/s3bridge-mw-lambda-role"
  }

  /** `region`: the session's region, or `us-east-1` when it is unset or empty. */
  function Region(sessionRegion: Option<string>): (r: string)
    ensures r != ""
    ensures sessionRegion.Some? && sessionRegion.value != "" ==> r == sessionRegion.value
    ensures sessionRegion.None? || sessionRegion.value == "" ==> r == DefaultRegion
  {
    match sessionRegion
    case Some(name) => if name != "" then name else DefaultRegion
    case None => DefaultRegion
  }

  /** Within one account, distinct services get distinct role ARNs, so the
      service can be read back from its ARN. */
  lemma ServiceRoleArnInjective(account: string, s1: string, s2: string)
    requires ServiceRoleArn(account, s1) == ServiceRoleArn(account, s2)
    ensures s1 == s2
  {
    var prefix := "arn:aws:iam::" + account + ":role/service-role/";
    var a1 := ServiceRoleArn(account, s1);
    assert a1 == prefix + ServiceRoleName(s1);
    assert a1 == prefix + ServiceRoleName(s2);
    assert ServiceRoleName(s1) == a1[|prefix|..] == ServiceRoleName(s2);
    assert s1 == ServiceRoleName(s1)[..|s1|];
    assert s2 == ServiceRoleName(s2)[..|s2|];
  }
}

=== FILE: credential_cache.dfy ===
/** The client-side credential cache both auth providers keep: the last
    credential triple and the instant, ten minutes before the real
    expiration, from which it counts as stale. Time is an integer count of
    seconds; the HTTP answer and ISO-8601 parsing are parameters. */
module CredentialCache {
  import opened Wrappers
  import opened Text
  import opened OrderedDict

  datatype Triple = Triple(accessKey: string, secretKey: string, sessionToken: string)

  /** `_cached_credentials` and `_credentials_expiry`. */
  datatype Cache = Cache(credentials: Option<Triple>, expiry: Option<int>)

  /** The state `__init__` and `invalidate_credentials` leave. */
  const Empty: Cache := Cache(None, None)

  /** `timedelta(minutes=10)`. */
  const SafetyMargin: int := 600

  /** `credentials_expired()`: no expiry at all, or the expiry instant reached. */
  predicate Expired(c: Cache, now: int) {
    c.expiry.None? || now >= c.expiry.value
  }

  /** `get_credentials` answers from the cache. */
  predicate Hit(c: Cache, now: int) {
    c.credentials.Some? && !Expired(c, now)
  }

  /** An expiry is only ever set together with credentials. */
  predicate Consistent(c: Cache) {
    c.credentials.None? ==> c.expiry.None?
  }

  /** The JSON body of a 200 answer, one `Option` per key read. */
  datatype CredJson = CredJson(
    accessKeyId: Option<string>, secretAccessKey: Option<string>,
    sessionToken: Option<string>, expiration: Option<string>)

  /** What `requests.get` produced: an exception, or a status, the body
      text and `response.json()` (a `Failure` where it raises). */
  datatype HttpReply =
    | TransportError(message: string)
    | Reply(status: int, text: string, json: Result<CredJson, string>)

  /** The `requests.get` call a provider makes. */
  datatype HttpRequest = HttpRequest(url: string, params: Dict<string>, headers: Dict<string>, timeout: int)

  /** The request both providers send: their service, one hour, the
      Midway cookies, a 30-second timeout. */
  function CredentialRequest(endpoint: string, service: string, cookieHeader: string): HttpRequest {
    HttpRequest(endpoint, [("service", service), ("duration", "3600")], [("Cookie", cookieHeader)], 30)
  }

  /** `datetime.fromisoformat` as a timestamp; a `Failure` is the message it raises. */
  type IsoParser = string -> Result<int, string>

  /** The triple a 200 body carries, or the `KeyError` text for the first missing key. */
  function TripleOf(body: CredJson): (r: Result<Triple, string>)
    ensures r.Success? <==> body.accessKeyId.Some? && body.secretAccessKey.Some? && body.sessionToken.Some?
    ensures r.Success? ==> r.value == Triple(body.accessKeyId.value, body.secretAccessKey.value, body.sessionToken.value)
  {
    if body.accessKeyId.None? then Failure("'AccessKeyId'")
    else if body.secretAccessKey.None? then Failure("'SecretAccessKey'")
    else if body.sessionToken.None? then Failure("'SessionToken'")
    else Success(Triple(body.accessKeyId.value, body.secretAccessKey.value, body.sessionToken.value))
  }

  /** The expiry instant of a 200 body: `Expiration` with `Z` read as
      `+00:00`, less the safety margin. */
  function ExpiryOf(body: CredJson, iso: IsoParser): (r: Result<int, string>)
    ensures r.Success? ==> body.expiration.Some?
                           && iso(ReplaceChar(body.expiration.value, 'Z', "+00:00")) == Success(r.value + SafetyMargin)
    ensures body.expiration.Some? && iso(ReplaceChar(body.expiration.value, 'Z', "+00:00")).Success? ==>
              r == Success(iso(ReplaceChar(body.expiration.value, 'Z', "+00:00")).value - SafetyMargin)
  {
    match body.expiration
    case None => Failure("'Expiration'")
    case Some(text) =>
      match iso(ReplaceChar(text, 'Z', "+00:00"))
      case Failure(msg) => Failure(msg)
      case Success(t) => Success(t - SafetyMargin)
  }

  /** A 200 reply whose body has all three keys and an `Expiration` that
      `fromisoformat` accepts once `Z` is read as `+00:00`. */
  predicate WellFormed(reply: HttpReply, iso: IsoParser) {
    && reply.Reply? && reply.status == 200 && reply.json.Success?
    && TripleOf(reply.json.value).Success?
    && reply.json.value.expiration.Some?
    && iso(ReplaceChar(reply.json.value.expiration.value, 'Z', "+00:00")).Success?
  }

  /** The part of `_fetch_fresh_credentials` inside its `try`: the triple
      returned (a `Failure` is the wrapped exception text, led by `prefix`)
      and the cache afterwards. The triple is stored before `Expiration` is
      read, so a bad or missing expiration leaves the new triple stored
      with the old expiry. */
  function Absorb(c: Cache, reply: HttpReply, iso: IsoParser, prefix: string): (r: (Result<Triple, string>, Cache))
    ensures r.0.Failure? ==> HasPrefix(r.0.error, prefix)
    ensures !(reply.Reply? && reply.status == 200) ==> r.0.Failure? && r.1 == c
    ensures r.1.expiry != c.expiry ==> r.0.Success?
    ensures r.0.Success? ==> r.1 == Cache(Some(r.0.value), r.1.expiry) && r.1.expiry.Some?
    ensures Consistent(c) ==> Consistent(r.1)
    // A 200 reply carrying the three keys and a readable `Expiration` is
    // accepted: its triple is returned and cached, stale ten minutes early.
    ensures WellFormed(reply, iso) ==>
              var body := reply.json.value;
              var triple := TripleOf(body).value;
              var t := iso(ReplaceChar(body.expiration.value, 'Z', "+00:00")).value;
              r == (Success(triple), Cache(Some(triple), Some(t - SafetyMargin)))
    // A missing or unreadable `Expiration` fails after the triple is stored,
    // which is then kept with the old expiry.
    ensures && reply.Reply? && reply.status == 200 && reply.json.Success?
            && TripleOf(reply.json.value).Success? && ExpiryOf(reply.json.value, iso).Failure? ==>
              r.0.Failure? && r.1 == Cache(Some(TripleOf(reply.json.value).value), c.expiry)
    // An unreadable body or a missing key changes nothing.
    ensures && reply.Reply? && reply.status == 200
            && (reply.json.Failure? || TripleOf(reply.json.value).Failure?) ==>
              r.0.Failure? && r.1 == c
  {
    match reply
    case TransportError(msg) => (Failure(prefix + msg), c)
    case Reply(status, text, json) =>
      if status != 200 then
        (Failure(prefix + "Credential service failed with status " + DecimalString(status) + ": " + text), c)
      else match json
        case Failure(msg) => (Failure(prefix + msg), c)
        case Success(body) =>
          match TripleOf(body)
          case Failure(msg) => (Failure(prefix + msg), c)
          case Success(triple) =>
            var stored := Cache(Some(triple), c.expiry);
            match ExpiryOf(body, iso)
            case Failure(msg) => (Failure(prefix + msg), stored)
            case Success(expiry) => (Success(triple), Cache(Some(triple), Some(expiry)))
  }

  /** A fetch succeeds exactly on a well-formed 200 reply. */
  lemma AbsorbSucceedsExactly(c: Cache, reply: HttpReply, iso: IsoParser, prefix: string)
    ensures Absorb(c, reply, iso, prefix).0.Success? <==> WellFormed(reply, iso)
  {
  }

  /** A successful fetch caches exactly what it returns, stale ten minutes
      before the service's expiration. */
  lemma AbsorbSuccess(c: Cache, reply: HttpReply, iso: IsoParser, prefix: string)
    requires Absorb(c, reply, iso, prefix).0.Success?
    ensures reply.Reply? && reply.status == 200 && reply.json.Success?
    ensures var body := reply.json.value;
            var r := Absorb(c, reply, iso, prefix);
            && TripleOf(body) == Success(r.0.value)
            && body.expiration.Some?
            && iso(ReplaceChar(body.expiration.value, 'Z', "+00:00")) == Success(r.1.expiry.value + SafetyMargin)
  {
  }

  /** A failed refresh of stale credentials never makes the cache look
      fresh: it stays stale from then on. */
  lemma FailedRefreshStaysStale(c: Cache, reply: HttpReply, iso: IsoParser, prefix: string, now: int, later: int)
    requires Expired(c, now) && now <= later
    requires Absorb(c, reply, iso, prefix).0.Failure?
    ensures !Hit(Absorb(c, reply, iso, prefix).1, later)
  {
  }

  /** One call of `get_credentials`: the credentials returned, the cache
      afterwards, and whether a fetch happened. */
  datatype Step = Step(result: Result<Triple, string>, cache: Cache, fetched: bool)

  /** `get_credentials`, where `fetch` is what `_fetch_fresh_credentials`
      would return and leave behind if called now. */
  function GetCredentials(c: Cache, now: int, fetch: (Result<Triple, string>, Cache)): (s: Step)
    ensures !s.fetched <==> Hit(c, now)
    ensures !s.fetched ==> s.result == Success(c.credentials.value) && s.cache == c
    ensures s.fetched ==> s.result == fetch.0 && s.cache == fetch.1
  {
    if c.credentials.Some? && !Expired(c, now) then Step(Success(c.credentials.value), c, false)
    else Step(fetch.0, fetch.1, true)
  }

  /** `invalidate_credentials` (and `reset_authentication`, which calls it). */
  function Invalidate(c: Cache): (r: Cache)
    ensures forall now :: Expired(r, now) && !Hit(r, now)
    ensures Consistent(r)
  {
    Empty
  }

  /** After a fetch that succeeded, every call before the new expiry is
      answered from the cache with the same triple, whatever a fetch would
      have done. */
  lemma ServedFromCacheUntilExpiry(c: Cache, reply: HttpReply, iso: IsoParser, prefix: string,
                                   now: int, fetch: (Result<Triple, string>, Cache))
    requires Absorb(c, reply, iso, prefix).0.Success?
    requires now < Absorb(c, reply, iso, prefix).1.expiry.value
    ensures var r := Absorb(c, reply, iso, prefix);
            GetCredentials(r.1, now, fetch) == Step(r.0, r.1, false)
  {
  }
}

=== FILE: credential_service.dfy ===
/** The credential-service Lambda: it checks the query parameters, loads
    the service registry from its environment, applies the record's user
    restriction and asks STS for role credentials. STS, the clock and
    `int()` parsing are the `Runtime` oracle. */
module CredentialService {
  import opened Wrappers
  import opened Text
  import opened OrderedDict
  import opened Registry
  import opened AwsConfig

  const AdminVar: string := "ADMIN_USERNAME"
  const AccountVar: string := "AWS_ACCOUNT_ID"
  const DefaultAdmin: string := "admin"
  const UniversalService: string := "universal"
  const DefaultDuration: string := "3600"
  const MaxDuration: int := 3600
  /** `str(KeyError('AWS_ACCOUNT_ID'))`. */
  const MissingAccount: string := "'AWS_ACCOUNT_ID'"
  /** `str(KeyError('role'))`. */
  const MissingRole: string := "'role'"
  const ServiceRequired: string := "service parameter required"

  /** The role ARN the service writes for the synthesized `universal` entry. */
  function UniversalRoleArn(account: string): (r: string)
    ensures r == ServiceRoleArn(account, UniversalService)
  {
    "arn:aws:iam::" + account + ":role/service-role/universal-s3-access-role"
  }

  /** The synthesized `universal` record: every bucket, the admin only. */
  function UniversalRecord(account: string, admin: string): Json {
    Obj(Some(UniversalRoleArn(account)), Some(["*"]), Some([admin]), false)
  }

  /** `get_service_config`: `universal` first (when the admin name is not
      empty), then every parseable `SERVICE_` variable in environment
      order. A `Failure` is the `KeyError` text for a missing account id. */
  function GetServiceConfig(env: Dict<string>, codec: JsonCodec): (r: Result<Dict<Json>, string>)
    ensures r.Failure? <==> Get(env, AdminVar) != Some("") && Get(env, AccountVar).None?
    ensures r.Failure? ==> r.error == MissingAccount
    ensures r.Success? ==> forall s :: s != UniversalService ==> Get(r.value, s) == Get(LoadServices(env, codec, []), s)
  {
    var admin := Get(env, AdminVar).GetOr(DefaultAdmin);
    if admin == "" then Success(LoadServices(env, codec, []))
    else match Get(env, AccountVar)
      case None => Failure(MissingAccount)
      case Some(account) =>
        var acc := [(UniversalService, UniversalRecord(account, admin))];
        LoadedOverAll(env, codec, acc);
        Success(LoadServices(env, codec, acc))
  }

  /** Without a `SERVICE_` variable for it, `universal` is the synthesized
      record for the configured admin (by default `admin`), and is absent
      exactly when `ADMIN_USERNAME` is set to the empty string. */
  lemma UniversalSynthesized(env: Dict<string>, codec: JsonCodec)
    requires GetServiceConfig(env, codec).Success?
    requires forall j :: !SourceAt(env, codec, UniversalService, j)
    ensures var services := GetServiceConfig(env, codec).value;
            var admin := Get(env, AdminVar).GetOr(DefaultAdmin);
            if admin == "" then Get(services, UniversalService).None?
            else Get(services, UniversalService) == Some(UniversalRecord(Get(env, AccountVar).value, admin))
  {
    var admin := Get(env, AdminVar).GetOr(DefaultAdmin);
    if admin == "" {
      LoadedWithoutSource(env, codec, [], UniversalService);
    } else {
      var acc := [(UniversalService, UniversalRecord(Get(env, AccountVar).value, admin))];
      LoadedWithoutSource(env, codec, acc, UniversalService);
    }
  }

  /** A `SERVICE_UNIVERSAL` variable is loaded after the synthesized entry
      and replaces it. */
  lemma UniversalOverridden(env: Dict<string>, codec: JsonCodec, i: int)
    requires GetServiceConfig(env, codec).Success?
    requires SourceAt(env, codec, UniversalService, i)
    requires forall j :: i < j < |env| ==> !SourceAt(env, codec, UniversalService, j)
    ensures Get(GetServiceConfig(env, codec).value, UniversalService) == codec.loads(env[i].1)
  {
    var admin := Get(env, AdminVar).GetOr(DefaultAdmin);
    if admin == "" {
      LoadedFromLastSource(env, codec, [], UniversalService, i);
    } else {
      var acc := [(UniversalService, UniversalRecord(Get(env, AccountVar).value, admin))];
      LoadedFromLastSource(env, codec, acc, UniversalService, i);
    }
  }

  datatype AssumeRoleRequest = AssumeRoleRequest(roleArn: string, sessionName: string, durationSeconds: int)

  /** The `Credentials` of an STS answer, `Expiration` already in ISO form. */
  datatype StsCredentials = StsCredentials(
    accessKeyId: string, secretAccessKey: string, sessionToken: string, expiration: string)

  /** What the handler cannot compute itself. */
  datatype Runtime = Runtime(
    parseInt: string -> Result<int, string>,                   // int(), failing with str(ValueError)
    assumeRole: AssumeRoleRequest -> Result<StsCredentials, string>, // sts.assume_role
    typeErrorText: string,  // str(e) of the TypeError a non-object record raises
    now: int)               // int(datetime.now().timestamp())

  /** The handler's event: query parameters (`{}` when absent or null) and
      the authorizer context the gateway passes on. */
  datatype Request = Request(query: Dict<string>, authorizer: Dict<string>)

  datatype Body = ErrorBody(error: string) | CredentialsBody(credentials: StsCredentials)
  datatype Response = Response(statusCode: int, headers: Dict<string>, body: Body)

  /** The response, and the STS request made on the way if any. */
  datatype Outcome = Outcome(response: Response, issued: Option<AssumeRoleRequest>)

  const CorsHeaders: Dict<string> := [("Content-Type", "application/json"), ("Access-Control-Allow-Origin", "*")]

  function Error(status: int, message: string): Outcome {
    Outcome(Response(status, [], ErrorBody(message)), None)
  }

  /** `ctx.get('userId') or ctx.get('principalId', 'unknown')`. */
  function Caller(ctx: Dict<string>): (r: string)
    ensures Get(ctx, "userId").Some? && Get(ctx, "userId").value != "" ==> r == Get(ctx, "userId").value
    ensures (Get(ctx, "userId").None? || Get(ctx, "userId").value == "") ==>
              r == Get(ctx, "principalId").GetOr("unknown")
  {
    match Get(ctx, "userId")
    case Some(u) => if u != "" then u else Get(ctx, "principalId").GetOr("unknown")
    case None => Get(ctx, "principalId").GetOr("unknown")
  }

  /** A record lets `user` obtain credentials for it: an object with a
      role whose `restricted_users` key, when present, lists the user. An
      absent key admits everyone; an empty list admits no one. */
  predicate Admits(rec: Json, user: string) {
    rec.Obj? && rec.role.Some? && (rec.restrictedUsers.None? || user in rec.restrictedUsers.value)
  }

  function Min(a: int, b: int): int { if a <= b then a else b }

  /** The service's `lambda_handler`. */
  function Handler(req: Request, env: Dict<string>, codec: JsonCodec, rt: Runtime): (o: Outcome)
    ensures o.response.statusCode in {200, 400, 403, 500}
    ensures rt.parseInt(Get(req.query, "duration").GetOr(DefaultDuration)).Failure? ==>
              o.response.statusCode == 500 && o.issued.None?
    ensures o.issued.Some? ==>
              && Get(req.query, "service").Some? && Get(req.query, "service").value != ""
              && GetServiceConfig(env, codec).Success?
              && var name := Get(req.query, "service").value;
                 var rec := Get(GetServiceConfig(env, codec).value, name);
                 && rec.Some? && Admits(rec.value, Caller(req.authorizer))
                 && o.issued.value.roleArn == rec.value.role.value
                 && HasPrefix(o.issued.value.sessionName, name + "-session-")
    ensures o.issued.Some? ==>
              && rt.parseInt(Get(req.query, "duration").GetOr(DefaultDuration)).Success?
              && var d := rt.parseInt(Get(req.query, "duration").GetOr(DefaultDuration)).value;
                 o.issued.value.durationSeconds == (if d <= MaxDuration then d else MaxDuration)
    ensures o.response.statusCode == 200 <==> o.issued.Some? && rt.assumeRole(o.issued.value).Success?
    ensures o.response.statusCode == 200 ==>
              && o.response.headers == CorsHeaders
              && o.response.body == CredentialsBody(rt.assumeRole(o.issued.value).value)
    ensures rt.parseInt(Get(req.query, "duration").GetOr(DefaultDuration)).Success?
            && Get(req.query, "service").GetOr("") == "" ==>
              o.response == Response(400, [], ErrorBody(ServiceRequired))
    ensures && rt.parseInt(Get(req.query, "duration").GetOr(DefaultDuration)).Success?
            && Get(req.query, "service").GetOr("") != "" && GetServiceConfig(env, codec).Failure? ==>
              o.response == Response(500, [], ErrorBody(MissingAccount))
    ensures var name := Get(req.query, "service").GetOr("");
            (&& rt.parseInt(Get(req.query, "duration").GetOr(DefaultDuration)).Success?
             && name != "" && GetServiceConfig(env, codec).Success?
             && var rec := Get(GetServiceConfig(env, codec).value, name);
                rec.None? || !Truthy(rec.value)) ==>
              o.response == Response(400, [], ErrorBody("Unknown service: " + name))
    ensures var name := Get(req.query, "service").GetOr("");
            (&& rt.parseInt(Get(req.query, "duration").GetOr(DefaultDuration)).Success?
             && name != "" && GetServiceConfig(env, codec).Success?
             && var rec := Get(GetServiceConfig(env, codec).value, name);
                && rec.Some? && rec.value.Obj? && Truthy(rec.value)
                && rec.value.restrictedUsers.Some? && Caller(req.authorizer) !in rec.value.restrictedUsers.value) ==>
              && o.response == Response(403, [], ErrorBody("User " + Caller(req.authorizer) + " not authorized for service " + name))
              && o.issued.None?
    // `service_config['restricted_users']` on a record that is not a JSON
    // object raises a `TypeError`, which the catch-all turns into a 500.
    ensures var name := Get(req.query, "service").GetOr("");
            (&& rt.parseInt(Get(req.query, "duration").GetOr(DefaultDuration)).Success?
             && name != "" && GetServiceConfig(env, codec).Success?
             && var rec := Get(GetServiceConfig(env, codec).value, name);
                rec.Some? && Truthy(rec.value) && rec.value.NonObject?) ==>
              o.response == Response(500, [], ErrorBody(rt.typeErrorText)) && o.issued.None?
    // An admitted caller on a record without `role` meets `KeyError('role')`.
    ensures var name := Get(req.query, "service").GetOr("");
            (&& rt.parseInt(Get(req.query, "duration").GetOr(DefaultDuration)).Success?
             && name != "" && GetServiceConfig(env, codec).Success?
             && var rec := Get(GetServiceConfig(env, codec).value, name);
                && rec.Some? && rec.value.Obj? && Truthy(rec.value)
                && (rec.value.restrictedUsers.None? || Caller(req.authorizer) in rec.value.restrictedUsers.value)
                && rec.value.role.None?) ==>
              o.response == Response(500, [], ErrorBody(MissingRole)) && o.issued.None?
    // A raising `assume_role` gives a 500 carrying its message.
    ensures o.issued.Some? && rt.assumeRole(o.issued.value).Failure? ==>
              o.response == Response(500, [], ErrorBody(rt.assumeRole(o.issued.value).error))
  {
    match rt.parseInt(Get(req.query, "duration").GetOr(DefaultDuration))
    case Failure(msg) => Error(500, msg)
    case Success(duration) =>
      match Get(req.query, "service")
      case None => Error(400, ServiceRequired)
      case Some(name) =>
        if name == "" then Error(400, ServiceRequired)
        else match GetServiceConfig(env, codec)
          case Failure(msg) => Error(500, msg)
          case Success(services) =>
            match Get(services, name)
            case None => Error(400, "Unknown service: " + name)
            case Some(rec) =>
              if !Truthy(rec) then Error(400, "Unknown service: " + name)
              else if rec.NonObject? then Error(500, rt.typeErrorText)
              else
                var user := Caller(req.authorizer);
                if rec.restrictedUsers.Some? && user !in rec.restrictedUsers.value then
                  Error(403, "User " + user + " not authorized for service " + name)
                else match rec.role
                  case None => Error(500, MissingRole)
                  case Some(role) =>
                    var call := AssumeRoleRequest(role, name + "-session-" + DecimalString(rt.now),
                                                  Min(duration, MaxDuration));
                    match rt.assumeRole(call)
                    case Failure(msg) => Outcome(Response(500, [], ErrorBody(msg)), Some(call))
                    case Success(creds) => Outcome(Response(200, CorsHeaders, CredentialsBody(creds)), Some(call))
  }

  /** Credentials are requested exactly for a parseable duration, a
      non-empty service name, a loadable registry and a record that admits
      the caller. */
  lemma IssuedExactlyWhenAdmitted(req: Request, env: Dict<string>, codec: JsonCodec, rt: Runtime)
    ensures Handler(req, env, codec, rt).issued.Some? <==>
              && rt.parseInt(Get(req.query, "duration").GetOr(DefaultDuration)).Success?
              && Get(req.query, "service").Some? && Get(req.query, "service").value != ""
              && GetServiceConfig(env, codec).Success?
              && var rec := Get(GetServiceConfig(env, codec).value, Get(req.query, "service").value);
                 rec.Some? && Admits(rec.value, Caller(req.authorizer))
  {
    var parsed := rt.parseInt(Get(req.query, "duration").GetOr(DefaultDuration));
    var service := Get(req.query, "service");
    if parsed.Success? && service.Some? && service.value != "" && GetServiceConfig(env, codec).Success? {
      var rec := Get(GetServiceConfig(env, codec).value, service.value);
      if rec.Some? && Admits(rec.value, Caller(req.authorizer)) {
        AdmittedIsIssued(req, env, codec, rt, service.value, rec.value);
      }
    }
  }

  /** The path through the handler that ends in an `assume_role` call. */
  lemma AdmittedIsIssued(req: Request, env: Dict<string>, codec: JsonCodec, rt: Runtime, name: string, rec: Json)
    requires rt.parseInt(Get(req.query, "duration").GetOr(DefaultDuration)).Success?
    requires Get(req.query, "service") == Some(name) && name != ""
    requires GetServiceConfig(env, codec).Success? && Get(GetServiceConfig(env, codec).value, name) == Some(rec)
    requires Admits(rec, Caller(req.authorizer))
    ensures Handler(req, env, codec, rt).issued.Some?
  {
    assert Truthy(rec) && !rec.NonObject?;
    var duration := rt.parseInt(Get(req.query, "duration").GetOr(DefaultDuration)).value;
    var call := AssumeRoleRequest(rec.role.value, name + "-session-" + DecimalString(rt.now), Min(duration, MaxDuration));
    assert Handler(req, env, codec, rt).issued == Some(call);
  }

  /** Unless a `SERVICE_` variable redefines it, `universal` credentials go
      to the admin user only. */
  lemma UniversalOnlyForAdmin(req: Request, env: Dict<string>, codec: JsonCodec, rt: Runtime)
    requires Get(req.query, "service") == Some(UniversalService)
    requires forall j :: !SourceAt(env, codec, UniversalService, j)
    requires Handler(req, env, codec, rt).issued.Some?
    ensures Caller(req.authorizer) == Get(env, AdminVar).GetOr(DefaultAdmin)
  {
    UniversalSynthesized(env, codec);
  }
}

=== FILE: edit_service.dfy ===
/** `edit_service.py`: changing a registered service's bucket patterns,
    user restriction or permission level. The record is merged in place;
    its role is never touched. Lambda and IAM are inputs as in
    `AddService`. */
module EditService {
  import opened Wrappers
  import opened Text
  import opened OrderedDict
  import opened Registry
  import opened AddService
  import CredentialService

  /** The record after an edit: truthy patterns replace `buckets`; a user
      list replaces `restricted_users` when non-empty and removes it when
      empty; `None` leaves a field alone. */
  function Merge(rec: Json, patterns: Option<seq<string>>, users: Option<seq<string>>): (r: Json)
    requires rec.Obj?
    ensures r.Obj? && r.role == rec.role && r.otherKeys == rec.otherKeys
    ensures patterns.Some? && |patterns.value| > 0 ==> r.buckets == patterns
    ensures patterns.None? || |patterns.value| == 0 ==> r.buckets == rec.buckets
    ensures users.None? ==> r.restrictedUsers == rec.restrictedUsers
    ensures users.Some? ==> (r.restrictedUsers.Some? <==> |users.value| > 0)
    ensures users.Some? && |users.value| > 0 ==> r.restrictedUsers == users
  {
    var buckets := if patterns.Some? && |patterns.value| > 0 then patterns else rec.buckets;
    var restricted := match users
      case None => rec.restrictedUsers
      case Some(us) => if |us| > 0 then users else None;
    rec.(buckets := buckets, restrictedUsers := restricted)
  }

  /** An edit with no option leaves the record as it was. */
  lemma MergeNothing(rec: Json)
    requires rec.Obj?
    ensures Merge(rec, None, None) == rec
  {
  }

  /** Repeating an edit changes nothing more. */
  lemma MergeIdempotent(rec: Json, patterns: Option<seq<string>>, users: Option<seq<string>>)
    requires rec.Obj?
    ensures Merge(Merge(rec, patterns, users), patterns, users) == Merge(rec, patterns, users)
  {
  }

  /** A record `edit_service` can print: an object with `buckets` and `role`. */
  predicate Editable(rec: Json) {
    rec.Obj? && rec.buckets.Some? && rec.role.Some?
  }

  /** What `edit_service` finds in AWS. */
  datatype EditCloud = EditCloud(deployed: bool, env: Option<Dict<string>>, iamOk: bool, updateOk: bool)

  /** The IAM policy update (role, policy name, document), if made, and the
      environment written, if any. */
  datatype EditOutcome = EditOutcome(success: bool, policy: Option<(string, string, IamPolicy)>,
                                     written: Option<Dict<string>>)

  /** The stored record of `service`, when it exists and parses. */
  function StoredRecord(env: Dict<string>, codec: JsonCodec, service: string): Option<Json> {
    match Get(env, EnvKey(service))
    case None => None
    case Some(text) => codec.loads(text)
  }

  /** `edit_service`. */
  function Edit(service: string, patterns: Option<seq<string>>, perm: Option<Permission>,
                users: Option<seq<string>>, cloud: EditCloud, codec: JsonCodec): (o: EditOutcome)
    ensures !cloud.deployed || cloud.env.None? ==> o == EditOutcome(false, None, None)
    ensures cloud.env.Some? && Get(cloud.env.value, EnvKey(service)).None? ==> o == EditOutcome(false, None, None)
    ensures o.success <==> o.written.Some?
    ensures o.written.Some? ==>
              && cloud.env.Some?
              && var rec := StoredRecord(cloud.env.value, codec, service);
                 && rec.Some? && Editable(rec.value)
                 && Get(o.written.value, EnvKey(service)) == Some(codec.dumps(Merge(rec.value, patterns, users)))
                 && forall k :: k != EnvKey(service) ==> Get(o.written.value, k) == Get(cloud.env.value, k)
    ensures o.policy.Some? ==>
              && perm.Some? && cloud.env.Some?
              && var rec := StoredRecord(cloud.env.value, codec, service);
                 && rec.Some? && Editable(rec.value)
                 && o.policy.value.0 == RoleName(service) && o.policy.value.1 == PolicyName(service)
                 && o.policy.value.2.statements ==
                      [IamStatement("Allow", None, Actions(perm.value), Resources(Merge(rec.value, patterns, users).buckets.value))]
    ensures perm.Some? && o.success ==> o.policy.Some?
    // The edit is written exactly when the stack is deployed, the stored
    // record is editable, the IAM update (if asked for) and the Lambda
    // update both go through.
    ensures o.written.Some? <==>
              && cloud.deployed && cloud.env.Some?
              && StoredRecord(cloud.env.value, codec, service).Some?
              && Editable(StoredRecord(cloud.env.value, codec, service).value)
              && (perm.None? || cloud.iamOk) && cloud.updateOk
  {
    if !cloud.deployed then EditOutcome(false, None, None)
    else match cloud.env
      case None => EditOutcome(false, None, None)
      case Some(env) =>
        if Get(env, EnvKey(service)).None? then EditOutcome(false, None, None)
        else match StoredRecord(env, codec, service)
          case None => EditOutcome(false, None, None)
          case Some(rec) =>
            if !Editable(rec) then EditOutcome(false, None, None)
            else
              var merged := Merge(rec, patterns, users);
              var policy := match perm
                case None => None
                case Some(p) => Some((RoleName(service), PolicyName(service), PermissionsPolicy(merged.buckets.value, p)));
              if perm.Some? && !cloud.iamOk then EditOutcome(false, None, None)
              else if !cloud.updateOk then EditOutcome(false, policy, None)
              else EditOutcome(true, policy, Some(Set(env, EnvKey(service), codec.dumps(merged))))
  }

  /** After a successful edit the credential service reads the merged
      record, whose role is the one the service had before. */
  lemma EditedServiceReadBack(service: string, patterns: Option<seq<string>>, perm: Option<Permission>,
                              users: Option<seq<string>>, cloud: EditCloud, codec: JsonCodec)
    requires RoundTrips(codec) && HasNoUpper(service)
    requires cloud.env.Some? && KeysDistinct(cloud.env.value) && OwnVariableOnly(cloud.env.value, service)
    requires Edit(service, patterns, perm, users, cloud, codec).success
    ensures var env' := Edit(service, patterns, perm, users, cloud, codec).written.value;
            var before := StoredRecord(cloud.env.value, codec, service).value;
            CredentialService.GetServiceConfig(env', codec).Success? ==>
              && Get(CredentialService.GetServiceConfig(env', codec).value, service) == Some(Merge(before, patterns, users))
              && Merge(before, patterns, users).role == before.role
  {
    var rec := Merge(StoredRecord(cloud.env.value, codec, service).value, patterns, users);
    var env' := Edit(service, patterns, perm, users, cloud, codec).written.value;
    assert env' == Set(cloud.env.value, EnvKey(service), codec.dumps(rec));
    var admin := Get(env', CredentialService.AdminVar).GetOr(CredentialService.DefaultAdmin);
    if admin == "" {
      WrittenRecordReadBack(cloud.env.value, codec, [], service, rec);
    } else if Get(env', CredentialService.AccountVar).Some? {
      var acc := [(CredentialService.UniversalService,
                   CredentialService.UniversalRecord(Get(env', CredentialService.AccountVar).value, admin))];
      WrittenRecordReadBack(cloud.env.value, codec, acc, service, rec);
    }
  }

  /** The options `main` passes on, after normalisation. */
  datatype EditArgs = EditArgs(patterns: Option<seq<string>>, perm: Option<Permission>, users: Option<seq<string>>)

  /** `main`'s argument handling; `None` where it refuses to run because
      no edit option was given. An empty `--bucket-patterns` counts as
      absent; an empty `--restricted-users` asks for the restriction to
      be removed. */
  function NormaliseArgs(patternsArg: Option<string>, perm: Option<Permission>,
                         usersArg: Option<string>): (r: Option<EditArgs>)
    ensures r.None? <==> (patternsArg.None? || patternsArg.value == "") && perm.None? && usersArg.None?
    ensures r.Some? ==> r.value.perm == perm
    ensures r.Some? ==> (r.value.patterns.Some? <==> patternsArg.Some? && patternsArg.value != "")
    ensures r.Some? ==> (r.value.users.None? <==> usersArg.None?)
    ensures r.Some? && usersArg == Some("") ==> r.value.users == Some([])
    ensures r.Some? && usersArg.Some? && usersArg.value != "" ==> r.value.users == Some(ParseList(usersArg.value))
  {
    var noPatterns := patternsArg.None? || patternsArg.value == "";
    if noPatterns && perm.None? && usersArg.None? then None
    else
      var patterns := if noPatterns then None else Some(ParseList(patternsArg.value));
      var users := match usersArg
        case None => None
        case Some(s) => if s == "" then Some([]) else Some(ParseList(s));
      Some(EditArgs(patterns, perm, users))
  }

  /** On the command line, `--restricted-users ""` lifts the restriction
      and any other value installs the parsed list, never an empty one. */
  lemma UsersOptionEffect(rec: Json, patternsArg: Option<string>, perm: Option<Permission>, usersArg: string)
    requires rec.Obj?
    ensures var a := NormaliseArgs(patternsArg, perm, Some(usersArg)).value;
            var r := Merge(rec, a.patterns, a.users);
            if usersArg == "" then r.restrictedUsers.None?
            else r.restrictedUsers == Some(ParseList(usersArg))
  {
  }

  /** `main`: 1 without an edit option, otherwise 0 exactly when the edit
      succeeded. */
  function Command(service: string, patternsArg: Option<string>, perm: Option<Permission>,
                   usersArg: Option<string>, cloud: EditCloud, codec: JsonCodec): (code: int)
    ensures code == 0 || code == 1
    ensures NormaliseArgs(patternsArg, perm, usersArg).None? ==> code == 1
    ensures code == 0 <==> && NormaliseArgs(patternsArg, perm, usersArg).Some?
                           && var a := NormaliseArgs(patternsArg, perm, usersArg).value;
                              Edit(service, a.patterns, a.perm, a.users, cloud, codec).success
  {
    match NormaliseArgs(patternsArg, perm, usersArg)
    case None => 1
    case Some(a) => if Edit(service, a.patterns, a.perm, a.users, cloud, codec).success then 0 else 1
  }
}

=== FILE: gateway.dfy ===
/** The request path through API Gateway: the s3bridge-mw authorizer
    decides on the cookies, the gateway copies the policy's principal
    and context into the request, and the credential service reads its
    caller from there. The gateway itself is not part of the repository;
    it is modelled only as that copy. */
module Gateway {
  import opened Wrappers
  import opened OrderedDict
  import opened Registry
  import MidwayAuthorizer
  import UsernamePattern
  import S3BridgeAuthorizer
  import CredentialService

  /** The authorizer context the credential service sees: the policy's
      context entries and its principal. */
  function AuthorizerContext(p: MidwayAuthorizer.Policy): (ctx: Dict<string>)
    ensures Get(ctx, "userId") == Some(p.context.userId)
    ensures Get(ctx, "principalId") == Some(p.principalId)
  {
    [("userId", p.context.userId), ("stringKey", p.context.stringKey), ("principalId", p.principalId)]
  }

  /** One credentials request end to end; `None` is the gateway's refusal
      when the authorizer raises. */
  function Serve(e: MidwayAuthorizer.Event, c: MidwayAuthorizer.Codecs, query: Dict<string>,
                 env: Dict<string>, codec: JsonCodec, rt: CredentialService.Runtime): (o: Option<CredentialService.Outcome>)
    ensures o.Some? <==> S3BridgeAuthorizer.Handler(e, c).Success?
    ensures o.Some? ==>
              o.value == CredentialService.Handler(
                CredentialService.Request(query, AuthorizerContext(S3BridgeAuthorizer.Handler(e, c).value)), env, codec, rt)
  {
    match S3BridgeAuthorizer.Handler(e, c)
    case Failure(_) => None
    case Success(policy) =>
      Some(CredentialService.Handler(CredentialService.Request(query, AuthorizerContext(policy)), env, codec, rt))
  }

  /** Credentials are only ever requested on behalf of the identity the
      authorizer read from the cookies, never for a deny-listed one, and
      only when the requested service's record admits that identity. */
  lemma IssuedForCookieIdentity(e: MidwayAuthorizer.Event, c: MidwayAuthorizer.Codecs, query: Dict<string>,
                                env: Dict<string>, codec: JsonCodec, rt: CredentialService.Runtime)
    requires Serve(e, c, query, env, codec, rt).Some?
    ensures var policy := S3BridgeAuthorizer.Handler(e, c).value;
            var who := MidwayAuthorizer.ExtractIdentity(MidwayAuthorizer.CookieString(e), c, UsernamePattern.Spaces);
            && CredentialService.Caller(AuthorizerContext(policy)) == who
            && who !in MidwayAuthorizer.DenyList
    ensures var who := MidwayAuthorizer.ExtractIdentity(MidwayAuthorizer.CookieString(e), c, UsernamePattern.Spaces);
            var services := CredentialService.GetServiceConfig(env, codec);
            Serve(e, c, query, env, codec, rt).value.issued.Some? ==>
              && services.Success? && Get(query, "service").Some?
              && var rec := Get(services.value, Get(query, "service").value);
                 rec.Some? && CredentialService.Admits(rec.value, who)
  {
    var policy := S3BridgeAuthorizer.Handler(e, c).value;
    CredentialService.IssuedExactlyWhenAdmitted(
      CredentialService.Request(query, AuthorizerContext(policy)), env, codec, rt);
  }
}

=== FILE: glob.dfy ===
/** Shell-style wildcard matching as `fnmatch.fnmatch` performs it on a
    POSIX host: the whole name must match, `*` matches any run of
    characters (including none) and `?` matches exactly one. */
module Glob {
  import opened Text

  predicate IsWildcard(c: char) { c == '*' || c == '?' || c == '[' }

  /** A pattern with no wildcard characters, which only matches itself. */
  predicate IsLiteral(p: string) {
    forall i :: 0 <= i < |p| ==> !IsWildcard(p[i])
  }

  predicate Matches(pattern: string, name: string)
    decreases |pattern| + |name|
  {
    if |pattern| == 0 then |name| == 0
    else if pattern[0] == '*' then
      Matches(pattern[1..], name) || (|name| > 0 && Matches(pattern, name[1..]))
    else
      |name| > 0 && (pattern[0] == '?' || pattern[0] == name[0]) && Matches(pattern[1..], name[1..])
  }

  /** A lone `*` matches every name. */
  lemma {:induction false} StarMatchesAll(name: string)
    ensures Matches("*", name)
    decreases |name|
  {
    assert "*"[1..] == "";
    if |name| > 0 {
      StarMatchesAll(name[1..]);
    }
  }

  /** A literal head must be matched character for character. */
  lemma {:induction false} LiteralHead(lit: string, rest: string, name: string)
    requires IsLiteral(lit)
    ensures Matches(lit + rest, name) <==> HasPrefix(name, lit) && Matches(rest, name[|lit|..])
    decreases |lit|
  {
    if |lit| == 0 {
      assert lit + rest == rest;
      assert name[0..] == name;
    } else {
      var p := lit + rest;
      assert p[0] == lit[0] && !IsWildcard(lit[0]);
      assert p[1..] == lit[1..] + rest;
      if |name| > 0 {
        LiteralHead(lit[1..], rest, name[1..]);
        if |lit| <= |name| {
          assert name[1..][|lit| - 1..] == name[|lit|..];
          assert name[..|lit|] == [name[0]] + name[1..][..|lit| - 1];
          assert lit == [lit[0]] + lit[1..];
        }
      }
    }
  }

  /** A leading `*` lets the rest of the pattern match any suffix. */
  lemma {:induction false} StarHead(rest: string, name: string)
    ensures Matches("*" + rest, name) <==> exists k :: 0 <= k <= |name| && Matches(rest, name[k..])
    decreases |name|
  {
    var p := "*" + rest;
    assert p[0] == '*' && p[1..] == rest;
    assert name[0..] == name;
    if |name| > 0 {
      StarHead(rest, name[1..]);
      forall k | 1 <= k <= |name| ensures name[1..][k - 1..] == name[k..] { }
      if Matches(p, name) && !Matches(rest, name) {
        var k :| 0 <= k <= |name[1..]| && Matches(rest, name[1..][k..]);
        assert Matches(rest, name[k + 1..]);
      }
      if exists k :: 0 <= k <= |name| && Matches(rest, name[k..]) {
        var k :| 0 <= k <= |name| && Matches(rest, name[k..]);
        if k > 0 {
          assert Matches(rest, name[1..][k - 1..]);
        }
      }
    }
  }

  /** `lit*` matches exactly the names starting with `lit`. */
  lemma PrefixPattern(lit: string, name: string)
    requires IsLiteral(lit)
    ensures Matches(lit + "*", name) <==> HasPrefix(name, lit)
  {
    LiteralHead(lit, "*", name);
    if |lit| <= |name| {
      StarMatchesAll(name[|lit|..]);
    }
  }

  /** `*lit*` matches exactly the names containing `lit`. */
  lemma InfixPattern(lit: string, name: string)
    requires IsLiteral(lit)
    ensures Matches("*" + lit + "*", name) <==> Contains(name, lit)
  {
    assert "*" + lit + "*" == "*" + (lit + "*");
    StarHead(lit + "*", name);
    if Contains(name, lit) {
      var i :| 0 <= i <= |name| - |lit| && OccursAt(name, lit, i);
      PrefixPattern(lit, name[i..]);
      assert name[i..][..|lit|] == name[i..i + |lit|];
    }
    if Matches("*" + lit + "*", name) {
      var k :| 0 <= k <= |name| && Matches(lit + "*", name[k..]);
      PrefixPattern(lit, name[k..]);
      assert name[k..][..|lit|] == name[k..k + |lit|];
      assert OccursAt(name, lit, k);
    }
  }
}

=== FILE: list_services.dfy ===
/** `list_services.py`: the operator's view of the registry, rebuilt from
    the credential service's environment. It loads the `SERVICE_`
    variables the same way the service does but synthesizes `universal`
    by different rules. */
module ListServices {
  import opened Wrappers
  import opened OrderedDict
  import opened Registry
  import opened CredentialService

  const UnknownAccount: string := "unknown"

  /** The `services` table: every parseable `SERVICE_` variable, then
      `universal` when `ADMIN_USERNAME` is set and non-empty. */
  function Services(env: Dict<string>, codec: JsonCodec): (r: Dict<Json>)
    ensures forall s :: s != UniversalService ==> Get(r, s) == Get(LoadServices(env, codec, []), s)
    ensures Get(env, AdminVar).Some? && Get(env, AdminVar).value != "" ==>
              Get(r, UniversalService) ==
                Some(UniversalRecord(Get(env, AccountVar).GetOr(UnknownAccount), Get(env, AdminVar).value))
    ensures Get(env, AdminVar).None? || Get(env, AdminVar).value == "" ==>
              Get(r, UniversalService) == Get(LoadServices(env, codec, []), UniversalService)
  {
    var loaded := LoadServices(env, codec, []);
    match Get(env, AdminVar)
    case None => loaded
    case Some(admin) =>
      if admin == "" then loaded
      else Set(loaded, UniversalService, UniversalRecord(Get(env, AccountVar).GetOr(UnknownAccount), admin))
  }

  /** With a non-empty admin name, the listing's `universal` is the
      synthesized record whatever the `SERVICE_` variables say; the
      credential service lets a `SERVICE_UNIVERSAL` variable win instead
      (`CredentialService.UniversalOverridden`). */
  lemma ListedUniversal(env: Dict<string>, codec: JsonCodec)
    requires Get(env, AdminVar).Some? && Get(env, AdminVar).value != ""
    ensures Get(Services(env, codec), UniversalService) ==
              Some(UniversalRecord(Get(env, AccountVar).GetOr(UnknownAccount), Get(env, AdminVar).value))
  {
  }

  /** Without `ADMIN_USERNAME` the listing has no synthesized `universal`,
      while the credential service, defaulting the admin to `admin`,
      serves one. */
  lemma NoAdminDefault(env: Dict<string>, codec: JsonCodec)
    requires Get(env, AdminVar).None? && Get(env, AccountVar).Some?
    requires forall j :: !SourceAt(env, codec, UniversalService, j)
    ensures Get(Services(env, codec), UniversalService).None?
    ensures GetServiceConfig(env, codec).Success? &&
            Get(GetServiceConfig(env, codec).value, UniversalService) ==
              Some(UniversalRecord(Get(env, AccountVar).value, DefaultAdmin))
  {
    LoadedWithoutSource(env, codec, [], UniversalService);
    UniversalSynthesized(env, codec);
  }

  /** One printed service. */
  datatype Entry = Entry(name: string, role: string, buckets: seq<string>, restrictedUsers: Option<seq<string>>)

  /** A record the printing loop can show: an object with `role` and
      `buckets`; anything else raises there. */
  predicate Listable(rec: Json) {
    rec.Obj? && rec.role.Some? && rec.buckets.Some?
  }

  /** The printing loop; `None` where a record makes it raise. */
  function Listing(services: Dict<Json>): (r: Option<seq<Entry>>)
    ensures r.Some? <==> forall i :: 0 <= i < |services| ==> Listable(services[i].1)
    ensures r.Some? ==> |r.value| == |services|
    ensures r.Some? ==> forall i :: 0 <= i < |services| ==>
              var rec := services[i].1;
              r.value[i] == Entry(services[i].0, rec.role.value, rec.buckets.value, rec.restrictedUsers)
  {
    if |services| == 0 then Some([])
    else
      var (name, rec) := services[0];
      match Listing(services[1..])
      case None => None
      case Some(rest) =>
        if !Listable(rec) then None
        else Some([Entry(name, rec.role.value, rec.buckets.value, rec.restrictedUsers)] + rest)
  }

  /** `list_services`: `env` is the environment read from Lambda (`None`
      where that call raises); `None` is a `False` return. */
  function List(deployed: bool, env: Option<Dict<string>>, codec: JsonCodec): (r: Option<seq<Entry>>)
    ensures r.Some? <==> deployed && env.Some? && Listing(Services(env.value, codec)).Some?
    ensures r.Some? ==> |r.value| == |Services(env.value, codec)|
  {
    if !deployed then None
    else match env
      case None => None
      case Some(vars) => Listing(Services(vars, codec))
  }

  /** `main`: 0 exactly when the listing completed. */
  function Command(deployed: bool, env: Option<Dict<string>>, codec: JsonCodec): (code: int)
    ensures code == 0 || code == 1
    ensures code == 0 <==> List(deployed, env, codec).Some?
  {
    if List(deployed, env, codec).Some? then 0 else 1
  }
}

=== FILE: midway_authorizer.dfy ===
/** The request authorizer shared by both Lambda authorizers: it picks the
    cookie string, insists on the two Midway cookie markers, reads a user
    name out of the JWT in the first access cookie (with two fallbacks),
    refuses a fixed deny-list, and emits an allow policy for the API method.

    The two deployed handlers differ only in the spelling of the user-name
    regex, which is the `Gap` parameter here. Percent-decoding, base64 and
    UTF-8 decoding are not modelled; they arrive as the `Codecs` oracle. */
module MidwayAuthorizer {
  import opened Wrappers
  import opened Text
  import opened UsernamePattern

  newtype byte = x: int | 0 <= x < 256

  /** The library decoders the handler calls. A decoder that raises returns `None`. */
  datatype Codecs = Codecs(
    unquote: string -> string,               // urllib.parse.unquote
    b64decode: string -> Option<seq<byte>>,  // base64.b64decode (standard alphabet)
    utf8decode: seq<byte> -> Option<string>) // bytes.decode('utf-8')

  /** The fields of the authorizer event the handler reads. An absent
      `authorizationToken` or `methodArn` key is `None`; an absent
      `headers` key is the empty map. */
  datatype Event = Event(
    headers: map<string, string>,
    authorizationToken: Option<string>,
    methodArn: Option<string>)

  datatype Statement = Statement(action: string, effect: string, resource: string)
  datatype PolicyDocument = PolicyDocument(version: string, statements: seq<Statement>)
  datatype AuthContext = AuthContext(userId: string, stringKey: string)
  datatype Policy = Policy(principalId: string, context: AuthContext, policyDocument: PolicyDocument)

  const AccessMarker: string := "amazon_enterprise_access"
  const SessionMarker: string := "session"
  /** The only message the handler ever raises. */
  const Unauthorized: string := "Unauthorized"
  /** The hard-coded user recognised anywhere in the decoded cookie. */
  const LegacyUser: string := "zavaugha"
  const Fallback: string := "authenticated_user"
  const Unknown: string := "unknown"
  const DenyList: seq<string> := ["test_user", "demo_user"]
  const PolicyVersion: string := "2012-10-17"
  const InvokeAction: string := "execute-api:Invoke"

  /** `d.get(k, '')`. */
  function Lookup(d: map<string, string>, k: string): string {
    if k in d then d[k] else ""
  }

  /** The cookie sources, in the order the handler tries them. */
  function Candidates(e: Event): seq<string> {
    [Lookup(e.headers, "Cookie"), Lookup(e.headers, "cookie"), e.authorizationToken.GetOr("")]
  }

  /** `headers.get('Cookie', '') or headers.get('cookie', '') or event.get('authorizationToken', '')`. */
  function CookieString(e: Event): (r: string)
    ensures |r| == 0 <==> forall i :: 0 <= i < 3 ==> Candidates(e)[i] == ""
    ensures |r| > 0 ==> exists i :: 0 <= i < 3 && Candidates(e)[i] == r
                                    && forall j :: 0 <= j < i ==> Candidates(e)[j] == ""
  {
    var cookie := Lookup(e.headers, "Cookie");
    var lower := Lookup(e.headers, "cookie");
    var token := e.authorizationToken.GetOr("");
    assert Candidates(e) == [cookie, lower, token];
    if cookie != "" then
      assert Candidates(e)[0] == cookie;
      cookie
    else if lower != "" then
      assert Candidates(e)[1] == lower;
      lower
    else
      assert Candidates(e)[2] == token;
      token
  }

  predicate HasMarkers(cookies: string) {
    Contains(cookies, AccessMarker) && Contains(cookies, SessionMarker)
  }

  /** `payload += '=' * (4 - len(payload) % 4)`: a whole group of `=` is
      added when the length is already a multiple of four. */
  function Pad(p: string): (r: string)
    ensures |r| % 4 == 0
    ensures |p| < |r| <= |p| + 4
    ensures r[..|p|] == p
    ensures forall i :: |p| <= i < |r| ==> r[i] == '='
  {
    p + Repeat('=', 4 - |p| % 4)
  }

  /** The base64 and UTF-8 decoding of one JWT segment. */
  function DecodeSegment(segment: string, c: Codecs): Option<string> {
    match c.b64decode(Pad(segment))
    case None => None
    case Some(bytes) => c.utf8decode(bytes)
  }

  /** The decoded JWT payload: the second `.`-part, with no check of the
      header or the signature. `None` when there are fewer than two parts
      or a decoder raises. */
  function PayloadText(decoded: string, c: Codecs): (r: Option<string>)
    ensures |Split(decoded, ".")| < 2 ==> r.None?
    ensures r.Some? ==> r == DecodeSegment(Split(decoded, ".")[1], c)
  {
    var parts := Split(decoded, ".");
    if |parts| < 2 then None else DecodeSegment(parts[1], c)
  }

  /** The user name the regex finds in the payload, if any: `re.search`
      returns the capture of the leftmost match, and a match anywhere in
      the payload means a name comes back. */
  function Claim(decoded: string, c: Codecs, g: Gap): (r: Option<string>)
    ensures r.Some? ==> exists text, k :: && PayloadText(decoded, c) == Some(text)
                                          && 0 <= k && Captures(text, g, k, r.value)
                                          && forall j, v :: 0 <= j < k ==> !Captures(text, g, j, v)
    ensures r.None? ==> forall text, k, u :: PayloadText(decoded, c) == Some(text) && 0 <= k ==> !Captures(text, g, k, u)
  {
    match PayloadText(decoded, c)
    case None => None
    case Some(text) => FindUsername(text, g)
  }

  /** The percent-decoded, stripped value of a cookie segment; `None` when
      the segment has no `=` (the `IndexError` the outer handler catches). */
  function SegmentValue(part: string, c: Codecs): (r: Option<string>)
    ensures r.None? <==> forall t :: 0 <= t < |part| ==> part[t] != '='
    ensures r.Some? ==> exists i :: && 0 <= i < |part| && part[i] == '='
                                    && (forall t :: 0 <= t < i ==> part[t] != '=')
                                    && r.value == c.unquote(Strip(part[i + 1..]))
  {
    match AfterFirst(part, '=')
    case None => None
    case Some(v) => Some(c.unquote(Strip(v)))
  }

  /** The identity read from the first access segment: the regex capture,
      else the legacy user when the decoded value mentions it in any
      letter case, else the generic fallback. */
  function SegmentIdentity(part: string, c: Codecs, g: Gap): (r: string)
    ensures r == Fallback || r == LegacyUser
            || (SegmentValue(part, c).Some? && Claim(SegmentValue(part, c).value, c, g) == Some(r))
    ensures r == LegacyUser && Claim(SegmentValue(part, c).GetOr(""), c, g) != Some(r) ==>
              SegmentValue(part, c).Some? && Contains(Lower(SegmentValue(part, c).value), LegacyUser)
    ensures SegmentValue(part, c).None? ==> r == Fallback
    ensures SegmentValue(part, c).Some? && Claim(SegmentValue(part, c).value, c, g).Some? ==>
              r == Claim(SegmentValue(part, c).value, c, g).value
    ensures SegmentValue(part, c).Some? && Claim(SegmentValue(part, c).value, c, g).None? ==>
              && (r == LegacyUser <==> Contains(Lower(SegmentValue(part, c).value), LegacyUser))
              && (r != LegacyUser ==> r == Fallback)
  {
    match SegmentValue(part, c)
    case None => Fallback
    case Some(decoded) =>
      match Claim(decoded, c, g)
      case Some(u) => u
      case None => if Contains(Lower(decoded), LegacyUser) then LegacyUser else Fallback
  }

  /** The index of the first part containing `marker`. */
  function FirstWith(parts: seq<string>, marker: string): (r: Option<nat>)
    ensures r.Some? ==> r.value < |parts| && Contains(parts[r.value], marker)
                        && forall j :: 0 <= j < r.value ==> !Contains(parts[j], marker)
    ensures r.None? ==> forall j :: 0 <= j < |parts| ==> !Contains(parts[j], marker)
  {
    if |parts| == 0 then None
    else if Contains(parts[0], marker) then Some(0)
    else match FirstWith(parts[1..], marker)
      case None => None
      case Some(i) => Some(i + 1)
  }

  /** The user identity the handler settles on for a cookie string. */
  function ExtractIdentity(cookies: string, c: Codecs, g: Gap): string {
    var parts := Split(cookies, ";");
    match FirstWith(parts, AccessMarker)
    case None => Unknown
    case Some(i) => SegmentIdentity(parts[i], c, g)
  }

  /** The allow policy for `principal` on `arn`. */
  predicate AllowsOnly(p: Policy, principal: string, arn: string) {
    && p.principalId == principal
    && p.context.userId == principal
    && p.context.stringKey == principal
    && p.policyDocument.version == PolicyVersion
    && p.policyDocument.statements == [Statement(InvokeAction, "Allow", arn)]
  }

  /** The authorizer's `lambda_handler`; a `Failure` is the exception it raises. */
  function Handle(e: Event, c: Codecs, g: Gap): (r: Result<Policy, string>)
    ensures r.Failure? ==> r.error == Unauthorized
    ensures !HasMarkers(CookieString(e)) ==> r.Failure?
    ensures e.methodArn.None? ==> r.Failure?
    ensures r.Success? ==> r.value.principalId !in DenyList
    ensures r.Success? ==> e.methodArn.Some? && AllowsOnly(r.value, ExtractIdentity(CookieString(e), c, g), e.methodArn.value)
  {
    var cookies := CookieString(e);
    if !HasMarkers(cookies) then Failure(Unauthorized)
    else
      var user := ExtractIdentity(cookies, c, g);
      if user in DenyList then Failure(Unauthorized)
      else match e.methodArn
        case None => Failure(Unauthorized)
        case Some(arn) =>
          Success(Policy(user, AuthContext(user, user),
                         PolicyDocument(PolicyVersion, [Statement(InvokeAction, "Allow", arn)])))
  }

  /** A present, non-denied identity and a method ARN are all a request needs. */
  lemma HandleSucceeds(e: Event, c: Codecs, g: Gap)
    requires HasMarkers(CookieString(e)) && e.methodArn.Some?
    requires ExtractIdentity(CookieString(e), c, g) !in DenyList
    ensures Handle(e, c, g).Success?
  {
  }

  /** The identity the handler extracts is the principal it authorizes. */
  lemma HandleAuthorizes(e: Event, c: Codecs, g: Gap, u: string)
    requires HasMarkers(CookieString(e)) && e.methodArn.Some?
    requires ExtractIdentity(CookieString(e), c, g) == u && u !in DenyList
    ensures Handle(e, c, g).Success? && Handle(e, c, g).value.principalId == u
  {
  }

  lemma AccessMarkerHasNoSemicolon()
    ensures FreeOf([AccessMarker], ';')
  {
    forall k, t | 0 <= k < 1 && 0 <= t < |[AccessMarker][k]| ensures [AccessMarker][k][t] != ';' {
      assert [AccessMarker][k] == AccessMarker;
    }
  }

  /** A cookie string carrying the access marker has a segment carrying it,
      so the loop always reaches the segment processing. */
  lemma MarkerSegmentExists(cookies: string)
    requires Contains(cookies, AccessMarker)
    ensures FirstWith(Split(cookies, ";"), AccessMarker).Some?
  {
    var j :| 0 <= j <= |cookies| - |AccessMarker| && OccursAt(cookies, AccessMarker, j);
    AccessMarkerHasNoSemicolon();
    SplitKeepsOccurrence(cookies, ';', AccessMarker, j);
  }

  /** The first access segment, as the handler sees it. */
  function FirstAccessSegment(cookies: string): Option<string> {
    var parts := Split(cookies, ";");
    match FirstWith(parts, AccessMarker)
    case None => None
    case Some(i) => Some(parts[i])
  }

  /** The principal of an authorized request is one of the two sentinels or
      a name captured verbatim from the payload of the first access cookie;
      `unknown` only ever comes from such a capture. */
  lemma IdentityProvenance(cookies: string, c: Codecs, g: Gap)
    requires HasMarkers(cookies)
    ensures FirstAccessSegment(cookies).Some?
    ensures var u := ExtractIdentity(cookies, c, g);
            var seg := FirstAccessSegment(cookies).value;
            u == Fallback || u == LegacyUser
            || (SegmentValue(seg, c).Some? && Claim(SegmentValue(seg, c).value, c, g) == Some(u))
  {
    MarkerSegmentExists(cookies);
  }

  /** Appending parts after a part that already carries the marker does
      not move the first such part. */
  lemma FirstWithPrefix(xs: seq<string>, ys: seq<string>, marker: string)
    requires FirstWith(xs, marker).Some?
    ensures FirstWith(xs + ys, marker) == FirstWith(xs, marker)
  {
    var i := FirstWith(xs, marker).value;
    var whole := xs + ys;
    assert whole[i] == xs[i];
    forall j | 0 <= j < i ensures !Contains(whole[j], marker) {
      assert whole[j] == xs[j];
    }
  }

  /** Reading stops at the first access segment: whatever follows it,
      including a second access cookie, leaves the identity unchanged. */
  lemma OnlyFirstSegmentMatters(a: string, b: string, c: Codecs, g: Gap)
    requires Contains(a, AccessMarker)
    ensures ExtractIdentity(a + ";" + b, c, g) == ExtractIdentity(a, c, g)
  {
    SplitConcat(a, ';', b);
    MarkerSegmentExists(a);
    FirstWithPrefix(Split(a, ";"), Split(b, ";"), AccessMarker);
    var i := FirstWith(Split(a, ";"), AccessMarker).value;
    assert Split(a + ";" + b, ";")[i] == Split(a, ";")[i];
  }

  /** Splitting on `.` peels off a leading part that holds no `.`. */
  lemma SplitAfterDotFree(h: string, rest: string)
    requires forall t :: 0 <= t < |h| ==> h[t] != '.'
    ensures Split(h + "." + rest, ".") == [h] + Split(rest, ".")
  {
    assert FreeOf([h], '.');
    NoCharNoSplit(h, '.');
    SplitConcat(h, '.', rest);
  }

  /** Only the second `.`-part is decoded: the header is never looked at. */
  lemma PayloadIgnoresHeader(h: string, p: string, c: Codecs)
    requires forall t :: 0 <= t < |h| ==> h[t] != '.'
    requires forall t :: 0 <= t < |p| ==> p[t] != '.'
    ensures PayloadText(h + "." + p, c) == DecodeSegment(p, c)
  {
    SplitAfterDotFree(h, p);
    assert FreeOf([p], '.');
    NoCharNoSplit(p, '.');
  }

  /** Whatever follows the payload, the signature included, plays no role:
      no signature is checked. */
  lemma PayloadIgnoresSignature(h: string, p: string, sig: string, c: Codecs)
    requires forall t :: 0 <= t < |h| ==> h[t] != '.'
    requires forall t :: 0 <= t < |p| ==> p[t] != '.'
    ensures PayloadText(h + "." + p + "." + sig, c) == DecodeSegment(p, c)
  {
    assert h + "." + p + "." + sig == h + "." + (p + "." + sig);
    SplitAfterDotFree(h, p + "." + sig);
    SplitAfterDotFree(p, sig);
  }

  /** A value without a `.` is not a JWT, so no payload is read. */
  lemma NoDotNoPayload(decoded: string, c: Codecs)
    requires forall t :: 0 <= t < |decoded| ==> decoded[t] != '.'
    ensures PayloadText(decoded, c) == None
  {
    NoCharNoSplit(decoded, '.');
  }

  /** A capture in the payload of the first access segment decides the
      identity: the fallbacks are skipped. */
  lemma ClaimDecides(cookies: string, c: Codecs, g: Gap, seg: string, decoded: string, u: string)
    requires FirstAccessSegment(cookies) == Some(seg)
    requires SegmentValue(seg, c) == Some(decoded)
    requires Claim(decoded, c, g) == Some(u)
    ensures ExtractIdentity(cookies, c, g) == u
  {
  }

  /** Whatever the spacing around the colon, the leftmost match of the
      pattern in the payload names the principal. */
  lemma LeftmostCaptureDecides(cookies: string, c: Codecs, g: Gap, seg: string, decoded: string,
                               text: string, k: nat, u: string)
    requires FirstAccessSegment(cookies) == Some(seg)
    requires SegmentValue(seg, c) == Some(decoded)
    requires PayloadText(decoded, c) == Some(text)
    requires Captures(text, g, k, u)
    requires forall j, v :: 0 <= j < k ==> !Captures(text, g, j, v)
    ensures ExtractIdentity(cookies, c, g) == u
  {
    var r := Claim(decoded, c, g);
    assert r.Some?;
    var t, k' :| && PayloadText(decoded, c) == Some(t)
                 && 0 <= k' && Captures(t, g, k', r.value)
                 && forall j, v :: 0 <= j < k' ==> !Captures(t, g, j, v);
    assert k' == k;
    CaptureUnique(text, g, k, u, r.value);
    ClaimDecides(cookies, c, g, seg, decoded, u);
  }

  /** Without a capture the fallbacks decide: a segment without `=` gives
      the generic fallback; otherwise the legacy user exactly when the
      decoded value mentions it in any letter case, else the generic
      fallback. */
  lemma FallbacksDecide(cookies: string, c: Codecs, g: Gap, seg: string)
    requires FirstAccessSegment(cookies) == Some(seg)
    requires SegmentValue(seg, c).None? || Claim(SegmentValue(seg, c).value, c, g).None?
    ensures SegmentValue(seg, c).None? ==> ExtractIdentity(cookies, c, g) == Fallback
    ensures SegmentValue(seg, c).Some? ==>
              && (ExtractIdentity(cookies, c, g) == LegacyUser <==> Contains(Lower(SegmentValue(seg, c).value), LegacyUser))
              && (ExtractIdentity(cookies, c, g) != LegacyUser ==> ExtractIdentity(cookies, c, g) == Fallback)
  {
  }
}

=== FILE: ordered_dict.dfy ===
/** Python's insertion-ordered `dict` with string keys: the Lambda
    environment variables and the service table are both one. Assigning to
    an existing key keeps its position; a new key goes to the end. */
module OrderedDict {
  import opened Wrappers

  type Dict<V> = seq<(string, V)>

  function Keys<V>(d: Dict<V>): (r: seq<string>)
    ensures |r| == |d| && forall i :: 0 <= i < |d| ==> r[i] == d[i].0
  {
    if |d| == 0 then [] else [d[0].0] + Keys(d[1..])
  }

  /** Every key appears once, as in a Python `dict`. */
  predicate KeysDistinct<V>(d: Dict<V>) {
    forall i, j :: 0 <= i < j < |d| ==> d[i].0 != d[j].0
  }

  /** `d.get(k)`. */
  function Get<V>(d: Dict<V>, k: string): (r: Option<V>)
    ensures r.Some? <==> k in Keys(d)
    ensures r.Some? ==> (k, r.value) in d
  {
    if |d| == 0 then None
    else if d[0].0 == k then Some(d[0].1)
    else Get(d[1..], k)
  }

  /** `d[k] = v`. */
  function Set<V>(d: Dict<V>, k: string, v: V): (r: Dict<V>)
    ensures Get(r, k) == Some(v)
    ensures forall k' :: k' != k ==> Get(r, k') == Get(d, k')
  {
    if |d| == 0 then [(k, v)]
    else if d[0].0 == k then
      assert ([(k, v)] + d[1..])[1..] == d[1..];
      [(k, v)] + d[1..]
    else
      var rest := Set(d[1..], k, v);
      assert ([d[0]] + rest)[1..] == rest;
      [d[0]] + rest
  }

  /** `del d[k]`, for a key that may occur. */
  function Delete<V>(d: Dict<V>, k: string): (r: Dict<V>)
    ensures Get(r, k) == None
    ensures forall k' :: k' != k ==> Get(r, k') == Get(d, k')
    ensures forall k' :: k' in Keys(r) <==> k' in Keys(d) && k' != k
  {
    if |d| == 0 then []
    else
      var rest := Delete(d[1..], k);
      if d[0].0 == k then rest
      else
        assert ([d[0]] + rest)[1..] == rest;
        [d[0]] + rest
  }

  /** Assignment keeps every key in place and appends a new one. */
  lemma {:induction false} SetKeys<V>(d: Dict<V>, k: string, v: V)
    ensures k in Keys(d) ==> Keys(Set(d, k, v)) == Keys(d)
    ensures k !in Keys(d) ==> Keys(Set(d, k, v)) == Keys(d) + [k]
  {
    if |d| > 0 && d[0].0 != k {
      SetKeys(d[1..], k, v);
      assert Set(d, k, v)[1..] == Set(d[1..], k, v);
    }
  }

  /** Assignment keeps the keys distinct. */
  lemma {:induction false} SetDistinct<V>(d: Dict<V>, k: string, v: V)
    requires KeysDistinct(d)
    ensures KeysDistinct(Set(d, k, v))
  {
    var r := Set(d, k, v);
    SetKeys(d, k, v);
    forall i, j | 0 <= i < j < |r| ensures r[i].0 != r[j].0 {
      assert Keys(r)[i] == r[i].0 && Keys(r)[j] == r[j].0;
      if k in Keys(d) {
        assert Keys(d)[i] == d[i].0 && Keys(d)[j] == d[j].0;
      } else if j < |d| {
        assert Keys(d)[i] == d[i].0 && Keys(d)[j] == d[j].0;
      } else {
        assert Keys(d)[i] == d[i].0;
      }
    }
  }

  /** With distinct keys, looking up the key stored at a position gives
      the value stored there. */
  lemma {:induction false} GetAt<V>(d: Dict<V>, i: int)
    requires KeysDistinct(d) && 0 <= i < |d|
    ensures Get(d, d[i].0) == Some(d[i].1)
  {
    if i > 0 {
      assert d[0].0 != d[i].0;
      GetAt(d[1..], i - 1);
    }
  }
}

=== FILE: registry.dfy ===
/** The service registry as the Lambda environment stores it: one
    variable `SERVICE_<NAME>` per service, holding a JSON record with the
    role ARN, the bucket patterns and, optionally, the users allowed to use
    it. JSON text is not modelled: `JsonCodec` supplies `json.loads` and
    `json.dumps`. */
module Registry {
  import opened Wrappers
  import opened Text
  import opened OrderedDict

  /** A decoded JSON value as the registry code sees it. An object is
      described by the three keys the code reads (`None` when the key is
      absent) and whether it has any other key; any other JSON value only
      matters through its truthiness. */
  datatype Json =
    | Obj(role: Option<string>, buckets: Option<seq<string>>,
          restrictedUsers: Option<seq<string>>, otherKeys: bool)
    | NonObject(truthy: bool)

  /** Python truthiness: an object is true when it has at least one key. */
  predicate Truthy(v: Json) {
    match v
    case Obj(role, buckets, users, other) => role.Some? || buckets.Some? || users.Some? || other
    case NonObject(t) => t
  }

  /** `json.loads` (`None` where it raises `JSONDecodeError`) and `json.dumps`. */
  datatype JsonCodec = JsonCodec(loads: string -> Option<Json>, dumps: Json -> string)

  /** `json.loads(json.dumps(v)) == v` for every value. */
  ghost predicate RoundTrips(codec: JsonCodec) {
    forall v :: codec.loads(codec.dumps(v)) == Some(v)
  }

  const ServicePrefix: string := "SERVICE_"

  predicate IsServiceKey(key: string) {
    HasPrefix(key, ServicePrefix)
  }

  /** `key[8:].lower()`. */
  function ServiceName(key: string): (r: string)
    requires IsServiceKey(key)
    ensures |r| == |key| - |ServicePrefix|
  {
    Lower(key[|ServicePrefix|..])
  }

  /** `f'SERVICE_{name.upper()}'`. */
  function EnvKey(name: string): (r: string)
    ensures IsServiceKey(r)
  {
    ServicePrefix + Upper(name)
  }

  /** Reading a service's variable name back gives the service exactly
      when the name has no upper-case letter. */
  lemma EnvKeyRoundTrip(name: string)
    ensures ServiceName(EnvKey(name)) == name <==> HasNoUpper(name)
  {
    assert EnvKey(name)[|ServicePrefix|..] == Upper(name);
    LowerUpperRoundTrip(name);
  }

  /** Two services share a variable exactly when they upper-case alike. */
  lemma EnvKeyInjective(a: string, b: string)
    requires HasNoUpper(a) && HasNoUpper(b) && EnvKey(a) == EnvKey(b)
    ensures a == b
  {
    EnvKeyRoundTrip(a);
    EnvKeyRoundTrip(b);
  }

  /** The environment entry at `i` is a `SERVICE_` variable for `name`
      whose value parses as JSON. */
  ghost predicate SourceAt(env: Dict<string>, codec: JsonCodec, name: string, i: int) {
    && 0 <= i < |env|
    && IsServiceKey(env[i].0) && ServiceName(env[i].0) == name
    && codec.loads(env[i].1).Some?
  }

  /** The loop over `os.environ.items()` that stores every parseable
      `SERVICE_` variable under its lower-cased name, on top of `acc`. */
  function LoadServices(env: Dict<string>, codec: JsonCodec, acc: Dict<Json>): (r: Dict<Json>)
    decreases |env|
  {
    if |env| == 0 then acc
    else
      var prev := LoadServices(env[..|env| - 1], codec, acc);
      var (key, value) := env[|env| - 1];
      if !IsServiceKey(key) then prev
      else match codec.loads(value)
        case None => prev
        case Some(v) => Set(prev, ServiceName(key), v)
  }

  /** One step of the loop: the last variable sets the service's record
      when it is a source for it, and leaves the record alone otherwise. */
  lemma LoadLastEntry(env: Dict<string>, codec: JsonCodec, acc: Dict<Json>, name: string)
    requires |env| > 0
    ensures SourceAt(env, codec, name, |env| - 1) ==>
              Get(LoadServices(env, codec, acc), name) == codec.loads(env[|env| - 1].1)
    ensures !SourceAt(env, codec, name, |env| - 1) ==>
              Get(LoadServices(env, codec, acc), name) == Get(LoadServices(env[..|env| - 1], codec, acc), name)
  {
  }

  /** The last parseable variable for a service decides its record. */
  lemma {:induction false} LoadedFromLastSource(env: Dict<string>, codec: JsonCodec, acc: Dict<Json>, name: string, i: int)
    requires SourceAt(env, codec, name, i)
    requires forall j :: i < j < |env| ==> !SourceAt(env, codec, name, j)
    ensures Get(LoadServices(env, codec, acc), name) == codec.loads(env[i].1)
    decreases |env|
  {
    var last := |env| - 1;
    var init := env[..last];
    LoadLastEntry(env, codec, acc, name);
    if i < last {
      assert !SourceAt(env, codec, name, last);
      assert SourceAt(init, codec, name, i);
      forall j | i < j < |init| ensures !SourceAt(init, codec, name, j) {
        assert !SourceAt(env, codec, name, j);
      }
      LoadedFromLastSource(init, codec, acc, name, i);
    }
  }

  /** With no parseable variable for a service, its entry is the one it
      had before the loop. */
  lemma {:induction false} LoadedWithoutSource(env: Dict<string>, codec: JsonCodec, acc: Dict<Json>, name: string)
    requires forall j :: !SourceAt(env, codec, name, j)
    ensures Get(LoadServices(env, codec, acc), name) == Get(acc, name)
    decreases |env|
  {
    if |env| > 0 {
      var init := env[..|env| - 1];
      forall j ensures !SourceAt(init, codec, name, j) {
        assert !SourceAt(env, codec, name, j);
      }
      LoadedWithoutSource(init, codec, acc, name);
      assert !SourceAt(env, codec, name, |env| - 1);
    }
  }

  /** What the loader starts from matters only for the services it holds:
      any other service is read from the environment alone. */
  lemma {:induction false} LoadedOverOthers(env: Dict<string>, codec: JsonCodec, acc: Dict<Json>, name: string)
    requires Get(acc, name).None?
    ensures Get(LoadServices(env, codec, acc), name) == Get(LoadServices(env, codec, []), name)
    decreases |env|
  {
    if |env| > 0 {
      LoadedOverOthers(env[..|env| - 1], codec, acc, name);
    }
  }

  /** `LoadedOverOthers` for every service `acc` does not hold. */
  lemma LoadedOverAll(env: Dict<string>, codec: JsonCodec, acc: Dict<Json>)
    ensures forall name :: Get(acc, name).None? ==>
              Get(LoadServices(env, codec, acc), name) == Get(LoadServices(env, codec, []), name)
  {
    forall name | Get(acc, name).None?
      ensures Get(LoadServices(env, codec, acc), name) == Get(LoadServices(env, codec, []), name)
    {
      LoadedOverOthers(env, codec, acc, name);
    }
  }

  /** The only variable in `env` that names `service` is its own
      `SERVICE_<NAME>` variable: no other spelling lower-cases to it. */
  predicate OwnVariableOnly(env: Dict<string>, service: string) {
    forall k :: k in Keys(env) && IsServiceKey(k) && ServiceName(k) == service ==> k == EnvKey(service)
  }

  /** A record written under a service's variable is what the loader
      reads back for that service. */
  lemma WrittenRecordReadBack(env: Dict<string>, codec: JsonCodec, acc: Dict<Json>, service: string, rec: Json)
    requires RoundTrips(codec) && HasNoUpper(service)
    requires KeysDistinct(env) && OwnVariableOnly(env, service)
    ensures Get(LoadServices(Set(env, EnvKey(service), codec.dumps(rec)), codec, acc), service) == Some(rec)
  {
    var key := EnvKey(service);
    var env' := Set(env, key, codec.dumps(rec));
    SetKeys(env, key, codec.dumps(rec));
    SetDistinct(env, key, codec.dumps(rec));
    EnvKeyRoundTrip(service);
    assert key in Keys(env');
    var i :| 0 <= i < |env'| && Keys(env')[i] == key;
    GetAt(env', i);
    assert codec.loads(env'[i].1) == Some(rec);
    assert SourceAt(env', codec, service, i);
    forall j | i < j < |env'| ensures !SourceAt(env', codec, service, j) {
      assert env'[j].0 != key;
      assert Keys(env')[j] == env'[j].0;
      assert env'[j].0 in Keys(env);
    }
    LoadedFromLastSource(env', codec, acc, service, i);
  }

  /** Once a service's variable is deleted, the loader no longer reads any
      record for it. */
  lemma DeletedRecordGone(env: Dict<string>, codec: JsonCodec, acc: Dict<Json>, service: string)
    requires OwnVariableOnly(env, service)
    ensures Get(LoadServices(Delete(env, EnvKey(service)), codec, acc), service) == Get(acc, service)
  {
    var env' := Delete(env, EnvKey(service));
    forall j ensures !SourceAt(env', codec, service, j) {
      if 0 <= j < |env'| {
        assert Keys(env')[j] == env'[j].0;
      }
    }
    LoadedWithoutSource(env', codec, acc, service);
  }
}

=== FILE: remove_service.dfy ===
/** `remove_service.py`: deleting a service's variable from the
    credential service's environment, then its IAM policy and role. */
module RemoveService {
  import opened Wrappers
  import opened OrderedDict
  import opened Registry
  import opened AwsConfig
  import opened AddService

  /** What deleting the role policy and the role meets: success, a role
      that is already gone (`NoSuchEntityException`), or another error. */
  datatype IamDeletion = Deleted | NoSuchEntity | DeletionError

  /** What `remove_service` finds in AWS. */
  datatype RemoveCloud = RemoveCloud(deployed: bool, env: Option<Dict<string>>, updateOk: bool, iam: IamDeletion)

  /** The result, the environment written (if the update was made) and
      the role and policy names deletion was attempted for. */
  datatype RemoveOutcome = RemoveOutcome(success: bool, written: Option<Dict<string>>,
                                         deletedRole: Option<(string, string)>)

  /** `remove_service`. */
  function Remove(service: string, force: bool, answer: string, cloud: RemoveCloud): (o: RemoveOutcome)
    ensures !cloud.deployed || cloud.env.None? ==> o == RemoveOutcome(false, None, None)
    ensures cloud.env.Some? && EnvKey(service) !in Keys(cloud.env.value) ==> o == RemoveOutcome(false, None, None)
    ensures !force && !Confirms(answer) ==> o == RemoveOutcome(false, None, None)
    ensures o.written.Some? <==> && cloud.deployed && cloud.env.Some? && cloud.updateOk
                                 && EnvKey(service) in Keys(cloud.env.value) && (force || Confirms(answer))
    ensures o.written.Some? ==>
              && EnvKey(service) !in Keys(o.written.value)
              && forall k :: k != EnvKey(service) ==> Get(o.written.value, k) == Get(cloud.env.value, k)
    ensures o.deletedRole.Some? <==> o.written.Some?
    ensures o.success <==> o.written.Some? && cloud.iam != DeletionError
  {
    if !cloud.deployed then RemoveOutcome(false, None, None)
    else match cloud.env
      case None => RemoveOutcome(false, None, None)
      case Some(env) =>
        var key := EnvKey(service);
        if Get(env, key).None? then RemoveOutcome(false, None, None)
        else if !force && !Confirms(answer) then RemoveOutcome(false, None, None)
        else if !cloud.updateOk then RemoveOutcome(false, None, None)
        else
          var names := (service + "-s3-access-role", service + "S3AccessPolicy");
          RemoveOutcome(cloud.iam != DeletionError, Some(Delete(env, key)), Some(names))
  }

  /** The role and policy removed are the ones `add_service` created for
      the service, at the ARN its record named. */
  lemma RemovesWhatAddCreated(service: string, force: bool, answer: string, cloud: RemoveCloud,
                              patterns: seq<string>, p: Permission, account: string)
    requires Remove(service, force, answer, cloud).deletedRole.Some?
    ensures var (role, policy) := Remove(service, force, answer, cloud).deletedRole.value;
            var setup := CreateServiceRole(service, patterns, p, account, Absent).value;
            && role == setup.roleName && policy == setup.policyName
            && RoleArn(account, ServiceRolePath, role) == ServiceRoleArn(account, service)
  {
  }

  /** After a removal the credential service has no record for the
      service other than one it synthesizes itself. */
  lemma RemovedServiceGone(service: string, force: bool, answer: string, cloud: RemoveCloud,
                           codec: JsonCodec, acc: Dict<Json>)
    requires cloud.env.Some? && OwnVariableOnly(cloud.env.value, service)
    requires Remove(service, force, answer, cloud).written.Some?
    ensures Get(LoadServices(Remove(service, force, answer, cloud).written.value, codec, acc), service) == Get(acc, service)
  {
    DeletedRecordGone(cloud.env.value, codec, acc, service);
  }

  /** `main`: 0 exactly when the service was removed. */
  function Command(service: string, force: bool, answer: string, cloud: RemoveCloud): (code: int)
    ensures code == 0 || code == 1
    ensures code == 0 <==> Remove(service, force, answer, cloud).success
  {
    if Remove(service, force, answer, cloud).success then 0 else 1
  }
}

=== FILE: s3bridge_auth.dfy ===
/** `S3BridgeAuthProvider`: the client that fetches role credentials for
    one service from the deployed credential endpoint and caches them.
    The deployment file, the environment, the cookie files and the HTTP
    call are parameters. */
module S3BridgeAuth {
  import opened Wrappers
  import opened Text
  import opened CredentialCache

  const NotDeployed: string := "S3Bridge Midway not deployed. Run: s3bridge-mw setup"
  const AuthRequired: string := "Midway authentication required. Please authenticate via Midway."
  const FailurePrefix: string := "S3Bridge Midway credential service failed: "

  /** A provider: its service name and its cache. */
  datatype Provider = Provider(service: string, cache: Cache)

  /** `S3BridgeAuthProvider(service_name)`. */
  function NewProvider(service: string): (p: Provider)
    ensures p.service == service && forall now :: Expired(p.cache, now) && !Hit(p.cache, now)
  {
    Provider(service, Empty)
  }

  /** `_get_api_endpoint`, given the `api_gateway_url` the deployment file
      yields (`None` when the file is missing, unreadable or lacks it). */
  function ApiEndpoint(apiUrl: Option<string>): (r: Result<string, string>)
    ensures r.Success? <==> apiUrl.Some? && apiUrl.value != ""
    ensures r.Success? ==> r.value == apiUrl.value + "/credentials"
    ensures r.Failure? ==> r.error == NotDeployed
  {
    match apiUrl
    case Some(url) => if url != "" then Success(url + "/credentials") else Failure(NotDeployed)
    case None => Failure(NotDeployed)
  }

  /** What opening one cookie file gives. */
  datatype CookieFile = Missing | Unreadable | Holds(text: string)

  /** The cookie files, tried in order (`~/.midway_cookies`, then
      `/tmp/midway_cookies`): the index of the first readable one. */
  function FirstReadable(files: seq<CookieFile>): (r: Option<nat>)
    ensures r.Some? ==> r.value < |files| && files[r.value].Holds?
                        && forall j :: 0 <= j < r.value ==> !files[j].Holds?
    ensures r.None? ==> forall j :: 0 <= j < |files| ==> !files[j].Holds?
  {
    if |files| == 0 then None
    else if files[0].Holds? then Some(0)
    else match FirstReadable(files[1..])
      case None => None
      case Some(i) => Some(i + 1)
  }

  /** `_get_midway_cookies`: a non-empty `MIDWAY_COOKIES`, else the first
      readable cookie file, else the authentication error. */
  function MidwayCookies(envCookies: Option<string>, files: seq<CookieFile>): (r: Result<string, string>)
    ensures envCookies.Some? && envCookies.value != "" ==> r == Success(envCookies.value)
    ensures r.Failure? <==> (envCookies.None? || envCookies.value == "") && FirstReadable(files).None?
    ensures r.Failure? ==> r.error == AuthRequired
    ensures (envCookies.None? || envCookies.value == "") && FirstReadable(files).Some? ==>
              r == Success(Strip(files[FirstReadable(files).value].text))
  {
    if envCookies.Some? && envCookies.value != "" then Success(envCookies.value)
    else match FirstReadable(files)
      case Some(i) => Success(Strip(files[i].text))
      case None => Failure(AuthRequired)
  }

  /** What the provider's surroundings hold when it needs to fetch. */
  datatype World = World(
    apiUrl: Option<string>,          // api_gateway_url from config/deployment.json
    envCookies: Option<string>,      // MIDWAY_COOKIES
    files: seq<CookieFile>,          // the two cookie files, in order
    http: HttpRequest -> HttpReply,  // requests.get
    iso: IsoParser)

  /** `_fetch_fresh_credentials`: the result, the provider afterwards and
      the request sent, if any. Endpoint and cookie errors are raised
      before the `try` and so are not wrapped. */
  function FetchFresh(p: Provider, w: World): (r: (Result<Triple, string>, Provider, Option<HttpRequest>))
    ensures r.1.service == p.service
    ensures r.2.Some? <==> ApiEndpoint(w.apiUrl).Success? && MidwayCookies(w.envCookies, w.files).Success?
    ensures r.2.Some? ==> r.2.value == CredentialRequest(ApiEndpoint(w.apiUrl).value, p.service,
                                                         MidwayCookies(w.envCookies, w.files).value)
    ensures r.2.None? ==> r.1 == p && r.0.Failure?
    ensures r.2.Some? ==> (r.0, r.1.cache) == Absorb(p.cache, w.http(r.2.value), w.iso, FailurePrefix)
  {
    match ApiEndpoint(w.apiUrl)
    case Failure(msg) => (Failure(msg), p, None)
    case Success(endpoint) =>
      match MidwayCookies(w.envCookies, w.files)
      case Failure(msg) => (Failure(msg), p, None)
      case Success(cookies) =>
        var request := CredentialRequest(endpoint, p.service, cookies);
        var (result, cache) := Absorb(p.cache, w.http(request), w.iso, FailurePrefix);
        (result, Provider(p.service, cache), Some(request))
  }

  /** `get_credentials` at time `now`. */
  function GetCredentials(p: Provider, now: int, w: World): (r: (Result<Triple, string>, Provider, Option<HttpRequest>))
    ensures Hit(p.cache, now) ==> r == (Success(p.cache.credentials.value), p, None)
    ensures !Hit(p.cache, now) ==> r == FetchFresh(p, w)
  {
    var fetch := FetchFresh(p, w);
    var step := CredentialCache.GetCredentials(p.cache, now, (fetch.0, fetch.1.cache));
    if step.fetched then fetch else (step.result, p, None)
  }

  /** The only request the provider ever sends names its own service and
      asks for one hour. */
  lemma RequestNamesService(p: Provider, now: int, w: World)
    requires GetCredentials(p, now, w).2.Some?
    ensures var q := GetCredentials(p, now, w).2.value;
            q.params == [("service", p.service), ("duration", "3600")] && q.timeout == 30
  {
  }

  /** `invalidate_credentials` / `reset_authentication`: the next
      `get_credentials` must fetch. */
  function Invalidate(p: Provider): (r: Provider)
    ensures r.service == p.service
    ensures forall now, w :: GetCredentials(r, now, w) == FetchFresh(r, w)
  {
    Provider(p.service, CredentialCache.Invalidate(p.cache))
  }
}

=== FILE: s3bridge_authorizer.dfy ===
/** The s3bridge-mw Lambda authorizer: the shared pipeline with the
    whitespace-tolerant pattern `"logged_in_username"\s*:\s*"([^"]+)"`. */
module S3BridgeAuthorizer {
  import opened Wrappers
  import opened Text
  import opened UsernamePattern
  import opened MidwayAuthorizer

  /** `lambda_handler`; a `Failure` is the exception it raises. */
  function Handler(e: Event, c: Codecs): (r: Result<Policy, string>)
    ensures r.Failure? ==> r.error == Unauthorized
    ensures !HasMarkers(CookieString(e)) ==> r.Failure?
    ensures r.Success? ==> r.value.principalId !in DenyList
    ensures r.Success? ==> e.methodArn.Some? && AllowsOnly(r.value, ExtractIdentity(CookieString(e), c, Spaces), e.methodArn.value)
  {
    Handle(e, c, Spaces)
  }

  /** A compact JSON claim `"logged_in_username":"u"` in the payload of the
      first access cookie makes `u` the principal. */
  lemma ReadsCompactClaim(cookies: string, c: Codecs, seg: string, decoded: string,
                          pre: string, u: string, post: string)
    requires FirstAccessSegment(cookies) == Some(seg)
    requires SegmentValue(seg, c) == Some(decoded)
    requires PayloadText(decoded, c) == Some(pre + Key + ":\"" + u + "\"" + post)
    requires |u| > 0 && forall t :: 0 <= t < |u| ==> u[t] != '"'
    requires forall j :: 0 <= j < |pre| ==> !OccursAt(pre + Key + ":\"" + u + "\"" + post, Key, j)
    ensures ExtractIdentity(cookies, c, Spaces) == u
  {
    CompactClaimFound(pre + Key + ":\"" + u + "\"" + post, pre, u, post);
    ClaimDecides(cookies, c, Spaces, seg, decoded, u);
  }
}

=== FILE: text.dfy ===
/** The handful of Python `str` operations the brokering code relies on:
    substring search (`in`, `find`), `split`, `join`, `strip`, and
    case mapping. */
module Text {
  import opened Wrappers

  /** Python's `str.isspace()`: the characters `strip()` removes and the
      regular-expression class `\s` matches in a `str` pattern. */
  predicate IsSpace(c: char) {
    || c == ' '
    || ('\t' <= c <= '\r')
    || ('\U{1C}' <= c <= '\U{1F}')
    || c == '\U{85}' || c == '\U{A0}' || c == '\U{1680}'
    || ('\U{2000}' <= c <= '\U{200A}')
    || c == '\U{2028}' || c == '\U{2029}' || c == '\U{202F}'
    || c == '\U{205F}' || c == '\U{3000}'
  }

  predicate HasPrefix(s: string, p: string) {
    |p| <= |s| && s[..|p|] == p
  }

  /** `pat` sits in `s` starting at index `i`. */
  predicate OccursAt(s: string, pat: string, i: int) {
    0 <= i && i + |pat| <= |s| && s[i..i + |pat|] == pat
  }

  /** Python's `pat in s`. */
  predicate Contains(s: string, pat: string) {
    exists i | 0 <= i <= |s| - |pat| :: OccursAt(s, pat, i)
  }

  /** The first occurrence of `pat` at or after `from` (Python's `s.find(pat, from)`). */
  function IndexFrom(s: string, pat: string, from: nat): (r: Option<nat>)
    decreases |s| - from
    ensures r.Some? ==> from <= r.value && OccursAt(s, pat, r.value)
    ensures r.Some? ==> forall j :: from <= j < r.value ==> !OccursAt(s, pat, j)
    ensures r.None? ==> forall j :: from <= j ==> !OccursAt(s, pat, j)
  {
    if from + |pat| > |s| then None
    else if s[from..from + |pat|] == pat then Some(from)
    else IndexFrom(s, pat, from + 1)
  }

  function IndexOf(s: string, pat: string): (r: Option<nat>)
    ensures r.Some? <==> Contains(s, pat)
    ensures r.Some? ==> OccursAt(s, pat, r.value)
    ensures r.Some? ==> forall j :: 0 <= j < r.value ==> !OccursAt(s, pat, j)
  {
    var r := IndexFrom(s, pat, 0);
    if r.Some? then
      assert 0 <= r.value <= |s| - |pat|;
      r
    else
      r
  }

  /** The first occurrence is the only index with no earlier occurrence. */
  lemma IndexOfFirst(s: string, pat: string, i: int)
    requires OccursAt(s, pat, i)
    requires forall j :: 0 <= j < i ==> !OccursAt(s, pat, j)
    ensures IndexOf(s, pat) == Some(i)
  {
  }

  lemma IndexOfAbsent(s: string, pat: string)
    requires forall j :: !OccursAt(s, pat, j)
    ensures IndexOf(s, pat) == None
  {
  }

  /** Python's `s.split(sep)` for a non-empty separator. */
  function Split(s: string, sep: string): (parts: seq<string>)
    requires |sep| > 0
    ensures |parts| >= 1
    decreases |s|
  {
    match IndexOf(s, sep)
    case None => [s]
    case Some(i) => [s[..i]] + Split(s[i + |sep|..], sep)
  }

  /** No piece of a split holds the separator. */
  lemma {:induction false} SplitPiecesFree(s: string, sep: string)
    requires |sep| > 0
    ensures forall k :: 0 <= k < |Split(s, sep)| ==> !Contains(Split(s, sep)[k], sep)
    decreases |s|
  {
    match IndexOf(s, sep)
    case None =>
    case Some(i) =>
      var rest := Split(s[i + |sep|..], sep);
      SplitPiecesFree(s[i + |sep|..], sep);
      assert Split(s, sep) == [s[..i]] + rest;
      forall j | 0 <= j <= i - |sep| ensures !OccursAt(s[..i], sep, j) {
        assert !OccursAt(s, sep, j);
        assert s[..i][j..j + |sep|] == s[j..j + |sep|];
      }
      forall k | 0 <= k < |Split(s, sep)| ensures !Contains(Split(s, sep)[k], sep) {
        if k > 0 {
          assert Split(s, sep)[k] == rest[k - 1];
        }
      }
  }

  /** Python's `sep.join(parts)`. */
  function Join(parts: seq<string>, sep: string): string
  {
    if |parts| == 0 then ""
    else if |parts| == 1 then parts[0]
    else parts[0] + sep + Join(parts[1..], sep)
  }

  /** Splitting loses nothing: joining the pieces back gives the input. */
  lemma {:induction false} JoinSplit(s: string, sep: string)
    requires |sep| > 0
    ensures Join(Split(s, sep), sep) == s
    decreases |s|
  {
    match IndexOf(s, sep)
    case None =>
    case Some(i) =>
      var rest := Split(s[i + |sep|..], sep);
      JoinSplit(s[i + |sep|..], sep);
      assert Split(s, sep) == [s[..i]] + rest;
      assert s[i..i + |sep|] == sep;
      assert s == s[..i] + sep + s[i + |sep|..];
  }

  lemma SplitAtFirst(s: string, sep: string, i: nat)
    requires |sep| > 0 && IndexOf(s, sep) == Some(i)
    ensures Split(s, sep) == [s[..i]] + Split(s[i + |sep|..], sep)
  {
  }

  lemma SplitWhole(s: string, sep: string)
    requires |sep| > 0 && IndexOf(s, sep) == None
    ensures Split(s, sep) == [s]
  {
  }

  /** Occurrences that end inside `a` are unaffected by what follows it. */
  lemma OccursInPrefix(a: string, b: string, pat: string, j: int)
    requires 0 <= j && j + |pat| <= |a|
    ensures OccursAt(a + b, pat, j) <==> OccursAt(a, pat, j)
  {
    assert (a + b)[j..j + |pat|] == a[j..j + |pat|];
  }

  lemma OccursAtChar(s: string, c: char, j: int)
    ensures OccursAt(s, [c], j) <==> 0 <= j < |s| && s[j] == c
  {
    if 0 <= j < |s| {
      assert s[j..j + 1] == [s[j]];
    }
  }

  lemma SplitConcatAtFirst(a: string, c: char, b: string, i: nat)
    requires IndexOf(a, [c]) == Some(i)
    ensures IndexOf(a + [c] + b, [c]) == Some(i)
  {
    var s := a + [c] + b;
    forall j | 0 <= j < i ensures !OccursAt(s, [c], j) {
      OccursInPrefix(a, [c] + b, [c], j);
      assert a + [c] + b == a + ([c] + b);
    }
    OccursInPrefix(a, [c] + b, [c], i);
    assert a + [c] + b == a + ([c] + b);
    IndexOfFirst(s, [c], i);
  }

  lemma SplitConcatAtJoint(a: string, c: char, b: string)
    requires IndexOf(a, [c]) == None
    ensures IndexOf(a + [c] + b, [c]) == Some(|a|)
  {
    var s := a + [c] + b;
    forall j | 0 <= j < |a| ensures !OccursAt(s, [c], j) {
      OccursInPrefix(a, [c] + b, [c], j);
      assert a + [c] + b == a + ([c] + b);
    }
    OccursAtChar(s, c, |a|);
    IndexOfFirst(s, [c], |a|);
  }

  lemma Reassociate<T>(whole: seq<T>, left: seq<T>, p: seq<T>, y: seq<T>, z: seq<T>)
    requires whole == p + (y + z) && left == p + y
    ensures whole == left + z
  {
  }

  lemma SplitConcatHead(a: string, c: char, b: string, i: nat)
    requires IndexOf(a, [c]) == Some(i)
    ensures Split(a + [c] + b, [c]) == [a[..i]] + Split(a[i + 1..] + [c] + b, [c])
  {
    var s := a + [c] + b;
    SplitConcatAtFirst(a, c, b, i);
    SplitAtFirst(s, [c], i);
    assert s[..i] == a[..i];
    assert s[i + 1..] == a[i + 1..] + [c] + b;
  }

  lemma SplitConcatStep(a: string, c: char, b: string, i: nat)
    requires IndexOf(a, [c]) == Some(i)
    requires Split(a[i + 1..] + [c] + b, [c]) == Split(a[i + 1..], [c]) + Split(b, [c])
    ensures Split(a + [c] + b, [c]) == Split(a, [c]) + Split(b, [c])
  {
    var a' := a[i + 1..];
    SplitConcatHead(a, c, b, i);
    SplitAtFirst(a, [c], i);
    Reassociate(Split(a + [c] + b, [c]), Split(a, [c]), [a[..i]], Split(a', [c]), Split(b, [c]));
  }

  /** A single-character separator splits a concatenation at the joint. */
  lemma {:induction false} SplitConcat(a: string, c: char, b: string)
    ensures Split(a + [c] + b, [c]) == Split(a, [c]) + Split(b, [c])
    decreases |a|
  {
    match IndexOf(a, [c])
    case Some(i) =>
      SplitConcat(a[i + 1..], c, b);
      SplitConcatStep(a, c, b, i);
    case None =>
      var s := a + [c] + b;
      SplitConcatAtJoint(a, c, b);
      SplitAtFirst(s, [c], |a|);
      SplitWhole(a, [c]);
      assert s[..|a|] == a;
      assert s[|a| + 1..] == b;
  }

  /** No piece of `parts` holds the character `c`. */
  predicate FreeOf(parts: seq<string>, c: char) {
    forall k, t :: 0 <= k < |parts| && 0 <= t < |parts[k]| ==> parts[k][t] != c
  }

  lemma NoCharNoSplit(a: string, c: char)
    requires FreeOf([a], c)
    ensures Split(a, [c]) == [a]
  {
    forall j ensures !OccursAt(a, [c], j) {
      if 0 <= j < |a| {
        assert [a][0][j] != c;
        assert a[j..j + 1][0] == a[j];
      }
    }
    IndexOfAbsent(a, [c]);
  }

  /** Joining pieces free of a one-character separator and splitting again
      gives the pieces back. */
  lemma {:induction false} SplitJoin(parts: seq<string>, c: char)
    requires |parts| >= 1
    requires FreeOf(parts, c)
    ensures Split(Join(parts, [c]), [c]) == parts
    decreases |parts|
  {
    assert FreeOf([parts[0]], c) by {
      forall t | 0 <= t < |parts[0]| ensures parts[0][t] != c {
        assert 0 < |parts|;
      }
    }
    NoCharNoSplit(parts[0], c);
    if |parts| > 1 {
      var rest := parts[1..];
      assert FreeOf(rest, c) by {
        forall k, t | 0 <= k < |rest| && 0 <= t < |rest[k]| ensures rest[k][t] != c {
          assert rest[k] == parts[k + 1];
        }
      }
      SplitJoin(rest, c);
      SplitConcat(parts[0], c, Join(rest, [c]));
      assert Join(parts, [c]) == parts[0] + [c] + Join(rest, [c]);
      assert parts == [parts[0]] + rest;
    }
  }

  lemma OccurrenceChar(s: string, pat: string, j: int, i: int)
    requires OccursAt(s, pat, j) && j <= i < j + |pat|
    ensures s[i] == pat[i - j]
  {
    assert s[j..j + |pat|][i - j] == s[i];
  }

  /** An occurrence of `pat` that does not contain the separator character
      falls inside one piece of the split. */
  lemma {:induction false} SplitKeepsOccurrence(s: string, c: char, pat: string, j: int)
    requires OccursAt(s, pat, j)
    requires FreeOf([pat], c)
    ensures exists k :: 0 <= k < |Split(s, [c])| && Contains(Split(s, [c])[k], pat)
    decreases |s|
  {
    var parts := Split(s, [c]);
    match IndexOf(s, [c])
    case None =>
      assert parts[0] == s;
      assert OccursAt(parts[0], pat, j);
    case Some(i) =>
      assert parts == [s[..i]] + Split(s[i + 1..], [c]);
      OccursAtChar(s, c, i);
      assert forall t :: 0 <= t < |pat| ==> pat[t] != c by {
        forall t | 0 <= t < |pat| ensures pat[t] != c {
          assert [pat][0] == pat;
        }
      }
      if j + |pat| <= i {
        assert s[..i][j..j + |pat|] == s[j..j + |pat|];
        assert OccursAt(parts[0], pat, j);
      } else if j > i {
        var tail := s[i + 1..];
        assert tail[j - i - 1..j - i - 1 + |pat|] == s[j..j + |pat|];
        SplitKeepsOccurrence(tail, c, pat, j - i - 1);
        var k :| 0 <= k < |Split(tail, [c])| && Contains(Split(tail, [c])[k], pat);
        assert parts[k + 1] == Split(tail, [c])[k];
      } else {
        OccurrenceChar(s, pat, j, i);
        assert false;
      }
  }

  /** What follows the first `c` (Python's `s.split(c, 1)[1]`); `None` where
      Python raises `IndexError` because `c` does not occur. */
  function AfterFirst(s: string, c: char): (r: Option<string>)
    ensures r.None? <==> forall t :: 0 <= t < |s| ==> s[t] != c
    ensures r.Some? ==> exists i :: 0 <= i < |s| && s[i] == c && r.value == s[i + 1..]
                                    && forall t :: 0 <= t < i ==> s[t] != c
  {
    match IndexOf(s, [c])
    case None =>
      assert forall t :: 0 <= t < |s| ==> s[t] != c by {
        forall t | 0 <= t < |s| ensures s[t] != c {
          assert !OccursAt(s, [c], t);
          assert s[t..t + 1][0] == s[t];
        }
      }
      None
    case Some(i) =>
      assert s[i..i + 1] == [c];
      assert s[i] == c;
      assert forall t :: 0 <= t < i ==> s[t] != c by {
        forall t | 0 <= t < i ensures s[t] != c {
          assert !OccursAt(s, [c], t);
          assert s[t..t + 1][0] == s[t];
        }
      }
      Some(s[i + 1..])
  }

  /** Python's `s.lstrip()`. */
  function StripStart(s: string): (r: string)
    ensures |r| <= |s| && r == s[|s| - |r|..]
    ensures forall t :: 0 <= t < |s| - |r| ==> IsSpace(s[t])
    ensures |r| > 0 ==> !IsSpace(r[0])
    decreases |s|
  {
    if |s| > 0 && IsSpace(s[0]) then StripStart(s[1..]) else s
  }

  /** Python's `s.rstrip()`. */
  function StripEnd(s: string): (r: string)
    ensures |r| <= |s| && r == s[..|r|]
    ensures forall t :: |r| <= t < |s| ==> IsSpace(s[t])
    ensures |r| > 0 ==> !IsSpace(r[|r| - 1])
    decreases |s|
  {
    if |s| > 0 && IsSpace(s[|s| - 1]) then StripEnd(s[..|s| - 1]) else s
  }

  /** Python's `s.strip()`. */
  function Strip(s: string): string {
    StripEnd(StripStart(s))
  }

  /** Text whose ends are not whitespace is left alone by `strip()`. */
  lemma StripUnchanged(s: string)
    requires |s| > 0 ==> !IsSpace(s[0]) && !IsSpace(s[|s| - 1])
    ensures Strip(s) == s
  {
  }

  predicate IsUpper(c: char) { 'A' <= c <= 'Z' }
  predicate IsLower(c: char) { 'a' <= c <= 'z' }

  function LowerChar(c: char): char {
    if IsUpper(c) then (c as int + 32) as char else c
  }

  function UpperChar(c: char): char {
    if IsLower(c) then (c as int - 32) as char else c
  }

  /** Python's `s.lower()`, on ASCII letters. */
  function Lower(s: string): (r: string)
    ensures |r| == |s|
  {
    seq(|s|, i requires 0 <= i < |s| => LowerChar(s[i]))
  }

  /** Python's `s.upper()`, on ASCII letters. */
  function Upper(s: string): (r: string)
    ensures |r| == |s|
  {
    seq(|s|, i requires 0 <= i < |s| => UpperChar(s[i]))
  }

  predicate HasNoUpper(s: string) {
    forall i :: 0 <= i < |s| ==> !IsUpper(s[i])
  }

  /** Upper-casing and lower-casing again restores exactly the names that
      carry no upper-case letter. */
  lemma LowerUpperRoundTrip(s: string)
    ensures Lower(Upper(s)) == s <==> HasNoUpper(s)
  {
    if Lower(Upper(s)) == s {
      forall i | 0 <= i < |s| ensures !IsUpper(s[i]) {
        assert Lower(Upper(s))[i] == LowerChar(UpperChar(s[i]));
      }
    }
    if HasNoUpper(s) {
      forall i | 0 <= i < |s| ensures Lower(Upper(s))[i] == s[i] {
        assert Lower(Upper(s))[i] == LowerChar(UpperChar(s[i]));
      }
    }
  }

  function Repeat(c: char, n: nat): (r: string)
    ensures |r| == n
    ensures forall i :: 0 <= i < n ==> r[i] == c
  {
    seq(n, _ => c)
  }

  function DigitChar(d: int): char
    requires 0 <= d < 10
  {
    ('0' as int + d) as char
  }

  /** Python's `str(n)` for an integer. */
  function DecimalString(n: int): string
    decreases if n < 0 then 1 - n else n
  {
    if n < 0 then "-" + DecimalString(-n)
    else if n < 10 then [DigitChar(n)]
    else DecimalString(n / 10) + [DigitChar(n % 10)]
  }

  /** Python's `s.replace(c, with)` for a one-character `c`. */
  function ReplaceChar(s: string, c: char, with: string): (r: string)
    ensures (forall t :: 0 <= t < |with| ==> with[t] != c) ==> forall t :: 0 <= t < |r| ==> r[t] != c
    ensures (forall t :: 0 <= t < |s| ==> s[t] != c) ==> r == s
  {
    if |s| == 0 then ""
    else (if s[0] == c then with else [s[0]]) + ReplaceChar(s[1..], c, with)
  }
}

=== FILE: universal_auth.dfy ===
/** `UniversalAuthProvider`: the same cached credential client, but it
    reads the Midway cookie file itself (`~/.midway/cookie`, in the
    Netscape cookie-file layout), runs `mwinit -o` when that file is
    missing or stale, and sends the cookies it found as one header.

    The source splits cookie lines on `'\\t'`, which in a plain string
    literal is a backslash followed by `t`, not a tab. `AsWritten` is
    that separator and `Tab` the evidently intended one; the parsers take
    the separator as a parameter. */
module UniversalAuth {
  import opened Wrappers
  import opened Text
  import opened OrderedDict
  import opened CredentialCache
  import MidwayAuthorizer

  const NotDeployed: string := "Universal S3 Library not deployed. Run: python -m universal_s3_library.setup"
  const NoApiUrl: string := "API Gateway URL not found. Check deployment."
  const AuthFailed: string := "Midway authentication failed"
  const CookiesMissing: string := "Required Midway cookies not found"
  /** Stands in for the message of the `FileNotFoundError` that opening a
      missing cookie file raises (`[Errno 2] No such file or directory:`
      followed by the expanded path); only its being an error matters. */
  const NoCookieFile: string := "No such file or directory: ~/.midway/cookie"
  const FailurePrefix: string := "Universal credential service failed: "

  /** `'\\t'` as the source writes it: backslash, then `t`. */
  const AsWritten: string := "\\t"
  const Tab: string := "\t"

  /** The cookie file as `for line in f` reads it; `None` when it does not exist. */
  type Lines = seq<string>

  predicate IsMarkerName(name: string) {
    name == MidwayAuthorizer.AccessMarker || name == MidwayAuthorizer.SessionMarker
  }

  /** The cookie one line contributes: a line holding the separator whose
      stripped text splits into at least seven fields, the sixth of them
      naming one of the two Midway cookies. */
  function ParseLine(line: string, sep: string): (r: Option<(string, string)>)
    requires |sep| > 0
    ensures r.Some? ==> Contains(line, sep) && IsMarkerName(r.value.0)
    ensures var fields := Split(Strip(line), sep);
            (r.Some? <==> Contains(line, sep) && |fields| >= 7 && IsMarkerName(fields[5]))
    ensures r.Some? ==> r.value == (Split(Strip(line), sep)[5], Split(Strip(line), sep)[6])
  {
    if !Contains(line, sep) then None
    else
      var parts := Split(Strip(line), sep);
      if |parts| >= 7 && IsMarkerName(parts[5]) then Some((parts[5], parts[6])) else None
  }

  /** The `cookies` dict `_get_midway_cookies` builds from the file. */
  function ParseCookieFile(lines: Lines, sep: string): (r: Dict<string>)
    requires |sep| > 0
    ensures forall k :: k in Keys(r) ==> IsMarkerName(k)
    decreases |lines|
  {
    if |lines| == 0 then []
    else Assign(ParseCookieFile(lines[..|lines| - 1], sep), ParseLine(lines[|lines| - 1], sep))
  }

  /** The cookie each line contributes, in file order. */
  function LineCookies(lines: Lines, sep: string): (r: seq<Option<(string, string)>>)
    requires |sep| > 0
    ensures |r| == |lines|
    ensures forall j :: 0 <= j < |lines| ==> r[j] == ParseLine(lines[j], sep)
    decreases |lines|
  {
    if |lines| == 0 then []
    else LineCookies(lines[..|lines| - 1], sep) + [ParseLine(lines[|lines| - 1], sep)]
  }

  /** The assignment one line performs, if it holds a cookie. */
  function Assign(d: Dict<string>, cookie: Option<(string, string)>): (r: Dict<string>)
    ensures forall k :: k in Keys(r) ==> k in Keys(d) || (cookie.Some? && k == cookie.value.0)
  {
    match cookie
    case None => d
    case Some((name, value)) =>
      SetKeys(d, name, value);
      Set(d, name, value)
  }

  /** A line that does not define a cookie keeps its value. */
  lemma AssignKeeps(d: Dict<string>, cookie: Option<(string, string)>, name: string)
    requires cookie.None? || cookie.value.0 != name
    ensures Get(Assign(d, cookie), name) == Get(d, name)
  {
  }

  /** The dict built by assigning the first `n` cookies one after another. */
  function Collect(cookies: seq<Option<(string, string)>>, n: nat): Dict<string>
    requires n <= |cookies|
  {
    if n == 0 then [] else Assign(Collect(cookies, n - 1), cookies[n - 1])
  }

  /** Parsing the first `n` lines of the file assigns their cookies in order. */
  lemma {:induction false} ParseIsCollect(lines: Lines, sep: string, n: nat)
    requires |sep| > 0 && n <= |lines|
    ensures ParseCookieFile(lines[..n], sep) == Collect(LineCookies(lines, sep), n)
  {
    if n > 0 {
      ParseIsCollect(lines, sep, n - 1);
      assert lines[..n][..n - 1] == lines[..n - 1];
      assert lines[..n][n - 1] == lines[n - 1];
    }
  }

  /** Of several assignments to one name, the last is the one kept. */
  lemma {:induction false} CollectLastWins(cookies: seq<Option<(string, string)>>, n: nat, i: int, name: string, value: string)
    requires 0 <= i < n <= |cookies| && cookies[i] == Some((name, value))
    requires forall j :: i < j < n ==> cookies[j].None? || cookies[j].value.0 != name
    ensures Get(Collect(cookies, n), name) == Some(value)
  {
    if i < n - 1 {
      CollectLastWins(cookies, n - 1, i, name, value);
      AssignKeeps(Collect(cookies, n - 1), cookies[n - 1], name);
    }
  }

  /** The value of a cookie is taken from the last line that defines it. */
  lemma LastLineWins(lines: Lines, sep: string, i: int, name: string, value: string)
    requires |sep| > 0 && 0 <= i < |lines|
    requires ParseLine(lines[i], sep) == Some((name, value))
    requires forall j :: i < j < |lines| ==> ParseLine(lines[j], sep).None? || ParseLine(lines[j], sep).value.0 != name
    ensures Get(ParseCookieFile(lines, sep), name) == Some(value)
  {
    ParseIsCollect(lines, sep, |lines|);
    assert lines[..|lines|] == lines;
    CollectLastWins(LineCookies(lines, sep), |lines|, i, name, value);
  }

  /** The index of the first line that mentions the access cookie and has
      at least five fields. */
  function ExpiryLine(lines: Lines, sep: string): (r: Option<nat>)
    requires |sep| > 0
    ensures r.Some? ==> r.value < |lines| && Contains(lines[r.value], MidwayAuthorizer.AccessMarker)
                        && |Split(lines[r.value], sep)| >= 5
    ensures r.None? ==> forall j :: 0 <= j < |lines| ==>
                          !Contains(lines[j], MidwayAuthorizer.AccessMarker) || |Split(lines[j], sep)| < 5
  {
    if |lines| == 0 then None
    else if Contains(lines[0], MidwayAuthorizer.AccessMarker) && |Split(lines[0], sep)| >= 5 then Some(0)
    else match ExpiryLine(lines[1..], sep)
      case None => None
      case Some(i) => Some(i + 1)
  }

  /** `_is_cookie_expired`: stale when the file cannot be read or its
      expiry field is not an integer, when the clock has reached that
      expiry, and fresh when no line carries one. `now` is the whole
      seconds of `datetime.now().timestamp()`, which compares with an
      integer expiry exactly as the fractional value does. */
  function IsCookieExpired(file: Option<Lines>, now: int, parseInt: string -> Result<int, string>, sep: string): (r: bool)
    requires |sep| > 0
    ensures file.None? ==> r
    ensures file.Some? && ExpiryLine(file.value, sep).None? ==> !r
    ensures file.Some? && ExpiryLine(file.value, sep).Some? ==>
              var field := Split(file.value[ExpiryLine(file.value, sep).value], sep)[4];
              (r <==> parseInt(field).Failure? || now >= parseInt(field).value)
  {
    match file
    case None => true
    case Some(lines) =>
      match ExpiryLine(lines, sep)
      case None => false
      case Some(i) =>
        match parseInt(Split(lines[i], sep)[4])
        case Failure(_) => true
        case Success(expiry) => now >= expiry
  }

  /** `os.system('mwinit -o')` on the current cookie file: its exit code
      and the cookie file it leaves. */
  type Mwinit = Option<Lines> -> (int, Option<Lines>)

  /** Runs `mwinit -o` when `needed`; a non-zero exit code raises. */
  function Refresh(file: Option<Lines>, needed: bool, mwinit: Mwinit): (r: Result<Option<Lines>, string>)
    ensures !needed ==> r == Success(file)
    ensures r.Failure? ==> r.error == AuthFailed
    ensures needed ==> (r.Success? <==> mwinit(file).0 == 0)
    ensures needed && r.Success? ==> r.value == mwinit(file).1
  {
    if !needed then Success(file)
    else
      var (code, after) := mwinit(file);
      if code != 0 then Failure(AuthFailed) else Success(after)
  }

  /** The parsing at the end of `_get_midway_cookies`: opening a missing
      file raises, and a file without a Midway cookie is refused. */
  function ReadCookies(file: Option<Lines>, sep: string): (r: Result<Dict<string>, string>)
    requires |sep| > 0
    ensures file.None? ==> r == Failure(NoCookieFile)
    ensures file.Some? ==> (r.Success? <==> |ParseCookieFile(file.value, sep)| > 0)
    ensures file.Some? && r.Failure? ==> r.error == CookiesMissing
    ensures r.Success? ==> r.value == ParseCookieFile(file.value, sep)
  {
    match file
    case None => Failure(NoCookieFile)
    case Some(lines) =>
      var cookies := ParseCookieFile(lines, sep);
      if |cookies| == 0 then Failure(CookiesMissing) else Success(cookies)
  }

  /** `_get_midway_cookies`. */
  function MidwayCookies(file: Option<Lines>, mwinit: Mwinit, now: int,
                         parseInt: string -> Result<int, string>, sep: string): (r: Result<Dict<string>, string>)
    requires |sep| > 0
    ensures r.Success? ==> |r.value| > 0 && forall k :: k in Keys(r.value) ==> IsMarkerName(k)
    ensures r.Failure? ==> r.error in {AuthFailed, NoCookieFile, CookiesMissing}
    // A present, unexpired file is read as it is, without running `mwinit`.
    ensures file.Some? && !IsCookieExpired(file, now, parseInt, sep) ==> r == ReadCookies(file, sep)
    // A present but expired file is refreshed once and the new file read.
    ensures file.Some? && IsCookieExpired(file, now, parseInt, sep) ==>
              if mwinit(file).0 != 0 then r == Failure(AuthFailed) else r == ReadCookies(mwinit(file).1, sep)
    // A missing file is created by `mwinit`, then checked for expiry like any other.
    ensures file.None? && mwinit(file).0 != 0 ==> r == Failure(AuthFailed)
    ensures file.None? && mwinit(file).0 == 0 && !IsCookieExpired(mwinit(file).1, now, parseInt, sep) ==>
              r == ReadCookies(mwinit(file).1, sep)
    ensures file.None? && mwinit(file).0 == 0 && IsCookieExpired(mwinit(file).1, now, parseInt, sep) ==>
              var after := mwinit(file).1;
              if mwinit(after).0 != 0 then r == Failure(AuthFailed) else r == ReadCookies(mwinit(after).1, sep)
  {
    match Refresh(file, file.None?, mwinit)
    case Failure(msg) => Failure(msg)
    case Success(present) =>
      match Refresh(present, IsCookieExpired(present, now, parseInt, sep), mwinit)
      case Failure(msg) => Failure(msg)
      case Success(current) => ReadCookies(current, sep)
  }

  /** When the cookie file is present and unexpired, `mwinit` is never
      consulted: any two `mwinit` behaviours give the same cookies. */
  lemma FreshFileIgnoresMwinit(file: Option<Lines>, m1: Mwinit, m2: Mwinit, now: int,
                               parseInt: string -> Result<int, string>, sep: string)
    requires |sep| > 0 && file.Some? && !IsCookieExpired(file, now, parseInt, sep)
    ensures MidwayCookies(file, m1, now, parseInt, sep) == MidwayCookies(file, m2, now, parseInt, sep)
  {
  }

  /** `'; '.join(f"{k}={v}" for k, v in cookies.items())`. */
  function CookieHeader(cookies: Dict<string>): (r: string)
    ensures |cookies| == 1 ==> r == cookies[0].0 + "=" + cookies[0].1
  {
    Join(seq(|cookies|, i requires 0 <= i < |cookies| => cookies[i].0 + "=" + cookies[i].1), "; ")
  }

  /** A provider: its service name and its cache. */
  datatype Provider = Provider(service: string, cache: Cache)

  /** `UniversalAuthProvider(service_name)`. */
  function NewProvider(service: string): (p: Provider)
    ensures p.service == service && forall now :: Expired(p.cache, now) && !Hit(p.cache, now)
  {
    Provider(service, Empty)
  }

  /** What the provider's surroundings hold when it needs to fetch. */
  datatype World = World(
    deployed: bool,                  // AWSConfig.is_deployed()
    apiUrl: Option<string>,          // AWSConfig.get_api_gateway_url()
    cookieFile: Option<Lines>,       // ~/.midway/cookie
    mwinit: Mwinit,
    parseInt: string -> Result<int, string>,
    now: int,
    http: HttpRequest -> HttpReply,  // requests.get
    iso: IsoParser)

  /** `_fetch_fresh_credentials` with cookie lines split on `sep`: the
      result, the provider afterwards and the request sent, if any. Errors
      before the `try` are not wrapped. */
  function FetchFreshWith(p: Provider, w: World, sep: string): (r: (Result<Triple, string>, Provider, Option<HttpRequest>))
    requires |sep| > 0
    ensures r.1.service == p.service
    ensures r.2.None? ==> r.1 == p && r.0.Failure?
    ensures r.2.Some? <==> w.deployed && w.apiUrl.Some? && w.apiUrl.value != ""
                           && MidwayCookies(w.cookieFile, w.mwinit, w.now, w.parseInt, sep).Success?
    ensures r.2.Some? ==> r.2.value == CredentialRequest(w.apiUrl.value + "/credentials", p.service,
                            CookieHeader(MidwayCookies(w.cookieFile, w.mwinit, w.now, w.parseInt, sep).value))
    ensures r.2.Some? ==> (r.0, r.1.cache) == Absorb(p.cache, w.http(r.2.value), w.iso, FailurePrefix)
  {
    if !w.deployed then (Failure(NotDeployed), p, None)
    else if w.apiUrl.None? || w.apiUrl.value == "" then (Failure(NoApiUrl), p, None)
    else match MidwayCookies(w.cookieFile, w.mwinit, w.now, w.parseInt, sep)
      case Failure(msg) => (Failure(msg), p, None)
      case Success(cookies) =>
        var request := CredentialRequest(w.apiUrl.value + "/credentials", p.service, CookieHeader(cookies));
        var (result, cache) := Absorb(p.cache, w.http(request), w.iso, FailurePrefix);
        (result, Provider(p.service, cache), Some(request))
  }

  /** `get_credentials`, reading cookie lines split on `sep`: the cached
      triple while it is fresh, otherwise a fresh fetch. */
  function GetCredentialsWith(p: Provider, w: World, sep: string): (r: (Result<Triple, string>, Provider, Option<HttpRequest>))
    requires |sep| > 0
    ensures Hit(p.cache, w.now) ==> r == (Success(p.cache.credentials.value), p, None)
    ensures !Hit(p.cache, w.now) ==> r == FetchFreshWith(p, w, sep)
    ensures r.1.service == p.service
  {
    var fetch := FetchFreshWith(p, w, sep);
    var step := CredentialCache.GetCredentials(p.cache, w.now, (fetch.0, fetch.1.cache));
    if step.fetched then fetch else (step.result, p, None)
  }

  /** `get_credentials` as written, splitting on backslash-`t`. */
  function GetCredentials(p: Provider, w: World): (r: (Result<Triple, string>, Provider, Option<HttpRequest>))
    ensures Hit(p.cache, w.now) ==> r == (Success(p.cache.credentials.value), p, None)
    ensures !Hit(p.cache, w.now) ==> r == FetchFreshWith(p, w, AsWritten)
  {
    GetCredentialsWith(p, w, AsWritten)
  }

  /** `get_credentials` with cookie lines split on a tab. */
  function GetCredentialsIntended(p: Provider, w: World): (r: (Result<Triple, string>, Provider, Option<HttpRequest>))
    ensures Hit(p.cache, w.now) ==> r == (Success(p.cache.credentials.value), p, None)
    ensures !Hit(p.cache, w.now) ==> r == FetchFreshWith(p, w, Tab)
  {
    GetCredentialsWith(p, w, Tab)
  }

  /** `invalidate_credentials` / `reset_authentication`: the next
      `get_credentials` must fetch. */
  function Invalidate(p: Provider): (r: Provider)
    ensures r.service == p.service
    ensures forall w :: GetCredentials(r, w) == FetchFreshWith(r, w, AsWritten)
    ensures forall w :: GetCredentialsIntended(r, w) == FetchFreshWith(r, w, Tab)
  {
    Provider(p.service, CredentialCache.Invalidate(p.cache))
  }

  /** Joining fields with a tab puts a tab after the first field. */
  lemma JoinHasSeparator(fields: seq<string>, c: char)
    requires |fields| >= 2
    ensures Contains(Join(fields, [c]), [c])
  {
    var line := Join(fields, [c]);
    assert line == fields[0] + [c] + Join(fields[1..], [c]);
    assert OccursAt(line, [c], |fields[0]|);
  }

  /** Read with a tab separator, a Netscape cookie line for one of the two
      Midway cookies yields that cookie's name and value. */
  lemma IntendedParsesTabLine(fields: seq<string>)
    requires |fields| >= 7 && FreeOf(fields, '\t') && IsMarkerName(fields[5])
    requires var line := Join(fields, Tab);
             |line| > 0 ==> !IsSpace(line[0]) && !IsSpace(line[|line| - 1])
    ensures ParseLine(Join(fields, Tab), Tab) == Some((fields[5], fields[6]))
  {
    var line := Join(fields, Tab);
    JoinHasSeparator(fields, '\t');
    StripUnchanged(line);
    SplitJoin(fields, '\t');
  }

  /** As written, a line without a backslash is ignored by both the parser
      and the expiry check, so a tab-separated cookie file yields nothing. */
  lemma AsWrittenIgnoresPlainLine(line: string)
    requires forall t :: 0 <= t < |line| ==> line[t] != '\\'
    ensures ParseLine(line, AsWritten).None?
    ensures |Split(line, AsWritten)| < 5
  {
    forall j ensures !OccursAt(line, AsWritten, j) {
      if OccursAt(line, AsWritten, j) {
        OccurrenceChar(line, AsWritten, j, j);
      }
    }
    IndexOfAbsent(line, AsWritten);
  }

  lemma {:induction false} AsWrittenParsesNothing(lines: Lines)
    requires forall i, t :: 0 <= i < |lines| && 0 <= t < |lines[i]| ==> lines[i][t] != '\\'
    ensures ParseCookieFile(lines, AsWritten) == []
    ensures ExpiryLine(lines, AsWritten).None?
    decreases |lines|
  {
    if |lines| > 0 {
      var init := lines[..|lines| - 1];
      AsWrittenParsesNothing(init);
      AsWrittenIgnoresPlainLine(lines[|lines| - 1]);
      forall j | 0 <= j < |lines| ensures |Split(lines[j], AsWritten)| < 5 {
        AsWrittenIgnoresPlainLine(lines[j]);
      }
    }
  }

  /** As written, a present cookie file without backslashes is never
      stale and never yields a cookie: `_get_midway_cookies` raises. */
  lemma AsWrittenRejectsCookieFile(lines: Lines, mwinit: Mwinit, now: int, parseInt: string -> Result<int, string>)
    requires forall i, t :: 0 <= i < |lines| && 0 <= t < |lines[i]| ==> lines[i][t] != '\\'
    ensures MidwayCookies(Some(lines), mwinit, now, parseInt, AsWritten) == Failure(CookiesMissing)
  {
    AsWrittenParsesNothing(lines);
  }

  /** The single-line cookie file `[line]` under the intended reading. */
  lemma IntendedReadsCookieFile(fields: seq<string>)
    requires |fields| >= 7 && FreeOf(fields, '\t') && IsMarkerName(fields[5])
    requires var line := Join(fields, Tab);
             |line| > 0 ==> !IsSpace(line[0]) && !IsSpace(line[|line| - 1])
    ensures ParseCookieFile([Join(fields, Tab)], Tab) == [(fields[5], fields[6])]
  {
    IntendedParsesTabLine(fields);
    assert [Join(fields, Tab)][..0] == [];
  }

  /** Fields free of a character, joined by a separator free of it, give
      a line free of it. */
  lemma {:induction false} JoinFree(fields: seq<string>, sep: string, c: char)
    requires FreeOf(fields, c) && c !in sep
    ensures c !in Join(fields, sep)
    decreases |fields|
  {
    if |fields| > 1 {
      assert FreeOf(fields[1..], c) by {
        forall k, t | 0 <= k < |fields[1..]| && 0 <= t < |fields[1..][k]| ensures fields[1..][k][t] != c {
          assert fields[1..][k] == fields[k + 1];
        }
      }
      JoinFree(fields[1..], sep, c);
      assert c !in fields[0] by {
        forall t | 0 <= t < |fields[0]| ensures fields[0][t] != c { }
      }
    } else if |fields| == 1 {
      assert forall t :: 0 <= t < |fields[0]| ==> fields[0][t] != c;
    }
  }

  /** A one-line cookie file for a Midway cookie, in the tab-separated
      layout and free of backslashes, distinguishes the two readings: the
      provider as written raises without sending anything, the intended
      one sends that cookie. */
  lemma CookieFileWitness(p: Provider, w: World, fields: seq<string>)
    requires !Hit(p.cache, w.now)
    requires w.deployed && w.apiUrl.Some? && w.apiUrl.value != ""
    requires |fields| >= 7 && FreeOf(fields, '\t') && FreeOf(fields, '\\') && IsMarkerName(fields[5])
    requires var line := Join(fields, Tab);
             |line| > 0 ==> !IsSpace(line[0]) && !IsSpace(line[|line| - 1])
    requires w.cookieFile == Some([Join(fields, Tab)])
    requires !IsCookieExpired(w.cookieFile, w.now, w.parseInt, Tab)
    ensures GetCredentials(p, w) == (Failure(CookiesMissing), p, None)
    ensures GetCredentialsIntended(p, w).2 ==
              Some(CredentialRequest(w.apiUrl.value + "/credentials", p.service, fields[5] + "=" + fields[6]))
  {
    var line := Join(fields, Tab);
    JoinFree(fields, Tab, '\\');
    var lines: Lines := [line];
    forall i, t | 0 <= i < |lines| && 0 <= t < |lines[i]| ensures lines[i][t] != '\\' {
      assert lines[i][t] in line;
    }
    AsWrittenRejectsCookieFile([line], w.mwinit, w.now, w.parseInt);
    IntendedReadsCookieFile(fields);
  }
}

=== FILE: universal_authorizer.dfy ===
/** The universal Lambda authorizer: the shared pipeline with the pattern
    as its source spells it, `"logged_in_username"\\s*:\\s*"([^"]+)"` in a
    raw string, which demands a literal backslash on each side of the
    colon. `IntendedHandler` is the same handler with the whitespace
    reading the s3bridge-mw authorizer uses. */
module UniversalAuthorizer {
  import opened Wrappers
  import opened Text
  import opened UsernamePattern
  import opened MidwayAuthorizer

  /** `lambda_handler` as written; a `Failure` is the exception it raises. */
  function Handler(e: Event, c: Codecs): (r: Result<Policy, string>)
    ensures r.Failure? ==> r.error == Unauthorized
    ensures !HasMarkers(CookieString(e)) ==> r.Failure?
    ensures r.Success? ==> r.value.principalId !in DenyList
    ensures r.Success? ==> e.methodArn.Some? && AllowsOnly(r.value, ExtractIdentity(CookieString(e), c, BackslashEsses), e.methodArn.value)
  {
    Handle(e, c, BackslashEsses)
  }

  /** `lambda_handler` with the pattern read as `\s*`. */
  function IntendedHandler(e: Event, c: Codecs): (r: Result<Policy, string>)
    ensures r.Failure? ==> r.error == Unauthorized
    ensures !HasMarkers(CookieString(e)) ==> r.Failure?
    ensures r.Success? ==> r.value.principalId !in DenyList
    ensures r.Success? ==> e.methodArn.Some? && AllowsOnly(r.value, ExtractIdentity(CookieString(e), c, Spaces), e.methodArn.value)
  {
    Handle(e, c, Spaces)
  }

  /** As written, a payload without a backslash (every compact JSON claim
      with plain names) never yields a name: the principal is one of the
      two fallbacks. */
  lemma AsWrittenIgnoresPlainPayload(cookies: string, c: Codecs, seg: string, decoded: string, text: string)
    requires FirstAccessSegment(cookies) == Some(seg)
    requires SegmentValue(seg, c) == Some(decoded)
    requires PayloadText(decoded, c) == Some(text)
    requires forall t :: 0 <= t < |text| ==> text[t] != '\\'
    ensures ExtractIdentity(cookies, c, BackslashEsses) in {Fallback, LegacyUser}
  {
    NoBackslashNoMatch(text);
  }

  /** The payload `{"logged_in_username":"alice"}`. */
  const AlicePayload: string := "{" + Key + ":\"alice\"}"

  lemma AlicePayloadPlain()
    ensures forall t :: 0 <= t < |AlicePayload| ==> AlicePayload[t] != '\\'
  {
  }

  lemma AlicePayloadClaim()
    ensures FindUsername(AlicePayload, Spaces) == Some("alice")
  {
    assert AlicePayload == "{" + Key + ":\"" + "alice" + "\"" + "}";
    assert AlicePayload[0] == '{';
    CompactClaimFound(AlicePayload, "{", "alice", "}");
  }

  lemma AliceClaim(decoded: string, c: Codecs)
    requires PayloadText(decoded, c) == Some(AlicePayload)
    ensures Claim(decoded, c, Spaces) == Some("alice")
  {
    AlicePayloadClaim();
  }

  lemma AliceNotDenied()
    ensures "alice" !in DenyList
  {
  }

  /** Neither fallback identity is denied, and neither is `alice`. */
  lemma FallbacksNotAlice(u: string)
    requires u in {Fallback, LegacyUser}
    ensures u !in DenyList && u != "alice"
  {
  }

  /** Read with `\s*`, a cookie carrying Alice's payload identifies `alice`. */
  lemma AliceIdentity(cookies: string, c: Codecs, seg: string, decoded: string)
    requires FirstAccessSegment(cookies) == Some(seg)
    requires SegmentValue(seg, c) == Some(decoded)
    requires PayloadText(decoded, c) == Some(AlicePayload)
    ensures ExtractIdentity(cookies, c, Spaces) == "alice"
  {
    AliceClaim(decoded, c);
    ClaimDecides(cookies, c, Spaces, seg, decoded, "alice");
  }

  /** As written, the handler authorizes someone other than `alice` on
      her plain claim. */
  lemma AsWrittenMissesAlice(e: Event, c: Codecs, seg: string, decoded: string)
    requires HasMarkers(CookieString(e)) && e.methodArn.Some?
    requires FirstAccessSegment(CookieString(e)) == Some(seg)
    requires SegmentValue(seg, c) == Some(decoded)
    requires PayloadText(decoded, c) == Some(AlicePayload)
    ensures Handler(e, c).Success? && Handler(e, c).value.principalId != "alice"
  {
    AlicePayloadPlain();
    AsWrittenIgnoresPlainPayload(CookieString(e), c, seg, decoded, AlicePayload);
    var u := ExtractIdentity(CookieString(e), c, BackslashEsses);
    FallbacksNotAlice(u);
    HandleAuthorizes(e, c, BackslashEsses, u);
  }

  /** The intended handler authorizes `alice` on her plain claim. */
  lemma IntendedFindsAlice(e: Event, c: Codecs, seg: string, decoded: string)
    requires HasMarkers(CookieString(e)) && e.methodArn.Some?
    requires FirstAccessSegment(CookieString(e)) == Some(seg)
    requires SegmentValue(seg, c) == Some(decoded)
    requires PayloadText(decoded, c) == Some(AlicePayload)
    ensures IntendedHandler(e, c).Success? && IntendedHandler(e, c).value.principalId == "alice"
  {
    AliceIdentity(CookieString(e), c, seg, decoded);
    AliceNotDenied();
    HandleAuthorizes(e, c, Spaces, "alice");
  }

  /** The payload `{"logged_in_username":"alice"}` distinguishes the two
      readings: the intended handler authorizes `alice`, the handler as
      written authorizes someone else. */
  lemma FindingWitness(e: Event, c: Codecs, seg: string, decoded: string)
    requires HasMarkers(CookieString(e)) && e.methodArn.Some?
    requires FirstAccessSegment(CookieString(e)) == Some(seg)
    requires SegmentValue(seg, c) == Some(decoded)
    requires PayloadText(decoded, c) == Some(AlicePayload)
    ensures Handler(e, c).Success? && Handler(e, c).value.principalId != "alice"
    ensures IntendedHandler(e, c).Success? && IntendedHandler(e, c).value.principalId == "alice"
  {
    AsWrittenMissesAlice(e, c, seg, decoded);
    IntendedFindsAlice(e, c, seg, decoded);
  }
}

=== FILE: universal_s3_client.dfy ===
/** `UniversalS3Client`: the bucket check made when a client is created,
    and the rule for when the underlying S3 client is rebuilt from fresh
    credentials. The S3 operations themselves are not modelled. */
module UniversalS3Client {
  import opened Wrappers
  import opened Text
  import opened Glob
  import opened CredentialCache
  import UniversalAuth

  const Analytics: string := "analytics"
  const Universal: string := "universal"

  /** The bucket patterns a service may use. */
  function Patterns(service: string): seq<string> {
    if service == Analytics then ["*-analytics-*", "analytics-*"]
    else if service == Universal then ["*"]
    else [service + "-*"]
  }

  predicate AnyMatches(patterns: seq<string>, bucket: string) {
    exists i :: 0 <= i < |patterns| && Matches(patterns[i], bucket)
  }

  function NotAuthorized(service: string, bucket: string): string {
    "Service '" + service + "' not authorized for bucket '" + bucket + "'"
  }

  /** `_validate_bucket_access`; a `Failure` is the `ValueError` text. */
  function ValidateBucketAccess(bucket: string, service: string): (r: Result<(), string>)
    ensures r.Success? <==> AnyMatches(Patterns(service), bucket) || service == Universal
    ensures r.Failure? ==> r.error == NotAuthorized(service, bucket)
  {
    if !AnyMatches(Patterns(service), bucket) && service != Universal then
      Failure(NotAuthorized(service, bucket))
    else Success(())
  }

  /** `analytics` may use exactly the buckets that contain `-analytics-`
      or start with `analytics-`. */
  lemma AnalyticsBuckets(bucket: string)
    ensures ValidateBucketAccess(bucket, Analytics).Success? <==>
              Contains(bucket, "-analytics-") || HasPrefix(bucket, "analytics-")
  {
    InfixPattern("-analytics-", bucket);
    assert "*" + "-analytics-" + "*" == "*-analytics-*";
    PrefixPattern("analytics-", bucket);
    assert "analytics-" + "*" == "analytics-*";
    var ps := Patterns(Analytics);
    if Contains(bucket, "-analytics-") {
      assert Matches(ps[0], bucket);
    }
    if HasPrefix(bucket, "analytics-") {
      assert Matches(ps[1], bucket);
    }
  }

  /** `universal` may use every bucket. */
  lemma UniversalBuckets(bucket: string)
    ensures ValidateBucketAccess(bucket, Universal).Success?
  {
  }

  /** Any other service whose name has no wildcard may use exactly the
      buckets named `<service>-…`. */
  lemma OwnPrefixBuckets(bucket: string, service: string)
    requires service != Analytics && service != Universal && IsLiteral(service)
    ensures ValidateBucketAccess(bucket, service).Success? <==> HasPrefix(bucket, service + "-")
  {
    var lit := service + "-";
    assert IsLiteral(lit) by {
      forall i | 0 <= i < |lit| ensures !IsWildcard(lit[i]) {
        if i < |service| { assert lit[i] == service[i]; }
      }
    }
    PrefixPattern(lit, bucket);
    assert service + "-*" == lit + "*";
    assert Patterns(service) == [lit + "*"];
    if Matches(lit + "*", bucket) {
      assert Matches(Patterns(service)[0], bucket);
    }
  }

  /** The boto3 S3 client, built from one credential triple. */
  datatype S3Handle = S3Handle(credentials: Triple)

  datatype Client = Client(bucket: string, service: string,
                           auth: UniversalAuth.Provider, s3: Option<S3Handle>)

  /** `UniversalS3Client(bucket_name, service_name)`: validated before use. */
  function NewClient(bucket: string, service: string): (r: Result<Client, string>)
    ensures r.Success? <==> ValidateBucketAccess(bucket, service).Success?
    ensures r.Success? ==> r.value.s3.None? && r.value.auth == UniversalAuth.NewProvider(service)
  {
    match ValidateBucketAccess(bucket, service)
    case Failure(msg) => Failure(msg)
    case Success(_) => Success(Client(bucket, service, UniversalAuth.NewProvider(service), None))
  }

  /** `_refresh_client_if_needed`. */
  function RefreshIfNeeded(c: Client, now: int): (r: Client)
    ensures r.s3.Some? ==> !Expired(r.auth.cache, now)
    ensures Expired(c.auth.cache, now) ==> r.s3.None?
    ensures !Expired(c.auth.cache, now) ==> r == c
    ensures r == c || r == c.(s3 := None)
  {
    if Expired(c.auth.cache, now) then c.(s3 := None) else c
  }

  /** `_get_s3_client`: the cached handle, or one built from the triple
      the provider's `get_credentials` returns, the provider reading cookie
      lines split on `sep` (`UniversalAuth.AsWritten` as the source
      splits them, `UniversalAuth.Tab` as intended); the request sent, if
      any, comes last. */
  function GetS3Client(c: Client, w: UniversalAuth.World, sep: string): (r: (Result<S3Handle, string>, Client, Option<HttpRequest>))
    requires |sep| > 0
    ensures c.s3.Some? ==> r == (Success(c.s3.value), c, None)
    ensures r.1.bucket == c.bucket && r.1.service == c.service
    ensures r.0.Success? ==> r.1.s3 == Some(r.0.value)
    ensures c.s3.None? ==>
              var answer := UniversalAuth.GetCredentialsWith(c.auth, w, sep);
              && r.2 == answer.2
              && r.1.auth == answer.1
              && (r.0.Success? <==> answer.0.Success?)
              && (r.0.Success? ==> r.0.value == S3Handle(answer.0.value))
              && (r.0.Failure? ==> r.0.error == answer.0.error && r.1.s3.None?)
  {
    match c.s3
    case Some(handle) => (Success(handle), c, None)
    case None =>
      var (creds, auth, request) := UniversalAuth.GetCredentialsWith(c.auth, w, sep);
      match creds
      case Failure(msg) => (Failure(msg), c.(auth := auth), request)
      case Success(triple) =>
        var handle := S3Handle(triple);
        (Success(handle), c.(auth := auth, s3 := Some(handle)), request)
  }

  /** What every S3 operation does first: refresh, then get the client. A
      cached handle is reused without contacting the credential service
      while the provider's credentials are fresh, whatever the cookie file
      holds. */
  lemma FreshHandleReused(c: Client, w: UniversalAuth.World, sep: string)
    requires |sep| > 0
    requires c.s3.Some? && !Expired(c.auth.cache, w.now)
    ensures GetS3Client(RefreshIfNeeded(c, w.now), w, sep) == (Success(c.s3.value), c, None)
  {
  }

  /** The cookie-separator discrepancy reaches the S3 client: with no
      handle and no cached credentials, a valid tab-separated cookie file
      makes the client as written fail without contacting the credential
      service, while the intended reading sends that cookie. */
  lemma ClientCookieFileWitness(c: Client, w: UniversalAuth.World, fields: seq<string>)
    requires c.s3.None? && !Hit(c.auth.cache, w.now)
    requires w.deployed && w.apiUrl.Some? && w.apiUrl.value != ""
    requires |fields| >= 7 && FreeOf(fields, '\t') && FreeOf(fields, '\\') && UniversalAuth.IsMarkerName(fields[5])
    requires var line := Join(fields, UniversalAuth.Tab);
             |line| > 0 ==> !IsSpace(line[0]) && !IsSpace(line[|line| - 1])
    requires w.cookieFile == Some([Join(fields, UniversalAuth.Tab)])
    requires !UniversalAuth.IsCookieExpired(w.cookieFile, w.now, w.parseInt, UniversalAuth.Tab)
    ensures GetS3Client(c, w, UniversalAuth.AsWritten) == (Failure(UniversalAuth.CookiesMissing), c, None)
    ensures GetS3Client(c, w, UniversalAuth.Tab).2 ==
              Some(CredentialRequest(w.apiUrl.value + "/credentials", c.auth.service, fields[5] + "=" + fields[6]))
  {
    UniversalAuth.CookieFileWitness(c.auth, w, fields);
    assert UniversalAuth.GetCredentialsWith(c.auth, w, UniversalAuth.AsWritten) == UniversalAuth.GetCredentials(c.auth, w);
    assert UniversalAuth.GetCredentialsWith(c.auth, w, UniversalAuth.Tab) == UniversalAuth.GetCredentialsIntended(c.auth, w);
  }
}

=== FILE: username.dfy ===
/** The regular expression both Midway authorizers run over a decoded JWT
    payload to find the `logged_in_username` claim, and `re.search`'s
    leftmost-match rule.

    The two authorizers spell the pattern differently. The s3bridge-mw one
    allows whitespace (`\s*`) on both sides of the colon. The universal one
    writes `\\s*` inside a raw string. That text means one literal backslash
    followed by any number of letters `s`, so a plain JSON payload never
    matches it. Both readings are modelled as a `Gap`.

    Every character a gap may hold differs from `:` and from `"`, which
    makes the regex deterministic: at a given start position there is at
    most one way to match, and `MatchAt` computes it directly. */
module UsernamePattern {
  import opened Wrappers
  import opened Text

  const Key: string := "\"logged_in_username\""

  /** What the pattern accepts around the colon. */
  datatype Gap =
    | Spaces          // `\s*`: any run of whitespace
    | BackslashEsses  // `\\s*` in a raw string: one backslash, then any run of `s`

  datatype CharClass = Whitespace | Ess | NotQuote

  predicate InClass(cls: CharClass, c: char) {
    match cls
    case Whitespace => IsSpace(c)
    case Ess => c == 's'
    case NotQuote => c != '"'
  }

  /** The end of the run of `cls` characters that starts at `j`. */
  function Skip(s: string, j: nat, cls: CharClass): (k: nat)
    requires j <= |s|
    ensures j <= k <= |s|
    ensures forall t :: j <= t < k ==> InClass(cls, s[t])
    ensures k == |s| || !InClass(cls, s[k])
    decreases |s| - j
  {
    if j < |s| && InClass(cls, s[j]) then Skip(s, j + 1, cls) else j
  }

  /** A maximal run has only one possible end. */
  lemma SkipExact(s: string, j: nat, cls: CharClass, k: nat)
    requires j <= k <= |s|
    requires forall t :: j <= t < k ==> InClass(cls, s[t])
    requires k == |s| || !InClass(cls, s[k])
    ensures Skip(s, j, cls) == k
  {
  }

  /** `s[j..k]` is text the gap accepts. */
  ghost predicate GapSpan(s: string, g: Gap, j: int, k: int) {
    0 <= j <= k <= |s| &&
    match g
    case Spaces => forall t :: j <= t < k ==> IsSpace(s[t])
    case BackslashEsses => j < k && s[j] == '\\' && forall t :: j < t < k ==> s[t] == 's'
  }

  /** Where the gap starting at `j` ends; `None` when the gap cannot start there. */
  function GapEnd(s: string, g: Gap, j: nat): Option<nat>
    requires j <= |s|
  {
    match g
    case Spaces => Some(Skip(s, j, Whitespace))
    case BackslashEsses =>
      if j < |s| && s[j] == '\\' then Some(Skip(s, j + 1, Ess)) else None
  }

  /** The capture `u` starts at `j` and is closed by a quote. */
  ghost predicate ValueShape(s: string, j: int, u: string) {
    && |u| > 0 && (forall t :: 0 <= t < |u| ==> u[t] != '"')
    && OccursAt(s, u + "\"", j)
  }

  /** The regex matched at `i`: key at `i`, gap up to the colon at `k1`, gap
      up to the opening quote at `k2`, then the captured `u` and a closing quote. */
  ghost predicate Shape(s: string, g: Gap, i: int, k1: int, k2: int, u: string) {
    && OccursAt(s, Key, i)
    && GapSpan(s, g, i + |Key|, k1) && k1 < |s| && s[k1] == ':'
    && GapSpan(s, g, k1 + 1, k2) && k2 < |s| && s[k2] == '"'
    && ValueShape(s, k2 + 1, u)
  }

  /** A match of the pattern starts at `i` and captures `u`. */
  ghost predicate Captures(s: string, g: Gap, i: int, u: string) {
    exists k1, k2 :: Shape(s, g, i, k1, k2, u)
  }

  /** `([^"]+)"` at position `j`. */
  function ValueAt(s: string, j: nat): Option<string>
    requires j <= |s|
  {
    var e := Skip(s, j, NotQuote);
    if j < e < |s| then Some(s[j..e]) else None
  }

  /** `\s*"([^"]+)"` (in the chosen gap reading) after the colon at `k1`. */
  function AfterColon(s: string, g: Gap, k1: nat): Option<string>
    requires k1 < |s|
  {
    match GapEnd(s, g, k1 + 1)
    case None => None
    case Some(k2) =>
      if k2 < |s| && s[k2] == '"' then ValueAt(s, k2 + 1) else None
  }

  /** The match attempt at one start position. */
  function MatchAt(s: string, g: Gap, i: nat): Option<string>
  {
    if !OccursAt(s, Key, i) then None
    else match GapEnd(s, g, i + |Key|)
      case None => None
      case Some(k1) =>
        if k1 < |s| && s[k1] == ':' then AfterColon(s, g, k1) else None
  }

  lemma GapEndSpan(s: string, g: Gap, j: nat)
    requires j <= |s| && GapEnd(s, g, j).Some?
    ensures GapSpan(s, g, j, GapEnd(s, g, j).value)
  {
  }

  /** A gap followed by a character it cannot hold is found by `GapEnd`. */
  lemma GapEndExact(s: string, g: Gap, j: nat, k: nat)
    requires GapSpan(s, g, j, k) && k < |s| && (s[k] == ':' || s[k] == '"')
    ensures GapEnd(s, g, j) == Some(k)
  {
    match g
    case Spaces => SkipExact(s, j, Whitespace, k);
    case BackslashEsses => SkipExact(s, j + 1, Ess, k);
  }

  lemma ValueAtSound(s: string, j: nat)
    requires j <= |s| && ValueAt(s, j).Some?
    ensures ValueShape(s, j, ValueAt(s, j).value)
  {
    var e := Skip(s, j, NotQuote);
    var u := s[j..e];
    assert s[j..e + 1] == u + "\"";
  }

  lemma ValueAtComplete(s: string, j: nat, u: string)
    requires j <= |s| && ValueShape(s, j, u)
    ensures ValueAt(s, j) == Some(u)
  {
    var e := j + |u|;
    assert s[j..e + 1] == u + "\"";
    assert s[j..e] == (u + "\"")[..|u|] == u;
    forall t | j <= t < e ensures InClass(NotQuote, s[t]) {
      assert s[t] == u[t - j];
    }
    assert s[e] == (u + "\"")[|u|];
    SkipExact(s, j, NotQuote, e);
  }

  lemma AfterColonSound(s: string, g: Gap, k1: nat)
    requires k1 < |s| && AfterColon(s, g, k1).Some?
    ensures exists k2 :: GapSpan(s, g, k1 + 1, k2) && k2 < |s| && s[k2] == '"'
                         && ValueShape(s, k2 + 1, AfterColon(s, g, k1).value)
  {
    var k2 := GapEnd(s, g, k1 + 1).value;
    GapEndSpan(s, g, k1 + 1);
    ValueAtSound(s, k2 + 1);
  }

  lemma AfterColonComplete(s: string, g: Gap, k1: nat, k2: int, u: string)
    requires k1 < |s| && GapSpan(s, g, k1 + 1, k2) && k2 < |s| && s[k2] == '"'
    requires ValueShape(s, k2 + 1, u)
    ensures AfterColon(s, g, k1) == Some(u)
  {
    GapEndExact(s, g, k1 + 1, k2);
    ValueAtComplete(s, k2 + 1, u);
  }

  /** Whatever the attempt returns is a genuine match. */
  lemma MatchAtSound(s: string, g: Gap, i: nat)
    requires MatchAt(s, g, i).Some?
    ensures Captures(s, g, i, MatchAt(s, g, i).value)
  {
    var k1 := GapEnd(s, g, i + |Key|).value;
    GapEndSpan(s, g, i + |Key|);
    var u := AfterColon(s, g, k1).value;
    AfterColonSound(s, g, k1);
    var k2 :| GapSpan(s, g, k1 + 1, k2) && k2 < |s| && s[k2] == '"' && ValueShape(s, k2 + 1, u);
    assert Shape(s, g, i, k1, k2, u);
  }

  /** Every match at `i` is found by the attempt at `i`. */
  lemma MatchAtComplete(s: string, g: Gap, i: nat, k1: int, k2: int, u: string)
    requires Shape(s, g, i, k1, k2, u)
    ensures MatchAt(s, g, i) == Some(u)
  {
    GapEndExact(s, g, i + |Key|, k1);
    AfterColonComplete(s, g, k1, k2, u);
  }

  lemma NoMatchNoCapture(s: string, g: Gap, i: nat)
    requires MatchAt(s, g, i).None?
    ensures forall u :: !Captures(s, g, i, u)
  {
    forall u ensures !Captures(s, g, i, u) {
      if Captures(s, g, i, u) {
        var k1, k2 :| Shape(s, g, i, k1, k2, u);
        MatchAtComplete(s, g, i, k1, k2, u);
      }
    }
  }

  /** At most one capture per start position. */
  lemma CaptureUnique(s: string, g: Gap, i: nat, u: string, v: string)
    requires Captures(s, g, i, u) && Captures(s, g, i, v)
    ensures u == v
  {
    var k1, k2 :| Shape(s, g, i, k1, k2, u);
    var m1, m2 :| Shape(s, g, i, m1, m2, v);
    MatchAtComplete(s, g, i, k1, k2, u);
    MatchAtComplete(s, g, i, m1, m2, v);
  }

  /** `re.search` from position `i` onwards: the capture of the leftmost
      match, or `None` when no position matches. */
  function SearchFrom(s: string, g: Gap, i: nat): (r: Option<string>)
    decreases |s| - i
    ensures r.Some? ==> exists k :: i <= k && Captures(s, g, k, r.value)
                                     && forall j, v :: i <= j < k ==> !Captures(s, g, j, v)
    ensures r.None? ==> forall j, v :: i <= j ==> !Captures(s, g, j, v)
  {
    if i + |Key| > |s| then
      None
    else match MatchAt(s, g, i)
      case Some(u) =>
        MatchAtSound(s, g, i);
        Some(u)
      case None =>
        NoMatchNoCapture(s, g, i);
        SearchFrom(s, g, i + 1)
  }

  /** `re.search(pattern, s)` followed by `.group(1)`. */
  function FindUsername(s: string, g: Gap): (r: Option<string>)
    ensures r.Some? ==> exists k :: 0 <= k && Captures(s, g, k, r.value)
                                    && forall j, v :: 0 <= j < k ==> !Captures(s, g, j, v)
    ensures r.None? ==> forall j, v :: 0 <= j ==> !Captures(s, g, j, v)
  {
    SearchFrom(s, g, 0)
  }

  /** A captured name is copied verbatim out of the text: it is non-empty,
      holds no quote, and sits in the text between two quotes. */
  lemma CaptureIsVerbatim(s: string, g: Gap, i: int, u: string)
    requires Captures(s, g, i, u)
    ensures |u| > 0 && forall t :: 0 <= t < |u| ==> u[t] != '"'
    ensures Contains(s, "\"" + u + "\"")
  {
    var k1, k2 :| Shape(s, g, i, k1, k2, u);
    assert s[k2..k2 + |u| + 2] == "\"" + u + "\"" by {
      assert s[k2 + 1..k2 + 1 + |u| + 1] == u + "\"";
    }
    assert OccursAt(s, "\"" + u + "\"", k2);
  }

  /** The universal authorizer's pattern needs a backslash in the payload:
      text without one never yields a name. */
  lemma {:induction false} NoBackslashNoMatch(s: string)
    requires forall t :: 0 <= t < |s| ==> s[t] != '\\'
    ensures FindUsername(s, BackslashEsses) == None
  {
  }

  /** A compact JSON payload whose first `logged_in_username` key is
      followed by `:"u"` yields `u` under the whitespace-tolerant pattern. */
  lemma {:induction false} CompactClaimFound(text: string, pre: string, u: string, post: string)
    requires text == pre + Key + ":\"" + u + "\"" + post
    requires |u| > 0 && forall t :: 0 <= t < |u| ==> u[t] != '"'
    requires forall j :: 0 <= j < |pre| ==> !OccursAt(text, Key, j)
    ensures FindUsername(text, Spaces) == Some(u)
  {
    var i := |pre|;
    var k1 := i + |Key|;
    var k2 := k1 + 1;
    assert text[i..i + |Key|] == Key;
    assert text[k1] == ':' && text[k2] == '"';
    assert text[k2 + 1..k2 + 1 + |u| + 1] == u + "\"";
    assert Shape(text, Spaces, i, k1, k2, u);
    assert Captures(text, Spaces, i, u);
    var r := FindUsername(text, Spaces);
    assert r.Some?;
    var k :| 0 <= k && Captures(text, Spaces, k, r.value)
             && forall j, v :: 0 <= j < k ==> !Captures(text, Spaces, j, v);
    assert k == i;
    CaptureUnique(text, Spaces, i, u, r.value);
  }
}

=== FILE: wrappers.dfy ===
/** Failure-carrying values used throughout the model: an absent value and
    an operation that either succeeds or raises. */
module Wrappers {

  datatype Option<+T> = None | Some(value: T) {
    function GetOr(default: T): T {
      match this
      case Some(v) => v
      case None => default
    }
  }

  /** A Python call that returns a value or raises: the failure carries what
      the raised exception would say. */
  datatype Result<+R, +E> = Success(value: R) | Failure(error: E)
}
